=== FILE: README.md ===
# Budget tracker: WhatsApp receipt pipeline and dashboard arithmetic

This project models the core of a small budget tracker. Users record income and
expenses in a hosted table. They can also send a screenshot of a bank-transfer
receipt over WhatsApp, and a webhook turns it into a transaction row.

The model covers:

- **The webhook** (`app/api/whatsapp/webhook/route.ts`):
  - the envelope filter of `POST` and the redelivery set `processedMessages`;
  - the per-sender ten-second image key and the thousand-entry flush;
  - the `GET` verification handshake and the text-command table;
  - `processTransactionImage` and its short-circuits;
  - the phone-number resolver `findUserByPhone`;
  - the duplicate detector, and the lazy creation of categories and transaction rows.

  The handlers are the class `WebhookRoute.Webhook`. Its fields are the redelivery set, the transaction table, the category table and the outbox of WhatsApp messages. Each handler is proved to leave exactly the state that a function of module `Pipeline` gives. The lemmas about those functions carry the properties.
- **The extraction library** (`lib/ocr-service.ts`):
  - keyword categorisation and income/expense typing;
  - conversion of "18 Aug 2025" to the extended calendar-date form `YYYY-MM-DD` of ISO 8601 (section 4.1.2.2);
  - the defensive validator and the fixed fallback record;
  - brace-span JSON recovery;
  - the line-scanning parser for receipt text.
- **Phone registration** (`app/components/WhatsAppIntegration.tsx`): formatting, validation and the save handler. A lemma links a number saved there to the resolver of the webhook.
- **Dashboard arithmetic**, lifted out of UI files:
  - category ordering and default seeding;
  - income and expense totals;
  - savings-goal progress;
  - per-category chart data;
  - avatar initials and the display-name fallback.

## How the model is set up

- Amounts are `real`.
- The store is in-memory sequences of rows.
- Outgoing WhatsApp messages are `Notice` values appended to an outbox.
- Everything the code gets from outside is a parameter: `Date.now()`, today's date, `JSON.parse`, the `new Date(s)` fallback, the Gemini answer and whether a download or a store call succeeds. They are bundled in `Pipeline.Env`.
- Store outcomes are given per message or per image, not once per request:
  - the resolver's connection test and listing are keyed by the message being handled;
  - the download, the Gemini answer, the duplicate query and the insert are keyed by the image id.

  So one request can hold an image whose insert fails next to one whose insert succeeds.
- Loops of the source are methods with loop invariants:
  - the `POST` loops;
  - the format building and lookups of `findUserByPhone`;
  - `improveCategory`;
  - the line loop of `parseTransactionText`;
  - `parseBhutanDate`;
  - the `reduce` of `expensesByCategory`.

  Each method is proved equal to a function, and the lemmas are stated about that function.

## Model

| member | source | states |
|---|---|---|
| Pipeline.VerifyReply | app/api/whatsapp/webhook/route.ts:120-138 | the challenge is echoed, unchanged, exactly when the mode is "subscribe" and a token is given that equals the configured secret; otherwise the reply is 403 |
| Pipeline.PostReplies | app/api/whatsapp/webhook/route.ts:16-117 | the 500 reply comes exactly from a body that cannot be read (which changes nothing) or from an account envelope whose loops threw (which keeps the state reached before the throw); an envelope for another object gets success with no work done |
| Pipeline.MessagesStop | app/api/whatsapp/webhook/route.ts:53-65 | once a null message has thrown, the messages after it change nothing |
| Pipeline.ChangesStop | app/api/whatsapp/webhook/route.ts:34-46 | once a change has thrown, the changes after it change nothing |
| Pipeline.EntriesStop | app/api/whatsapp/webhook/route.ts:31-34 | once an entry has thrown, the entries after it change nothing |
| Pipeline.MessagesNoThrow | app/api/whatsapp/webhook/route.ts:53-101 | a message list without null elements never throws |
| Pipeline.ChangesNoThrow | app/api/whatsapp/webhook/route.ts:34-102 | readable changes without null messages never throw |
| Pipeline.EntriesNoThrow | app/api/whatsapp/webhook/route.ts:31-103 | readable entries, changes and messages never throw |
| Pipeline.WellShapedSucceeds | app/api/whatsapp/webhook/route.ts:16-117 | an account envelope of readable entries, changes and messages always gets the success reply |
| Pipeline.NullMessageKeepsEarlierWork | app/api/whatsapp/webhook/route.ts:53-65 | a null message after k good ones: those k are handled and their rows and notices stay, nothing after it is handled, and the request gets the 500 reply |
| Pipeline.SkippedChanges | app/api/whatsapp/webhook/route.ts:37-47 | a change with status updates, or whose field is not "messages", leaves the state untouched and does not throw; statuses are checked first, so a change with both is skipped; a null change, or a messages change without a value, throws |
| Pipeline.RedeliveryIgnored | app/api/whatsapp/webhook/route.ts:64-74 | a message whose id is already recorded sends nothing and writes nothing |
| Pipeline.NoIdNeverSuppressed | app/api/whatsapp/webhook/route.ts:64-74 | a message without an id is always dispatched |
| Pipeline.MessageStepKeys | app/api/whatsapp/webhook/route.ts:64-74 | the set only grows; a new id is recorded; the only other key a message can add is its sender's image key |
| Pipeline.TickClears | app/api/whatsapp/webhook/route.ts:9-13 | the timer empties the set exactly when it holds more than 1000 keys, and otherwise changes nothing |
| Pipeline.Tick | app/api/whatsapp/webhook/route.ts:9-13 | the timer never touches the tables or the outbox |
| Pipeline.SameBucketImageDropped | app/api/whatsapp/webhook/route.ts:186-191 | a second image from a sender whose image key for this time bucket is present is dropped before any lookup; only its id is recorded |
| Pipeline.ImageKeyBuckets | app/api/whatsapp/webhook/route.ts:186-191 | two image keys of one sender are equal exactly when the two times fall in the same aligned ten-second bucket |
| Pipeline.DropLast4 | app/api/whatsapp/webhook/route.ts:186 | `slice(0, -4)` gives "" for four characters or fewer, and otherwise drops the last four |
| Pipeline.TextCommandPriority | app/api/whatsapp/webhook/route.ts:140-172 | no sender or no body gives no reply; otherwise the lower-cased body is matched by substring, with help before status before test, then the fallback; "test" echoes the lower-cased body |
| Pipeline.StatusReply | app/api/whatsapp/webhook/route.ts:152-161 | "status" reports the first eight characters of the user id followed by "..." and the stored number when the sender resolves, and otherwise the sender's number |
| Pipeline.Prefix8 | app/api/whatsapp/webhook/route.ts:157 | `substring(0, 8)` is the prefix of length min(8, length) |
| Pipeline.UnregisteredGetsWelcome | app/api/whatsapp/webhook/route.ts:194-202 | a new image from a sender who does not resolve gets exactly the welcome notice naming the number, and nothing is written |
| Pipeline.MissingImageId | app/api/whatsapp/webhook/route.ts:207-226 | a registered sender whose message has no image id gets the processing notice, then the no-image notice, and nothing is written |
| Pipeline.SaveExtractedOutcomes | app/api/whatsapp/webhook/route.ts:228-256 | in order: an amount that is not positive gives the extraction-failed notice and no write; a duplicate gives the duplicate notice and no write; a failed insert gives the save-failed then the error notice, with the category created; otherwise one row is appended and the confirmation sent |
| Pipeline.AutoTransactionRejectsAmount | app/api/whatsapp/webhook/route.ts:631-671 | an amount that is not positive makes `createAutoTransaction` fail after sending the save-failed notice, without any write |
| Pipeline.PostOnlyAppendsFlaggedRows | app/api/whatsapp/webhook/route.ts:16-117 | a POST never changes or removes a transaction row; every row it appends carries the pipeline's provenance |
| Pipeline.MessagesAppendFlagged | app/api/whatsapp/webhook/route.ts:58-101 | the message loop, thrown or not, only appends rows that carry the provenance |
| Pipeline.ChangeStepAppendsFlagged | app/api/whatsapp/webhook/route.ts:36-101 | one change only appends rows that carry the provenance |
| Pipeline.ChangesAppendFlagged | app/api/whatsapp/webhook/route.ts:33-102 | the change loop only appends rows that carry the provenance |
| Pipeline.EntriesAppendFlagged | app/api/whatsapp/webhook/route.ts:31-103 | the entry loop only appends rows that carry the provenance |
| Pipeline.DispatchFacts | app/api/whatsapp/webhook/route.ts:76-101 | dispatching adds at most the image key to the set and only appends rows that carry the provenance |
| Pipeline.AutoTransactionExtends | app/api/whatsapp/webhook/route.ts:631-671 | `createAutoTransaction` leaves the set alone and only appends a row that carries the provenance |
| Pipeline.SaveExtractedExtends | app/api/whatsapp/webhook/route.ts:228-256 | saving extracted data leaves the set alone and only appends rows that carry the provenance |
| Pipeline.ForUserExtends | app/api/whatsapp/webhook/route.ts:204-256 | processing for a known user leaves the set alone and only appends rows that carry the provenance |
| WebhookRoute.Webhook.constructor | app/api/whatsapp/webhook/route.ts:6 | a fresh webhook starts with an empty redelivery set and outbox over the given tables |
| WebhookRoute.Webhook.SendMessage | app/api/whatsapp/webhook/route.ts:599-629 | sending appends one message to the outbox and changes nothing else |
| WebhookRoute.Webhook.Tick | app/api/whatsapp/webhook/route.ts:9-13 | the timer step leaves the state `Pipeline.Tick` gives |
| WebhookRoute.Webhook.EnsureCategoryExists | app/api/whatsapp/webhook/route.ts:673-728 | the category table becomes `Rows.EnsureCategory` of the old one, and nothing else changes |
| WebhookRoute.Webhook.CreateAutoTransaction | app/api/whatsapp/webhook/route.ts:631-671 | the new state is the one the auto-transaction step gives; it reports success exactly when the amount is positive and the insert succeeds |
| WebhookRoute.Webhook.SaveExtractedData | app/api/whatsapp/webhook/route.ts:228-256 | the new state is the one the save step gives |
| WebhookRoute.Webhook.ProcessForUser | app/api/whatsapp/webhook/route.ts:204-256 | the new state is the one the known-user step gives |
| WebhookRoute.Webhook.ProcessTransactionImage | app/api/whatsapp/webhook/route.ts:174-265 | the new state is the one the image step gives |
| WebhookRoute.Webhook.HandleTextMessage | app/api/whatsapp/webhook/route.ts:140-172 | the new state is the one the text step gives |
| WebhookRoute.Webhook.HandleMessage | app/api/whatsapp/webhook/route.ts:58-101 | one message of the loop: redelivery check, id recorded, dispatch by type |
| WebhookRoute.Webhook.ProcessChange | app/api/whatsapp/webhook/route.ts:36-101 | one change, with the statuses and field filters, folds the message step over its messages, stopping at a null message; the new state and whether it threw are those `Pipeline.ChangeStep` gives |
| WebhookRoute.Webhook.ProcessEntry | app/api/whatsapp/webhook/route.ts:33-102 | one entry folds the change step over its changes, stopping at the first that throws; the new state and whether it threw are those `Pipeline.EntryStep` gives |
| WebhookRoute.Webhook.Post | app/api/whatsapp/webhook/route.ts:16-117 | the new state and the reply are those `Pipeline.Post` gives, including the 500 reply after partial work when a loop throws |
| Resolver.Add | app/api/whatsapp/webhook/route.ts:358-362 | `Set.add` keeps the earlier elements in place and adds the new one once |
| Resolver.AddAll | app/api/whatsapp/webhook/route.ts:358-398 | adding several keeps the earlier elements in place; the result holds exactly the old and the new elements |
| Resolver.NonEmptyOnly | app/api/whatsapp/webhook/route.ts:401 | keeps exactly the non-empty formats |
| Resolver.Enabled | app/api/whatsapp/webhook/route.ts:345-347 | exactly the profiles with WhatsApp enabled |
| Resolver.Lookup | app/api/whatsapp/webhook/route.ts:405-435 | finds an enabled profile storing exactly that format, and finds none exactly when no such profile exists |
| Resolver.ExactFrom | app/api/whatsapp/webhook/route.ts:405-435 | the exact phase returns the lookup of some candidate, and returns null exactly when no candidate is found |
| Resolver.BuildFormats | app/api/whatsapp/webhook/route.ts:358-401 | the loop that builds the formats produces the candidate list |
| Resolver.FindUserByPhone | app/api/whatsapp/webhook/route.ts:318-487 | the loops with early returns produce the resolver's answer, whose exact and fuzzy phases the lemmas below pin down |
| Resolver.FuzzyFromEnabled | app/api/whatsapp/webhook/route.ts:438-476 | the fallback only returns a profile from the list it scans |
| Resolver.FuzzyFindsFirst | app/api/whatsapp/webhook/route.ts:438-467 | the first enabled row whose number fuzzily matches, reached past rows that all have non-matching numbers, is the one returned |
| Resolver.FuzzyResultIsFirst | app/api/whatsapp/webhook/route.ts:438-467 | whatever the fuzzy phase returns is such a first match |
| Resolver.NullPhoneEndsFuzzy | app/api/whatsapp/webhook/route.ts:438-440 | a row without a number, reached before any match, ends the search with null (the throw is caught at line 478) |
| Resolver.FuzzyPhaseDecides | app/api/whatsapp/webhook/route.ts:405-467 | when no candidate format finds anyone exactly, the resolver returns the first enabled user whose number fuzzily matches |
| Resolver.NeverDisabled | app/api/whatsapp/webhook/route.ts:345-347 | a user with WhatsApp disabled is never returned, and nothing outside the table is |
| Resolver.NoEnabledUsers | app/api/whatsapp/webhook/route.ts:327-355 | a failing store, or no enabled users, gives null |
| Resolver.CandidatesAlwaysInclude | app/api/whatsapp/webhook/route.ts:361-362 | the candidates always include "+" followed by the trimmed input, and the trimmed input when it is not blank |
| Resolver.CandidatesStart | app/api/whatsapp/webhook/route.ts:361-362 | a non-blank input puts its trimmed form first and "+" followed by it second |
| Resolver.FullBhutanYieldsLocal | app/api/whatsapp/webhook/route.ts:368-379 | an 11-digit sender starting with 975 also yields its 8-digit local part |
| Resolver.LocalYieldsCountryCode | app/api/whatsapp/webhook/route.ts:381-389 | an 8-digit sender starting with 17 or 77 yields "975…" and "+975…" |
| Resolver.TenDigitsYieldsUsForm | app/api/whatsapp/webhook/route.ts:390-398 | a sender of exactly ten digits yields "+1…" |
| Resolver.ExactFirstMatchWins | app/api/whatsapp/webhook/route.ts:405-435 | with enabled users, the first candidate in insertion order that is stored by an enabled user decides the result |
| Resolver.FuzzyMatchRule | app/api/whatsapp/webhook/route.ts:438-476 | the fallback matches on equal digits, or in the 11-versus-8-digit case where the shorter is a suffix of the longer (no 975 check) |
| Resolver.ContainmentAloneDoesNotMatch | app/api/whatsapp/webhook/route.ts:449-462 | outside the 11-versus-8 case, containment alone never matches; the digits must be equal |
| Resolver.UnprefixedNotStored | app/api/whatsapp/webhook/route.ts:405-435 | when every stored number begins with "+", a format without it finds nobody |
| Resolver.LookupFindsOwner | app/api/whatsapp/webhook/route.ts:405-435 | when numbers are distinct, the lookup of an enabled owner's number finds that owner |
| Resolver.PlainSender | app/api/whatsapp/webhook/route.ts:361 | a non-empty digit string trims to itself and does not start with "+" |
| Resolver.PlusCandidateResolves | app/api/whatsapp/webhook/route.ts:361-363 | a sender reported as plain digits is found through its "+"-prefixed candidate when stored numbers begin with "+" |
| Resolver.RegisteredLocalNumberResolves | app/components/WhatsAppIntegration.tsx:73-120 | round trip: a valid local number saved as "+975…" is matched when WhatsApp reports the sender as "975…" |
| Resolver.SavedLocalNumberResolves | app/components/WhatsAppIntegration.tsx:73-113 | round trip from the save itself: after a user saves an 8-digit local number, a sender reported as "975" and those digits resolves to that user |
| Rows.AutoRow | app/api/whatsapp/webhook/route.ts:631-671 | the written row copies user, amount, date, category and type, takes the clock, and names the merchant or "Unknown" |
| Rows.AutoRowHasProvenance | app/api/whatsapp/webhook/route.ts:640-653 | every row `createAutoTransaction` writes passes the provenance test; its notes contain the marker |
| Rows.Matching | app/api/whatsapp/webhook/route.ts:276-282 | the query returns exactly the rows of the same user, amount and date created within the last day, all of them and in store order (it equals `Seqs.Filter` with that test) |
| Rows.Limit | app/api/whatsapp/webhook/route.ts:282 | `.limit(10)` keeps a prefix of at most ten rows, and all rows when there are at most ten |
| Rows.AnyFlaggedIff | app/api/whatsapp/webhook/route.ts:291-305 | the loop finds a flagged row exactly when one exists |
| Rows.IsDuplicate | app/api/whatsapp/webhook/route.ts:268-315 | a duplicate exactly when the query succeeded and one of at most ten recent matching rows shares the merchant either way round, ignoring case, or carries the provenance; a query error gives false |
| Rows.ResubmissionIsDuplicate | app/api/whatsapp/webhook/route.ts:268-315 | a row the pipeline wrote within the last day makes the same data a duplicate (while fewer than ten rows match) |
| Rows.MaxOrder | app/api/whatsapp/webhook/route.ts:696-703 | the highest order among the user's categories of that type: at least every one of their orders and equal to one of them; 0 when none exists |
| Rows.EnsureCategory | app/api/whatsapp/webhook/route.ts:673-728 | afterwards the category exists; an existing one leaves the table unchanged; otherwise exactly one row with order max + 1 and the type's colour is appended |
| Rows.NewCategoryOrderIsHighest | app/api/whatsapp/webhook/route.ts:696-715 | a created category comes after every category of its user and type, and gets order 1 when there is none |
| Rows.EnsureCategoryIdempotent | app/api/whatsapp/webhook/route.ts:673-728 | a second call with the same triple adds nothing |
| Phone.ValidatePhoneNumber | app/components/WhatsAppIntegration.tsx:45-71 | accepts exactly the accepted digit shapes; the errors come in precedence order: required, too short, 975 length, mobile prefix, international length |
| Phone.FormatPhoneNumber | app/components/WhatsAppIntegration.tsx:23-43 | the result is the input unchanged, "+" before its digits, or "+975" before its digits; eight digits always get a "+"-form; fewer than eight digits with no 975, 17 or 77 prefix are returned unchanged |
| Phone.FormatShapes | app/components/WhatsAppIntegration.tsx:23-43 | formatting prepends "+" (975… or ten or more digits), prepends "+975" (17/77 or eight digits), or returns the input unchanged, with the branches taken in that order |
| Phone.FormatIdempotent | app/components/WhatsAppIntegration.tsx:23-43 | formatting a formatted number changes nothing |
| Phone.ValidFormatsToPlusDigits | app/components/WhatsAppIntegration.tsx:23-71 | every accepted number formats to "+" followed only by its digits, at least nine of them |
| Phone.LongMobilePrefixGetsBhutanCode | app/components/WhatsAppIntegration.tsx:31-33 | an accepted number of ten or more digits starting with 17 or 77 still gets "+975" prepended |
| Phone.LocalNumberFormat | app/components/WhatsAppIntegration.tsx:34-36 | an accepted 8-digit number formats to "+975" followed by its digits |
| Phone.Registered | app/components/WhatsAppIntegration.tsx:106-113 | the user's own profile gets the number with WhatsApp enabled, and every other profile is unchanged |
| Phone.SavePhoneNumber | app/components/WhatsAppIntegration.tsx:73-120 | no user or a blank input does nothing; invalid input fails with its validation error; a number is saved, formatted, exactly when it is valid and no other user holds it |
| Phone.InvalidNeverStored | app/components/WhatsAppIntegration.tsx:80-87 | invalid input never reaches formatting or the store |
| Phone.SaveKeepsNumbersDistinct | app/components/WhatsAppIntegration.tsx:90-113 | saving never gives two profiles the same number |
| Resolver.SaveKeepsPlusPrefixed | app/components/WhatsAppIntegration.tsx:73-113 | saving keeps every stored number "+"-prefixed, since only a valid number is stored and it is stored formatted |
| Extraction.FallbackTransaction | lib/ocr-service.ts:231-240 | the fallback record has amount 0, category Other and type expense, dated today |
| Extraction.OrElse | lib/ocr-service.ts:423-432 | `x \|\| fallback` on strings: the value when present and non-empty, else the fallback |
| Extraction.MerchantOf | lib/ocr-service.ts:421 | the merchant is trimmed and never empty: the trimmed given merchant when that is non-empty, else 'Bank Transfer' |
| Extraction.ValidateTransactionData | lib/ocr-service.ts:410-438 | null exactly for non-objects and amounts that are not positive; otherwise the positive amount, the merchant `MerchantOf` gives, the category from `improveCategory`, the matching type, the parsed date or today, and the given description or the default one |
| Extraction.FirstIndexOf | lib/ocr-service.ts:36 | the first `{` at or after a position |
| Extraction.LastIndexOf | lib/ocr-service.ts:36 | the last `}` before a position |
| Extraction.BraceSpanIsGreedy | lib/ocr-service.ts:36-37 | a span exists exactly when some `{` precedes some `}`; it runs from the first `{` to the last `}` |
| Extraction.SafeParseJson | lib/ocr-service.ts:30-47 | a text that parses whole is taken as is; otherwise the recovery parses only the brace span, and gives null when both fail |
| Extraction.FromModelText | lib/ocr-service.ts:86-87 | the validated record when the text parses (whole or by its brace span) to a record that validates; exactly the fallback when it does not parse or does not validate; the amount is positive exactly when the result is not the fallback |
| Extraction.ExtractWithGemini | lib/ocr-service.ts:49-96 | never null: a validated record with a positive amount and a merchant, or exactly the fallback, which an engine error always gives; the model's text is trimmed and a missing text is read as "" before parsing and validation |
| Extraction.ExtractTransactionData | lib/ocr-service.ts:13-29 | the same guarantees for the entry point: validated record or exactly the fallback, told apart by the amount; the record is the one parsed and validated from the model's trimmed text |
| Extraction.CreateManualTransaction | lib/ocr-service.ts:441-456 | a manual entry keeps the amount and merchant, is dated today, is categorised and typed like an extracted one, and is described by the purpose or else "Manual entry - " and the merchant |
| Extraction.ManualWithoutMerchant | lib/ocr-service.ts:441-456 | a manual entry without a merchant is an expense in category Other |
| TextParser.TrimmedNonEmptyLines | lib/ocr-service.ts:137 | every line the scan sees is non-empty and trimmed |
| TextParser.NuAt | lib/ocr-service.ts:148-155 | an amount matched at a position is never negative |
| TextParser.NuPosition | lib/ocr-service.ts:175 | the leftmost position at or after a start where the `nu.` amount pattern matches; no earlier position matches, and none at all when there is no result |
| TextParser.NuAmount | lib/ocr-service.ts:174-183 | the value of the `nu.` match at the leftmost matching position, none when no position matches, and never negative |
| TextParser.NuWithCents | lib/ocr-service.ts:149-155 | a text starting "Nu. ", then digits, a dot or comma and two more digits, gives the value of the digits plus the two as hundredths, whatever follows |
| TextParser.CommaIsDecimal | lib/ocr-service.ts:149-155 | a comma is read as the decimal separator: "Nu. 1,250.00" gives 1.25 |
| TextParser.ParseTransactionText | lib/ocr-service.ts:127-227 | the parser returns the parse result of the text |
| TextParser.ScanLines | lib/ocr-service.ts:144-200 | the line loop leaves the scan state of the whole list |
| TextParser.ScanLine | lib/ocr-service.ts:145-199 | one line of the loop leaves its scan step |
| TextParser.FillFromFoodKeyword | lib/ocr-service.ts:186-192 | the keyword loop sets the trimmed line as merchant only when the merchant is empty and a food keyword occurs |
| TextParser.StandaloneAmountGuard | lib/ocr-service.ts:174-183 | a standalone `nu.` amount is taken only when the amount is still 0, the line has no "a/c" and the value lies in (0, 100000) |
| TextParser.PurposeLineOverwrites | lib/ocr-service.ts:158-163 | a "purpose" line with a value overwrites any known merchant |
| TextParser.FoodLineOnlyFills | lib/ocr-service.ts:186-192 | a food-keyword line never replaces a known merchant |
| TextParser.DateLineOverwrites | lib/ocr-service.ts:166-171 | a "date" line with a value overwrites any known date text |
| TextParser.DatePatternOnlyFills | lib/ocr-service.ts:195-199 | a date-pattern line never replaces a known date text |
| TextParser.LastPurposeWins | lib/ocr-service.ts:144-200 | the merchant after the scan is the value of the last "purpose" line with a value |
| TextParser.ScanAmountNonNegative | lib/ocr-service.ts:144-200 | the scanned amount is never negative |
| TextParser.ParsedTextResult | lib/ocr-service.ts:203-221 | blank text or a zero amount gives the fallback; otherwise a positive amount, the merchant or 'Bank Transfer', the category `improveCategory(merchant, 'Other')`, the matching type, the parsed date text or today, and the description "Fund transfer - " with the recorded merchant |
| TextParser.LabelLineValue | lib/ocr-service.ts:158-171 | a line "Label: value" captures exactly the value, whatever the case of the label |
| TextParser.LabelWithEmptyValue | lib/ocr-service.ts:158-171 | a label with a colon and nothing after it captures the colon itself |
| Categorize.Group | lib/ocr-service.ts:311-378 | a keyword group maps each of its keywords, in order, to its category |
| Categorize.TableCategoriesComplete | lib/ocr-service.ts:311-378 | every entry of the table maps to one of the table's categories |
| Categorize.OrOther | lib/ocr-service.ts:406 | the extracted category when present, else 'Other'; never empty |
| Categorize.FirstKeyword | lib/ocr-service.ts:386-390 | the first table entry, in declaration order, whose keyword occurs in the merchant |
| Categorize.ImproveCategory | lib/ocr-service.ts:380-407 | the table scan with early return gives the categorisation |
| Categorize.CategorizedNonEmpty | lib/ocr-service.ts:380-407 | the category is never empty |
| Categorize.FirstKeywordDecides | lib/ocr-service.ts:383-390 | the first keyword in table order that occurs in the lower-cased merchant decides, whatever the extracted category |
| Categorize.NoKeywordFallsBack | lib/ocr-service.ts:392-406 | with no table keyword in a non-empty merchant: salary or allowance gives Salary, else rent gives Housing, else loan or emi gives Loan, else the extracted category or 'Other' |
| Categorize.TableBeforePurposeRules | lib/ocr-service.ts:386-406 | when any keyword occurs the result is a table category, never Salary, Housing or Loan |
| Categorize.PurposeCategoriesOutsideTable | lib/ocr-service.ts:311-378 | Salary, Housing and Loan are not table categories |
| Categorize.CategorizedIgnoresCase | lib/ocr-service.ts:383 | lower-casing the merchant first changes nothing |
| Categorize.EmptyMerchantKeepsExtracted | lib/ocr-service.ts:381 | an empty merchant gives the extracted category or 'Other' |
| Categorize.JholMomoIsFood | lib/ocr-service.ts:311-390 | "Jhol Momo Restaurant", in either case, is Food |
| Categorize.TransferSalaryIsTransfer | lib/ocr-service.ts:311-406 | "Transfer salary" is Transfer, because the table comes before the salary rule |
| Categorize.DetermineTransactionType | lib/ocr-service.ts:243-257 | an empty merchant is an expense; a non-empty merchant with category Salary is income |
| Categorize.IncomeRule | lib/ocr-service.ts:243-257 | a non-empty merchant is income exactly when its lower-cased text contains salary, allowance, deposit or credit, or the category is Salary |
| Categorize.EmptyMerchantIsExpense | lib/ocr-service.ts:243-244 | an empty merchant is an expense, even when the category is Salary |
| Categorize.SalaryCategoryIsIncome | lib/ocr-service.ts:248-253 | a non-empty merchant categorised Salary is income |
| Categorize.TypeIgnoresCase | lib/ocr-service.ts:246 | typing does not depend on the case of the merchant |
| BhutanDate.MatchDmyAt | lib/ocr-service.ts:266 | a match at a position has the groups of the pattern: one or two digits, three word characters, four digits |
| BhutanDate.DmyPosition | lib/ocr-service.ts:266 | the leftmost position at or after a start where the day-month-year pattern matches; no earlier position matches, and none at all when there is no result |
| BhutanDate.FirstDmy | lib/ocr-service.ts:272 | the match at the leftmost matching position, none when no position matches; a match has the groups of the pattern |
| BhutanDate.FirstIso | lib/ocr-service.ts:267 | the leftmost `YYYY-MM-DD` at or after a position |
| BhutanDate.PadDay | lib/ocr-service.ts:279 | `padStart(2, '0')` gives two characters ending in the day |
| BhutanDate.ParseBhutanDate | lib/ocr-service.ts:260-308 | the pattern loop with early returns gives the parsed date |
| BhutanDate.MonthValuesAreTwoDigits | lib/ocr-service.ts:283-287 | every month value is a two-digit number |
| BhutanDate.DmyResultShape | lib/ocr-service.ts:278-292 | a converted "D Mon YYYY" has the shape YYYY-MM-DD |
| BhutanDate.ParsedDateShape | lib/ocr-service.ts:260-308 | a result is YYYY-MM-DD or came from the `new Date` fallback; when either pattern converts, the result is YYYY-MM-DD |
| BhutanDate.EmptyGivesNone | lib/ocr-service.ts:262 | empty input gives null |
| BhutanDate.DayMonthYear | lib/ocr-service.ts:278-292 | "D Mon YYYY" with a month in the map becomes year, month number and zero-padded day |
| BhutanDate.DmyAtStart | lib/ocr-service.ts:266 | the pattern matches "D Mon YYYY" at its start with the three groups |
| BhutanDate.ReceiptExample | lib/ocr-service.ts:259-292 | "18 Aug 2025" gives "2025-08-18" |
| BhutanDate.UnknownMonthFallsThrough | lib/ocr-service.ts:289-295 | a month outside the case-sensitive map falls through to the ISO pattern and then to the fallback |
| BhutanDate.IsoDateIsFixed | lib/ocr-service.ts:274-276 | an ISO date is returned verbatim |
| BhutanDate.ParsedDateIdempotent | lib/ocr-service.ts:260-308 | converting a converted date changes nothing |
| CategoryManager.MaxWithZero | app/components/CategoryManager.tsx:31 | `Math.max(...orders, 0)` is at least 0 and every order, and is 0 or one of them |
| CategoryManager.OrdersOf | app/components/CategoryManager.tsx:31 | exactly the orders of the categories of that type |
| CategoryManager.NextOrder | app/components/CategoryManager.tsx:31-40 | the new order is greater than every order of the same type, and is 1 or one more than one of them |
| CategoryManager.AddCategory | app/components/CategoryManager.tsx:25-52 | a row is inserted exactly when a user is signed in and the trimmed name is not empty; it has the trimmed name, the blue colour and the next order |
| CategoryManager.AddedCategoryComesLast | app/components/CategoryManager.tsx:25-52 | an added category sorts after every category of its type, and its name has nothing left to trim |
| CategoryManager.Seeded | app/components/CategoryManager.tsx:75-90 | one row per default name, with order equal to its index |
| CategoryManager.DefaultCategories | app/components/CategoryManager.tsx:70-103 | four green income rows, then seven red expense rows, each ordered by its index in its list |
| CategoryManager.ListsPartition | app/components/CategoryManager.tsx:105-106 | the two lists are exactly the categories of each type, and together they hold every category once |
| CategoryManager.SeededLists | app/components/CategoryManager.tsx:70-106 | after seeding, each list shows its defaults in their listed order |
| CategoryManager.AddingAfterSeeding | app/components/CategoryManager.tsx:14-40 | after seeding, the next added category gets order 4 (income) or 7 (expense) |
| SummaryCards.SummaryCardsOf | app/components/SummaryCards.tsx:12-64 | income and expenses are the sums over their type; net plus expenses is income; the net card is green exactly when income is at least expenses |
| SummaryCards.SumAppend | app/components/SummaryCards.tsx:12-18 | the sum of a concatenation is the sum of the sums |
| SummaryCards.SumPermutation | app/components/SummaryCards.tsx:12-18 | the sum does not depend on the order of the transactions |
| SummaryCards.TotalsAppend | app/components/SummaryCards.tsx:12-18 | a new transaction moves only the total of its own type, by its amount |
| SummaryCards.TotalsReorder | app/components/SummaryCards.tsx:12-20 | the totals and cards do not depend on transaction order |
| SummaryCards.TotalsPartition | app/components/SummaryCards.tsx:12-18 | each transaction counts in exactly one of the two totals |
| SavingsGoal.Progress | app/components/SavingsGoalCard.tsx:30 | 0 without a positive goal; never above 100; 100 exactly when savings reach the goal; negative exactly when savings are |
| SavingsGoal.Remaining | app/components/SavingsGoalCard.tsx:31 | never negative; zero exactly when savings reach the goal |
| SavingsGoal.PercentNeeded | app/components/SavingsGoalCard.tsx:33 | 0 when the balance is not positive; otherwise the share of the balance, as a percentage, that remains |
| SavingsGoal.GoalCard | app/components/SavingsGoalCard.tsx:20-33 | savings are income minus expenses; the balance is income; the goal defaults to 0; the card says achieved exactly when nothing remains |
| SavingsGoal.OverspendingShowsNegativeProgress | app/components/SavingsGoalCard.tsx:20-30 | with a positive goal, progress is negative exactly when expenses exceed income |
| SavingsGoal.NoGoalRow | app/components/SavingsGoalCard.tsx:29-33 | without a goal row, progress is 0, and "Goal achieved!" shows exactly when savings are not negative |
| SavingsGoal.IncomeReducesRemaining | app/components/SavingsGoalCard.tsx:20-31 | a new income never increases what remains, and reduces it by the whole amount while the goal is that far away |
| Charts.SliceColor | app/components/Charts.tsx:63-65 | every slice gets one of the eight colours |
| Charts.SliceColorCycle | app/components/Charts.tsx:12 | two slices share a colour exactly when their indices agree modulo 8 |
| Charts.CategorySumAppend | app/components/Charts.tsx:30-36 | a new transaction moves only the sum of its own type and category |
| Charts.ExpensesByCategory | app/components/Charts.tsx:16-21 | the `reduce` loop leaves the accumulator the fold gives |
| Charts.AccumulateMet | app/components/Charts.tsx:16-21 | the accumulator keys are exactly the categories met |
| Charts.AccumulateTotals | app/components/Charts.tsx:18-21 | each accumulated total is the sum over that category |
| Charts.AccumulateSum | app/components/Charts.tsx:16-26 | keys stay distinct and match the totals; the entries add up to the sum of everything folded |
| Charts.PieNames | app/components/Charts.tsx:16-26 | the pie keys are distinct and are exactly the categories of the expenses |
| Charts.PieValue | app/components/Charts.tsx:18-21 | a pie value is the expense total of its category |
| Charts.PieValues | app/components/Charts.tsx:23-26 | each slice carries the expense total of its name |
| Charts.PieData | app/components/Charts.tsx:16-26 | distinct names, exactly the expense categories, each with its total, all adding up to total expenses |
| Charts.Bars | app/components/Charts.tsx:29-36 | one row per category, in list order, with both sums for its name |
| Charts.CategoryTotals | app/components/Charts.tsx:29-43 | exactly the rows for listed categories with income or expenses above zero |
| Charts.BarsFollowCategories | app/components/Charts.tsx:29-43 | bar rows follow the order of the categories list |
| Charts.UnlistedCategoryIgnored | app/components/Charts.tsx:29-36 | a transaction whose category is not listed changes no bar row |
| Charts.PieAgreesWithBars | app/components/Charts.tsx:16-43 | a slice's value is the expense figure of the bar row of its name, and a positive slice has an active bar |
| UserProfile.FirstChar | app/components/UserProfile.tsx:84 | `charAt(0)`: the first character, or "" |
| UserProfile.Heads | app/components/UserProfile.tsx:84-85 | each initial is the first character of a non-empty word, and there are at most as many as words |
| UserProfile.Take2 | app/components/UserProfile.tsx:86 | `slice(0, 2)` keeps a prefix of at most two characters |
| UserProfile.HeadsOfNonEmptyWords | app/components/UserProfile.tsx:82-84 | the joined first characters are exactly the first characters of the non-empty words, in order: an empty word adds nothing |
| UserProfile.GetInitials | app/components/UserProfile.tsx:80-87 | the upper-cased first characters of the first two non-empty space-separated words, in order; fewer when there are fewer such words |
| UserProfile.OneWord | app/components/UserProfile.tsx:80-87 | a single word gives its upper-cased first letter |
| UserProfile.TwoWords | app/components/UserProfile.tsx:80-87 | two words give the upper-cased first letter of each |
| UserProfile.LaterWordsIgnored | app/components/UserProfile.tsx:86 | words after the second never show |
| UserProfile.LeadingSpaceIgnored | app/components/UserProfile.tsx:82-85 | a leading space makes an empty word, which contributes nothing |
| UserProfile.LocalPart | app/components/UserProfile.tsx:92 | the local part of the address holds no "@" |
| UserProfile.DisplayName | app/components/UserProfile.tsx:89-93 | the full name, else the user name, else the local part of the address, else "User"; never empty |
| UserProfile.AddressShowsLocalPart | app/components/UserProfile.tsx:92 | without a name, "local@domain" shows as "local" |
| UserProfile.FallbackName | app/components/UserProfile.tsx:92 | without a name, an address starting with "@" (or none) gives "User" |
| Text.ToLowerIdempotent | lib/ocr-service.ts:383 | lower-casing twice is lower-casing once |
| Text.Digits | app/components/WhatsAppIntegration.tsx:25 | `replace(/\D/g, '')` keeps only digits |
| Text.DigitsIdempotent | app/components/WhatsAppIntegration.tsx:25 | removing non-digits twice changes nothing more |
| Text.ContainsIff | lib/ocr-service.ts:387 | `includes` holds exactly when the substring occurs at some position |
| Text.TrimStartShape | app/api/whatsapp/webhook/route.ts:361 | trimming the start removes exactly the leading white space |
| Text.TrimEndShape | app/api/whatsapp/webhook/route.ts:361 | trimming the end removes exactly the trailing white space |
| Text.TrimIsInfix | app/api/whatsapp/webhook/route.ts:361 | `trim()` is the infix between leading and trailing white space, and does not begin or end with it |
| Text.TrimIdempotent | app/components/CategoryManager.tsx:37 | trimming twice is trimming once |
| Text.TrimEmptyIff | app/components/CategoryManager.tsx:27 | a name trims to "" exactly when it is all white space |
| Text.Split | app/components/UserProfile.tsx:82 | `split(sep)` gives at least one part, none holding the separator, joined back into the input |
| Text.NatToString | app/api/whatsapp/webhook/route.ts:186 | the decimal rendering is all digits, and has one digit exactly for values below ten |
| Text.NatToStringInjective | app/api/whatsapp/webhook/route.ts:186 | distinct numbers render differently |
| Text.DropFourDigits | app/api/whatsapp/webhook/route.ts:186 | dropping the last four digits of a rendering is dividing by 10000 |
| Seqs.Filter | app/components/SummaryCards.tsx:13 | `filter` never lengthens its input |
| Seqs.FilterMembers | app/components/SummaryCards.tsx:13 | the result holds exactly the elements that pass |
| Seqs.FilterAppend | app/components/SummaryCards.tsx:13 | filtering a concatenation concatenates the filtered parts |
| Seqs.FilterPermutation | app/components/SummaryCards.tsx:13 | reordering the input only reorders the output |
| Seqs.FilterSplit | app/components/CategoryManager.tsx:105-106 | a predicate and its negation split the input between them |

## Left out

- HTTP I/O is not modelled. `downloadWhatsAppImage` is the `downloadOk` parameter. `sendWhatsAppMessage` appends to the outbox, because its failures are swallowed. The contacts lookup in `POST` is dropped: the contact it finds always carries the sender's own number.
- Message texts are not modelled. Each notice is a `Notice` value carrying the data the text interpolates.
- Outside inputs are parameters of `Pipeline.Env`: `JSON.parse`, the `new Date(s)` fallback in `parseBhutanDate`, the Gemini call, today's date and `Date.now()`. Tesseract (`extractWithPatternMatching`) is never called from `extractTransactionData`, so it is not part of this model.
- One clock value serves a whole `POST` request; the real handler reads `Date.now()` anew for each image.
- Store outcomes are keyed by the message or by the image id, not by the call itself. Two identical messages without an id share the resolver's outcome. Two images with the same id in one request share the outcomes of the duplicate query and the insert.
- The `setInterval` timer is the explicit `Tick` operation. Concurrent or interleaved requests are not modelled; messages are handled one after another.
- Case mapping (`toLowerCase`, `toUpperCase`) is modelled for ASCII letters only. `\s` and `trim` use the full JavaScript white-space and line-terminator set.
- Strings are sequences of Unicode scalar values, while JavaScript strings are sequences of UTF-16 code units. `charAt(0)` and `slice(0, 2)` in `getInitials` (UserProfile.tsx:84-86) differ when a word starts with a character outside the Basic Multilingual Plane: the source takes half of a surrogate pair. `.length`, `trim` and `substring` on arbitrary text differ in the same way.
- Amounts are exact reals. IEEE floating point, `parseFloat` and `toFixed` formatting are not modelled.
- Store quirks are not modelled. `.single()`/`.maybeSingle()` is "first matching row or none". The store's own row order stands in for the unspecified order `.limit(10)` takes.
- Errors in `ensureCategoryExists` are swallowed, so the model always adds the row. `Rows.EnsureCategory` does not model an insert that fails.
- The existing-number check in `handleSavePhoneNumber` is modelled, but its store error is not. The store update is the function `Phone.Registered`.
- `Charts.ExpensesByCategory` keeps keys in insertion order. It does not model the JavaScript rule that integer-like keys enumerate first, or inherited `Object.prototype` names used as categories.
- Only string values of `category`, `date` and `description` in the model's JSON are modelled. The source passes a number or an object there on unconverted (only `merchant` goes through `toString()`).
- In `POST`, a body whose `entry` list is missing from an account envelope is `Malformed`: it throws before any work. Other ill-shaped values are not distinguished beyond null entries, changes and messages, an entry without `changes`, and a messages change without `value`.
- Out of scope for this model: logging, JSX and recharts rendering, `handleSaveGoal`, `handleDeleteCategory`, `handleDisableWhatsApp`, and the inserts the UI components send to the store.
- `Extraction.FallbackTransaction`: the merchant and description texts of the fallback record are constants of the body. They are not restated in its contract.

=== FILE: bhutan_date.dfy ===
/**
 * `parseBhutanDate` (lib/ocr-service.ts): turn the date printed on a
 * Bhutanese bank receipt ("18 Aug 2025") into the ISO 8601 calendar date
 * in extended format, YYYY-MM-DD (ISO 8601:2004 section 4.1.2.2).
 *
 * The two regular expressions are modelled as leftmost searches:
 *   /(\d{1,2})\s+(\w{3})\s+(\d{4})/   and   /(\d{4})-(\d{2})-(\d{2})/
 * `new Date(dateStr)` followed by `toISOString().split('T')[0]` is not
 * modelled; it is the parameter `jsDate`, which yields None for an
 * invalid date.
 */
module BhutanDate {
  import opened Records
  import opened Text

  /** The three groups of a match of the day-month-year pattern. */
  datatype DmyMatch = DmyMatch(day: string, month: string, year: string)

  /** What the groups of /(\d{1,2})\s+(\w{3})\s+(\d{4})/ can hold. */
  predicate DmyGroups(m: DmyMatch)
  {
    1 <= |m.day| <= 2 && AllDigits(m.day) && |m.month| == 3 && AllWordChars(m.month)
    && |m.year| == 4 && AllDigits(m.year)
  }

  predicate AllWordChars(s: string)
  {
    forall k :: 0 <= k < |s| ==> IsWordChar(s[k])
  }

  /**
   * A match of /(\d{1,2})\s+(\w{3})\s+(\d{4})/ starting at `p`.
   *
   * `\d`, `\s` and `\w` never overlap with `\s`, so backtracking changes
   * nothing: when two digits start at `p`, the one-digit alternative would
   * leave a digit where `\s` is needed, and `\s+` must take every white-space
   * character before the word.
   */
  function MatchDmyAt(s: string, p: nat): (r: Option<DmyMatch>)
    requires p <= |s|
    ensures r.Some? ==> DmyGroups(r.value)
  {
    if p == |s| || !IsDigit(s[p]) then None
    else
      var a := if p + 1 < |s| && IsDigit(s[p + 1]) then p + 2 else p + 1;
      var b := SpacesEnd(s, a);
      if b == a || b + 3 > |s| || !AllWordChars(s[b..b + 3]) then None
      else
        var c := SpacesEnd(s, b + 3);
        if c == b + 3 || c + 4 > |s| || !AllDigits(s[c..c + 4]) then None
        else Some(DmyMatch(s[p..a], s[b..b + 3], s[c..c + 4]))
  }

  /** The position of the leftmost match of /(\d{1,2})\s+(\w{3})\s+(\d{4})/ at or after `p`. */
  function DmyPosition(s: string, p: nat): (r: Option<nat>)
    requires p <= |s|
    ensures r.Some? ==> p <= r.value <= |s| && MatchDmyAt(s, r.value).Some?
    ensures forall q :: p <= q < (if r.Some? then r.value else |s| + 1) ==> MatchDmyAt(s, q).None?
    decreases |s| - p
  {
    if MatchDmyAt(s, p).Some? then Some(p)
    else if p == |s| then None
    else DmyPosition(s, p + 1)
  }

  /**
   * `s.match(/(\d{1,2})\s+(\w{3})\s+(\d{4})/)`, searching from position
   * `p`: the match at the leftmost matching position, and nothing when no
   * position matches.
   */
  function FirstDmy(s: string, p: nat): (r: Option<DmyMatch>)
    requires p <= |s|
    ensures r.Some? ==> DmyGroups(r.value)
    ensures r.None? <==> DmyPosition(s, p).None?
    ensures DmyPosition(s, p).Some? ==> r == MatchDmyAt(s, DmyPosition(s, p).value)
    decreases |s| - p
  {
    match MatchDmyAt(s, p)
    case Some(m) => Some(m)
    case None => if p == |s| then None else FirstDmy(s, p + 1)
  }

  /** The string `s` has the shape YYYY-MM-DD. */
  predicate IsoShaped(s: string)
  {
    |s| == 10 && AllDigits(s[..4]) && s[4] == '-' && AllDigits(s[5..7]) && s[7] == '-' && AllDigits(s[8..])
  }

  /** /(\d{4})-(\d{2})-(\d{2})/ matches at `p`. */
  predicate IsoAt(s: string, p: nat)
  {
    p + 10 <= |s| && IsoShaped(s[p..p + 10])
  }

  /** The position of the leftmost match of /(\d{4})-(\d{2})-(\d{2})/ at or after `p`. */
  function FirstIso(s: string, p: nat): (r: Option<nat>)
    requires p <= |s|
    ensures r.Some? ==> p <= r.value && IsoAt(s, r.value)
    ensures forall q :: p <= q < (if r.Some? then r.value else |s| + 1) ==> !IsoAt(s, q)
    decreases |s| - p
  {
    if IsoAt(s, p) then Some(p)
    else if p == |s| then None
    else FirstIso(s, p + 1)
  }

  /** `monthMap`: case-sensitive three-letter English month names. */
  const MonthMap: map<string, string> := map[
    "Jan" := "01", "Feb" := "02", "Mar" := "03", "Apr" := "04",
    "May" := "05", "Jun" := "06", "Jul" := "07", "Aug" := "08",
    "Sep" := "09", "Oct" := "10", "Nov" := "11", "Dec" := "12"]

  /** `day.padStart(2, '0')` for a day of one or two characters. */
  function PadDay(day: string): (r: string)
    ensures 1 <= |day| <= 2 ==> |r| == 2 && r[2 - |day|..] == day
    ensures |day| >= 2 ==> r == day
  {
    if |day| < 2 then ['0'] + day else day
  }

  /** The first pattern's result, when its month is known. */
  function DmyResult(s: string): Option<string>
  {
    match FirstDmy(s, 0)
    case Some(m) => if m.month in MonthMap then Some(m.year + "-" + MonthMap[m.month] + "-" + PadDay(m.day)) else None
    case None => None
  }

  /** The second pattern's result: the leftmost YYYY-MM-DD, verbatim. */
  function IsoResult(s: string): Option<string>
  {
    match FirstIso(s, 0)
    case Some(p) => Some(s[p..p + 10])
    case None => None
  }

  /** What `parseBhutanDate(dateStr)` returns, with `jsDate` for the `new Date` fallback. */
  function ParsedDate(s: string, jsDate: string -> Option<string>): Option<string>
  {
    if s == "" then None
    else if DmyResult(s).Some? then DmyResult(s)
    else if IsoResult(s).Some? then IsoResult(s)
    else jsDate(s)
  }

  /** `parseBhutanDate`: try the two patterns in order, then the `Date` fallback. */
  method ParseBhutanDate(s: string, jsDate: string -> Option<string>) returns (r: Option<string>)
    ensures r == ParsedDate(s, jsDate)
  {
    if s == "" {
      return None;
    }
    for i := 0 to 2
      invariant i >= 1 ==> DmyResult(s).None?
      invariant i >= 2 ==> IsoResult(s).None?
    {
      if i == 0 {
        var m := FirstDmy(s, 0);
        if m.Some? && m.value.month in MonthMap {
          return Some(m.value.year + "-" + MonthMap[m.value.month] + "-" + PadDay(m.value.day));
        }
      } else {
        var p := FirstIso(s, 0);
        if p.Some? {
          return Some(s[p.value..p.value + 10]);
        }
      }
    }
    return jsDate(s);
  }

  /** Every month value in the map is a two-digit month number. */
  lemma MonthValuesAreTwoDigits(m: string)
    requires m in MonthMap
    ensures |MonthMap[m]| == 2 && AllDigits(MonthMap[m])
  {
  }

  /** A known-month match of the first pattern converts to the shape YYYY-MM-DD. */
  lemma DmyResultShape(s: string)
    ensures DmyResult(s).Some? ==> IsoShaped(DmyResult(s).value)
  {
    match FirstDmy(s, 0)
    case Some(m) =>
      if m.month in MonthMap {
        MonthValuesAreTwoDigits(m.month);
        var r := m.year + "-" + MonthMap[m.month] + "-" + PadDay(m.day);
        assert r[..4] == m.year && r[5..7] == MonthMap[m.month] && r[8..] == PadDay(m.day);
      }
    case None =>
  }

  /** Whatever the patterns produce has the shape YYYY-MM-DD; anything else came from `jsDate`. */
  lemma ParsedDateShape(s: string, jsDate: string -> Option<string>)
    ensures ParsedDate(s, jsDate).Some? ==> IsoShaped(ParsedDate(s, jsDate).value) || ParsedDate(s, jsDate) == jsDate(s)
    ensures DmyResult(s).Some? || IsoResult(s).Some? ==> s != "" && ParsedDate(s, jsDate).Some? && IsoShaped(ParsedDate(s, jsDate).value)
  {
    DmyResultShape(s);
  }

  /** Empty input gives null. */
  lemma EmptyGivesNone(jsDate: string -> Option<string>)
    ensures ParsedDate("", jsDate) == None
  {
  }

  /**
   * "D Mon YYYY" and "DD Mon YYYY" with a capitalised English month become
   * YYYY-MM-DD with the day padded to two digits.
   */
  lemma DayMonthYear(day: string, month: string, year: string, jsDate: string -> Option<string>)
    requires 1 <= |day| <= 2 && AllDigits(day)
    requires month in MonthMap && |month| == 3 && AllWordChars(month)
    requires |year| == 4 && AllDigits(year)
    ensures ParsedDate(day + " " + month + " " + year, jsDate) == Some(year + "-" + MonthMap[month] + "-" + PadDay(day))
  {
    DmyAtStart(day, month, year);
  }

  /** The day-month-year pattern matches at the start of "D Mon YYYY" and "DD Mon YYYY". */
  lemma DmyAtStart(day: string, month: string, year: string)
    requires 1 <= |day| <= 2 && AllDigits(day)
    requires |month| == 3 && AllWordChars(month)
    requires |year| == 4 && AllDigits(year)
    ensures MatchDmyAt(day + " " + month + " " + year, 0) == Some(DmyMatch(day, month, year))
  {
    var s := day + " " + month + " " + year;
    var a := |day|;
    DmyLayout(day, month, year);
    assert (if 1 < |s| && IsDigit(s[1]) then 2 else 1) == a;
  }

  /** Where the groups and the separating spaces of "D Mon YYYY" and "DD Mon YYYY" sit. */
  lemma DmyLayout(day: string, month: string, year: string)
    requires 1 <= |day| <= 2 && AllDigits(day)
    requires |month| == 3 && AllWordChars(month)
    requires |year| == 4 && AllDigits(year)
    ensures var s, a := day + " " + month + " " + year, |day|;
            && |s| == a + 9 && IsDigit(s[0]) && s[0..a] == day
            && (a == 2 ==> IsDigit(s[1])) && (a == 1 ==> !IsDigit(s[1]))
            && SpacesEnd(s, a) == a + 1 && s[a + 1..a + 4] == month
            && SpacesEnd(s, a + 4) == a + 5 && s[a + 5..a + 9] == year
  {
    var s := day + " " + month + " " + year;
    var a := |day|;
    assert s[a] == ' ';
    assert s[a + 1..a + 4] == month;
    assert s[a + 4] == ' ';
    assert s[a + 5..a + 9] == year;
    assert SpacesEnd(s, a + 1) == a + 1 by {
      assert s[a + 1] == month[0];
    }
    assert SpacesEnd(s, a + 5) == a + 5 by {
      assert s[a + 5] == year[0];
    }
    assert s[0] == day[0];
    assert a == 2 ==> s[1] == day[1];
    assert s[0..a] == day;
  }

  /** "18 Aug 2025" gives "2025-08-18". */
  lemma ReceiptExample(day: string, month: string, year: string, jsDate: string -> Option<string>)
    requires day == "18" && month == "Aug" && year == "2025"
    ensures ParsedDate(day + " " + month + " " + year, jsDate) == Some("2025-08-18")
  {
    DayMonthYear(day, month, year, jsDate);
    assert year + "-" + MonthMap[month] + "-" + PadDay(day) == "2025-08-18";
  }

  /** A month not in the case-sensitive map makes the first pattern give nothing. */
  lemma UnknownMonthFallsThrough(s: string, jsDate: string -> Option<string>)
    requires s != ""
    requires FirstDmy(s, 0).Some? && FirstDmy(s, 0).value.month !in MonthMap
    ensures ParsedDate(s, jsDate) == (if IsoResult(s).Some? then IsoResult(s) else jsDate(s))
  {
  }

  /** No digit is white space. */
  lemma DigitNotSpace(c: char)
    requires IsDigit(c) || c == '-'
    ensures !IsSpace(c)
  {
  }

  /** A YYYY-MM-DD string has no white space, so the first pattern finds nothing in it. */
  lemma {:induction false} NoDmyInIso(s: string, p: nat)
    requires IsoShaped(s) && p <= |s|
    ensures FirstDmy(s, p) == None
    decreases |s| - p
  {
    if p < |s| && IsDigit(s[p]) {
      var a := if p + 1 < |s| && IsDigit(s[p + 1]) then p + 2 else p + 1;
      if a < |s| {
        assert IsDigit(s[a]) || s[a] == '-' by {
          assert a < 4 ==> s[..4][a] == s[a];
          assert 5 <= a < 7 ==> s[5..7][a - 5] == s[a];
          assert 8 <= a ==> s[8..][a - 8] == s[a];
        }
        DigitNotSpace(s[a]);
      }
    }
    assert MatchDmyAt(s, p) == None;
    if p < |s| {
      NoDmyInIso(s, p + 1);
    }
  }

  /** An ISO date is returned unchanged, so converting a converted date changes nothing. */
  lemma IsoDateIsFixed(s: string, jsDate: string -> Option<string>)
    requires IsoShaped(s)
    ensures ParsedDate(s, jsDate) == Some(s)
  {
    NoDmyInIso(s, 0);
    assert s[0..10] == s;
    assert IsoAt(s, 0);
  }

  /** Converting twice is converting once, whenever a pattern matched. */
  lemma ParsedDateIdempotent(s: string, jsDate: string -> Option<string>)
    requires DmyResult(s).Some? || IsoResult(s).Some?
    ensures ParsedDate(s, jsDate).Some?
    ensures ParsedDate(ParsedDate(s, jsDate).value, jsDate) == ParsedDate(s, jsDate)
  {
    ParsedDateShape(s, jsDate);
    IsoDateIsFixed(ParsedDate(s, jsDate).value, jsDate);
  }
}

=== FILE: categorize.dfy ===
/**
 * Keyword categorisation and income/expense typing of an extracted
 * transaction (lib/ocr-service.ts: `categoryMappings`, `improveCategory`,
 * `determineTransactionType`).
 */
module Categorize {
  import opened Records
  import opened Text

  /** The keywords of one category, in declaration order, as (keyword, category) entries. */
  function Group(keywords: seq<string>, category: string): (r: seq<(string, string)>)
    ensures |r| == |keywords|
    ensures forall k :: 0 <= k < |r| ==> r[k] == (keywords[k], category)
  {
    seq(|keywords|, i requires 0 <= i < |keywords| => (keywords[i], category))
  }

  const FoodKeywords: seq<string> := ["momo", "jhol momo", "jhol", "restaurant", "cafe", "food", "dining",
    "grocery", "supermarket", "thukpa", "ema datshi", "chow mein", "snack", "meal"]
  const TransportKeywords: seq<string> := ["taxi", "bus", "fuel", "petrol", "parking", "transport", "vehicle"]
  const ShoppingKeywords: seq<string> := ["shopping", "store", "market", "clothes", "electronics", "purchase"]
  const BillsKeywords: seq<string> := ["electricity", "water", "internet", "phone", "mobile", "bill", "utility"]
  const TransferKeywords: seq<string> := ["transfer", "send money", "fund transfer", "beneficiary", "payment"]
  const HealthKeywords: seq<string> := ["hospital", "pharmacy", "doctor", "medical"]
  const EntertainmentKeywords: seq<string> := ["movie", "cinema", "game"]
  const EducationKeywords: seq<string> := ["school", "college", "university", "book", "tuition"]

  /** `categoryMappings`, in declaration order (the order `Object.entries` yields). */
  const CategoryMappings: seq<(string, string)> :=
    Group(FoodKeywords, "Food") + Group(TransportKeywords, "Transportation")
    + Group(ShoppingKeywords, "Shopping") + Group(BillsKeywords, "Bills")
    + Group(TransferKeywords, "Transfer") + Group(HealthKeywords, "Healthcare")
    + Group(EntertainmentKeywords, "Entertainment") + Group(EducationKeywords, "Education")

  /** The categories the keyword table can produce. */
  const TableCategories: set<string> :=
    {"Food", "Transportation", "Shopping", "Bills", "Transfer", "Healthcare", "Entertainment", "Education"}

  lemma TableCategoriesComplete(k: nat)
    requires k < |CategoryMappings|
    ensures CategoryMappings[k].1 in TableCategories
  {
  }

  /** `extractedCategory || 'Other'` */
  function OrOther(extracted: Option<string>): (r: string)
    ensures r != ""
    ensures Truthy(extracted) ==> r == extracted.value
  {
    if Truthy(extracted) then extracted.value else "Other"
  }

  /**
   * The index of the first entry of `table`, at position `from` or later,
   * whose keyword occurs in `lower`.
   */
  function FirstKeyword(table: seq<(string, string)>, lower: string, from: nat): (r: Option<nat>)
    requires from <= |table|
    ensures r.Some? ==> from <= r.value < |table| && Contains(lower, table[r.value].0)
    ensures forall k :: from <= k < (if r.Some? then r.value else |table|) ==> !Contains(lower, table[k].0)
    decreases |table| - from
  {
    if from == |table| then None
    else if Contains(lower, table[from].0) then Some(from)
    else FirstKeyword(table, lower, from + 1)
  }

  /** The banking-purpose rules `improveCategory` applies when no keyword matched. */
  function PurposeRules(lower: string, extracted: Option<string>): string
  {
    if Contains(lower, "salary") || Contains(lower, "allowance") then "Salary"
    else if Contains(lower, "rent") then "Housing"
    else if Contains(lower, "loan") || Contains(lower, "emi") then "Loan"
    else OrOther(extracted)
  }

  /** `improveCategory` over an arbitrary keyword table. */
  function CategorizedBy(table: seq<(string, string)>, merchant: string, extracted: Option<string>): string
  {
    if merchant == "" then OrOther(extracted)
    else
      var lower := ToLower(merchant);
      match FirstKeyword(table, lower, 0)
      case Some(k) => table[k].1
      case None => PurposeRules(lower, extracted)
  }

  /** What `improveCategory(merchant, extractedCategory)` returns. */
  function Categorized(merchant: string, extracted: Option<string>): string
  {
    CategorizedBy(CategoryMappings, merchant, extracted)
  }

  /**
   * When no keyword of the table occurs in a non-empty merchant, the
   * banking-purpose rules decide, in order: salary or allowance gives Salary,
   * else rent gives Housing, else loan or emi gives Loan, else the extracted
   * category or 'Other'.
   */
  lemma NoKeywordFallsBack(merchant: string, extracted: Option<string>)
    requires merchant != ""
    requires forall k :: 0 <= k < |CategoryMappings| ==> !Contains(ToLower(merchant), CategoryMappings[k].0)
    ensures var lower := ToLower(merchant);
            Categorized(merchant, extracted) ==
              if Contains(lower, "salary") || Contains(lower, "allowance") then "Salary"
              else if Contains(lower, "rent") then "Housing"
              else if Contains(lower, "loan") || Contains(lower, "emi") then "Loan"
              else OrOther(extracted)
  {
  }

  /** Every categorisation is non-empty, so it is always a usable category name. */
  lemma CategorizedNonEmpty(merchant: string, extracted: Option<string>)
    ensures Categorized(merchant, extracted) != ""
  {
    var lower := ToLower(merchant);
    if merchant != "" {
      match FirstKeyword(CategoryMappings, lower, 0)
      case Some(k) => TableCategoriesComplete(k);
      case None =>
    }
  }

  /** `improveCategory`: scan the keyword table in order and return on the first hit. */
  method ImproveCategory(merchant: string, extracted: Option<string>) returns (category: string)
    ensures category == Categorized(merchant, extracted)
  {
    if merchant == "" {
      return OrOther(extracted);
    }
    var lower := ToLower(merchant);
    var table := CategoryMappings;
    for i := 0 to |table|
      invariant FirstKeyword(table, lower, 0) == FirstKeyword(table, lower, i)
    {
      var (keyword, mapped) := table[i];
      if Contains(lower, keyword) {
        return mapped;
      }
    }
    if Contains(lower, "salary") || Contains(lower, "allowance") {
      return "Salary";
    }
    if Contains(lower, "rent") {
      return "Housing";
    }
    if Contains(lower, "loan") || Contains(lower, "emi") {
      return "Loan";
    }
    return OrOther(extracted);
  }

  /**
   * The first keyword in table order decides: if keyword `k` occurs in the
   * lower-cased merchant and no earlier keyword does, the category is the
   * one `k` maps to, whatever the extracted category was.
   */
  lemma FirstKeywordDecides(table: seq<(string, string)>, merchant: string, extracted: Option<string>, k: nat)
    requires merchant != "" && k < |table|
    requires Contains(ToLower(merchant), table[k].0)
    requires forall j :: 0 <= j < k ==> !Contains(ToLower(merchant), table[j].0)
    ensures CategorizedBy(table, merchant, extracted) == table[k].1
  {
    var r := FirstKeyword(table, ToLower(merchant), 0);
    assert r == Some(k);
  }

  /**
   * The table is consulted before the salary, rent and loan rules: when any
   * keyword occurs, the result is a table category, so never Salary,
   * Housing or Loan.
   */
  lemma TableBeforePurposeRules(merchant: string, extracted: Option<string>, k: nat)
    requires merchant != "" && k < |CategoryMappings|
    requires Contains(ToLower(merchant), CategoryMappings[k].0)
    ensures Categorized(merchant, extracted) in TableCategories
    ensures Categorized(merchant, extracted) !in {"Salary", "Housing", "Loan"}
  {
    var r := FirstKeyword(CategoryMappings, ToLower(merchant), 0);
    assert r.Some?;
    TableCategoriesComplete(r.value);
    PurposeCategoriesOutsideTable();
  }

  /** Salary, Housing and Loan are not table categories. */
  lemma PurposeCategoriesOutsideTable()
    ensures "Salary" !in TableCategories && "Housing" !in TableCategories && "Loan" !in TableCategories
  {
    assert "Loan"[0] != "Food"[0];
  }

  /** Categorisation ignores letter case. */
  lemma CategorizedIgnoresCase(merchant: string, extracted: Option<string>)
    ensures Categorized(merchant, extracted) == Categorized(ToLower(merchant), extracted)
  {
    ToLowerIdempotent(merchant);
  }

  /** An empty merchant keeps the extracted category, or 'Other' when there is none. */
  lemma EmptyMerchantKeepsExtracted(extracted: Option<string>)
    ensures Categorized("", extracted) == (if Truthy(extracted) then extracted.value else "Other")
  {
  }

  /** No keyword of `keywords` occurs in `lower`. */
  predicate NoneOccur(lower: string, keywords: seq<string>)
  {
    forall j :: 0 <= j < |keywords| ==> !Contains(lower, keywords[j])
  }

  /** The first entry of the table is momo, and transfer is the first Transfer entry. */
  lemma TableLandmarks()
    ensures CategoryMappings[0] == ("momo", "Food")
    ensures CategoryMappings[34] == ("transfer", "Transfer")
  {
    assert CategoryMappings[34] == Group(TransferKeywords, "Transfer")[0];
  }

  /** The entries before the Transfer group are the food, transport, shopping and bills keywords. */
  lemma EntriesBeforeTransfer(j: nat)
    requires j < 34
    ensures CategoryMappings[j].0 == (FoodKeywords + TransportKeywords + ShoppingKeywords + BillsKeywords)[j]
  {
  }

  lemma ToLowerJholMomo()
    ensures ToLower("Jhol Momo Restaurant") == "jhol momo restaurant"
  {
    var lower := "jhol momo restaurant";
    forall i | 0 <= i < |lower|
      ensures ToLower("Jhol Momo Restaurant")[i] == lower[i]
    {
      if i < 10 {} else {}
    }
  }

  lemma ToLowerJholMomoUpper()
    ensures ToLower("JHOL MOMO RESTAURANT") == "jhol momo restaurant"
  {
    var lower := "jhol momo restaurant";
    forall i | 0 <= i < |lower|
      ensures ToLower("JHOL MOMO RESTAURANT")[i] == lower[i]
    {
      if i < 10 {} else {}
    }
  }

  /** "Jhol Momo Restaurant" is Food, in any letter case. */
  lemma JholMomoIsFood(extracted: Option<string>)
    ensures Categorized("Jhol Momo Restaurant", extracted) == "Food"
    ensures Categorized("JHOL MOMO RESTAURANT", extracted) == "Food"
  {
    var lower := "jhol momo restaurant";
    ToLowerJholMomo();
    ToLowerJholMomoUpper();
    assert OccursAt(lower, "momo", 5);
    ContainsAt(lower, "momo", 5);
    TableLandmarks();
    FirstKeywordDecides(CategoryMappings, "Jhol Momo Restaurant", extracted, 0);
    FirstKeywordDecides(CategoryMappings, "JHOL MOMO RESTAURANT", extracted, 0);
  }

  lemma ToLowerTransferSalary()
    ensures ToLower("Transfer salary") == "transfer salary"
  {
    var lower := "transfer salary";
    forall i | 0 <= i < |lower|
      ensures ToLower("Transfer salary")[i] == lower[i]
    {
    }
  }

  /**
   * No keyword of `keywords` occurs in `lower` when each has a character,
   * given at the same position of `missing`, that `lower` lacks.
   */
  lemma NoneOccurByWitness(lower: string, keywords: seq<string>, missing: string)
    requires |missing| == |keywords|
    requires forall j :: 0 <= j < |keywords| ==> missing[j] in keywords[j] && missing[j] !in lower
    ensures NoneOccur(lower, keywords)
  {
    forall j | 0 <= j < |keywords|
      ensures !Contains(lower, keywords[j])
    {
      NotContainsChar(lower, keywords[j], missing[j]);
    }
  }

  /** Each keyword before the Transfer group has a letter that "transfer salary" lacks. */
  lemma NoFoodKeywordInTransferSalary()
    ensures NoneOccur("transfer salary", FoodKeywords)
  {
    NoneOccurByWitness("transfer salary", FoodKeywords, "mmoucodouumccm");
  }

  lemma NoTransportKeywordInTransferSalary()
    ensures NoneOccur("transfer salary", TransportKeywords)
  {
    NoneOccurByWitness("transfer salary", TransportKeywords, "xuupppv");
  }

  lemma NoShoppingKeywordInTransferSalary()
    ensures NoneOccur("transfer salary", ShoppingKeywords)
  {
    NoneOccurByWitness("transfer salary", ShoppingKeywords, "homccp");
  }

  lemma NoBillsKeywordInTransferSalary()
    ensures NoneOccur("transfer salary", BillsKeywords)
  {
    NoneOccurByWitness("transfer salary", BillsKeywords, "cwipmbu");
  }

  /** "Transfer salary" is Transfer: the table wins over the salary rule. */
  lemma TransferSalaryIsTransfer(extracted: Option<string>)
    ensures Categorized("Transfer salary", extracted) == "Transfer"
  {
    var lower := "transfer salary";
    ToLowerTransferSalary();
    assert OccursAt(lower, "transfer", 0);
    ContainsAt(lower, "transfer", 0);
    TableLandmarks();
    NoFoodKeywordInTransferSalary();
    NoTransportKeywordInTransferSalary();
    NoShoppingKeywordInTransferSalary();
    NoBillsKeywordInTransferSalary();
    forall j | 0 <= j < 34
      ensures !Contains(lower, CategoryMappings[j].0)
    {
      EntriesBeforeTransfer(j);
      var w := (FoodKeywords + TransportKeywords + ShoppingKeywords + BillsKeywords)[j];
      if j < 14 { assert w == FoodKeywords[j]; }
      else if j < 21 { assert w == TransportKeywords[j - 14]; }
      else if j < 27 { assert w == ShoppingKeywords[j - 21]; }
      else { assert w == BillsKeywords[j - 27]; }
    }
    FirstKeywordDecides(CategoryMappings, "Transfer salary", extracted, 34);
  }

  /** The merchant words that make a transaction income. */
  const IncomeKeywords: seq<string> := ["salary", "allowance", "deposit", "credit"]

  /** `determineTransactionType(merchant, category)` */
  function DetermineTransactionType(merchant: string, category: string): (r: TxType)
    ensures merchant == "" ==> r == Expense
    ensures merchant != "" && category == "Salary" ==> r == Income
  {
    if merchant == "" then Expense
    else
      var lower := ToLower(merchant);
      if Contains(lower, "salary") || Contains(lower, "allowance") || Contains(lower, "deposit")
         || Contains(lower, "credit") || category == "Salary"
      then Income
      else Expense
  }

  /**
   * The typing rule: a non-empty merchant is income exactly when its
   * lower-cased text contains one of the income words or the category is
   * Salary; everything else is an expense.
   */
  lemma IncomeRule(merchant: string, category: string)
    requires merchant != ""
    ensures DetermineTransactionType(merchant, category) == Income <==>
              category == "Salary" || exists k :: 0 <= k < |IncomeKeywords| && Contains(ToLower(merchant), IncomeKeywords[k])
  {
    var lower := ToLower(merchant);
    assert IncomeKeywords[0] == "salary" && IncomeKeywords[1] == "allowance";
    assert IncomeKeywords[2] == "deposit" && IncomeKeywords[3] == "credit";
    if Contains(lower, "salary") {
      assert Contains(lower, IncomeKeywords[0]);
    } else if Contains(lower, "allowance") {
      assert Contains(lower, IncomeKeywords[1]);
    } else if Contains(lower, "deposit") {
      assert Contains(lower, IncomeKeywords[2]);
    } else if Contains(lower, "credit") {
      assert Contains(lower, IncomeKeywords[3]);
    }
  }

  /** An empty merchant is an expense, even when the category says Salary. */
  lemma EmptyMerchantIsExpense(category: string)
    ensures DetermineTransactionType("", category) == Expense
  {
  }

  /**
   * A non-empty merchant whose categorisation fell through to the salary rule
   * is income: categorising and typing agree on salaries.
   */
  lemma SalaryCategoryIsIncome(merchant: string, extracted: Option<string>)
    requires merchant != ""
    requires Categorized(merchant, extracted) == "Salary"
    ensures DetermineTransactionType(merchant, Categorized(merchant, extracted)) == Income
  {
  }

  /** Typing ignores letter case in the merchant. */
  lemma TypeIgnoresCase(merchant: string, category: string)
    ensures DetermineTransactionType(merchant, category) == DetermineTransactionType(ToLower(merchant), category)
  {
    ToLowerIdempotent(merchant);
  }
}

=== FILE: category_manager.dfy ===
/**
 * The rows app/components/CategoryManager.tsx asks the store to insert:
 * a category added by hand (ordered after every category of its type) and
 * the default set, plus the income/expense split of the list it shows.
 */
module CategoryManager {
  import opened Records
  import opened Text
  import opened Seqs

  const DefaultIncome: seq<string> := ["Salary", "Freelance", "Investment", "Other Income"]
  const DefaultExpense: seq<string> :=
    ["Food", "Transportation", "Entertainment", "Utilities", "Shopping", "Healthcare", "Other"]

  const AddedColor := "#3b82f6"
  const IncomeColor := "#10b981"
  const ExpenseColor := "#ef4444"

  /** The `filter` callback `c => c.type === kind`. */
  function RowKindIs(kind: TxType): CategoryRow -> bool
  {
    (c: CategoryRow) => c.kind == kind
  }

  /** `Math.max(...orders, 0)` */
  function MaxWithZero(orders: seq<int>): (r: int)
    ensures r >= 0
    ensures forall o :: o in orders ==> o <= r
    ensures r == 0 || r in orders
  {
    if orders == [] then 0
    else
      var init := orders[..|orders| - 1];
      var m := MaxWithZero(init);
      var last := orders[|orders| - 1];
      assert orders == init + [last];
      if last > m then last else m
  }

  /** The orders of the categories of one type, in list order. */
  function OrdersOf(cats: seq<CategoryRow>, kind: TxType): (r: seq<int>)
    ensures forall c :: c in cats && c.kind == kind ==> c.order in r
    ensures forall o :: o in r ==> exists c :: c in cats && c.kind == kind && c.order == o
  {
    var same := Filter(cats, RowKindIs(kind));
    FilterMembers(cats, RowKindIs(kind));
    var r := seq(|same|, i requires 0 <= i < |same| => same[i].order);
    assert forall i :: 0 <= i < |same| ==> same[i] in same;
    assert forall c :: c in same ==> c.order in r by {
      forall c | c in same
        ensures c.order in r
      {
        var i :| 0 <= i < |same| && same[i] == c;
        assert r[i] == c.order;
      }
    }
    r
  }

  /**
   * `maxOrder + 1`: one more than the highest order among the categories
   * of that type, or 1 when there is none (or all are below 1).
   */
  function NextOrder(cats: seq<CategoryRow>, kind: TxType): (r: int)
    ensures r >= 1
    ensures forall c :: c in cats && c.kind == kind ==> c.order < r
    ensures r == 1 || exists c :: c in cats && c.kind == kind && c.order == r - 1
  {
    MaxWithZero(OrdersOf(cats, kind)) + 1
  }

  /**
   * `handleAddCategory`: the row inserted, or None when nobody is signed in
   * or the name is blank. The name is stored trimmed and the colour is the
   * same blue whatever the type.
   */
  function AddCategory(user: Option<string>, name: string, kind: TxType, cats: seq<CategoryRow>): (r: Option<CategoryRow>)
    ensures r.Some? <==> user.Some? && Trim(name) != ""
    ensures r.Some? ==> r.value.userId == user.value && r.value.name == Trim(name) && r.value.kind == kind
    ensures r.Some? ==> r.value.color == AddedColor && r.value.order == NextOrder(cats, kind)
  {
    if user.None? || Trim(name) == "" then None
    else Some(CategoryRow(user.value, Trim(name), kind, AddedColor, NextOrder(cats, kind)))
  }

  /**
   * Once inserted, an added category sorts after every other category of
   * its type, and its name has no surrounding whitespace left to trim.
   */
  lemma AddedCategoryComesLast(user: Option<string>, name: string, kind: TxType, cats: seq<CategoryRow>)
    requires AddCategory(user, name, kind, cats).Some?
    ensures var row := AddCategory(user, name, kind, cats).value;
            && (forall c :: c in cats && c.kind == kind ==> c.order < row.order)
            && Trim(row.name) == row.name && row.name != ""
  {
    TrimIdempotent(name);
  }

  /** The rows of one default list: `names.map((name, index) => ({ …, order: index }))`. */
  function Seeded(userId: string, names: seq<string>, kind: TxType, color: string): (r: seq<CategoryRow>)
    ensures |r| == |names|
    ensures forall i :: 0 <= i < |r| ==> r[i] == CategoryRow(userId, names[i], kind, color, i)
  {
    seq(|names|, i requires 0 <= i < |names| => CategoryRow(userId, names[i], kind, color, i))
  }

  /** `initializeDefaultCategories`: the income defaults in green, then the expense defaults in red. */
  function DefaultCategories(userId: string): (r: seq<CategoryRow>)
    ensures |r| == 11
    ensures forall i :: 0 <= i < 4 ==> r[i] == CategoryRow(userId, DefaultIncome[i], Income, IncomeColor, i)
    ensures forall i :: 4 <= i < 11 ==> r[i] == CategoryRow(userId, DefaultExpense[i - 4], Expense, ExpenseColor, i - 4)
  {
    Seeded(userId, DefaultIncome, Income, IncomeColor) + Seeded(userId, DefaultExpense, Expense, ExpenseColor)
  }

  /** The income list the manager shows. */
  function IncomeCategories(cats: seq<CategoryRow>): seq<CategoryRow>
  {
    Filter(cats, RowKindIs(Income))
  }

  /** The expense list the manager shows. */
  function ExpenseCategories(cats: seq<CategoryRow>): seq<CategoryRow>
  {
    Filter(cats, RowKindIs(Expense))
  }

  /** Every category is shown in exactly one of the two lists. */
  lemma ListsPartition(cats: seq<CategoryRow>)
    ensures multiset(IncomeCategories(cats)) + multiset(ExpenseCategories(cats)) == multiset(cats)
    ensures |IncomeCategories(cats)| + |ExpenseCategories(cats)| == |cats|
    ensures forall c :: c in IncomeCategories(cats) <==> c in cats && c.kind == Income
    ensures forall c :: c in ExpenseCategories(cats) <==> c in cats && c.kind == Expense
  {
    FilterSplit(cats, RowKindIs(Income), RowKindIs(Expense));
    FilterMembers(cats, RowKindIs(Income));
    FilterMembers(cats, RowKindIs(Expense));
  }

  lemma {:induction false} FilterKeepsAll(s: seq<CategoryRow>, kind: TxType)
    requires forall i :: 0 <= i < |s| ==> s[i].kind == kind
    ensures Filter(s, RowKindIs(kind)) == s
  {
    if s != [] {
      FilterKeepsAll(s[..|s| - 1], kind);
    }
  }

  /** After seeding, each list shows its defaults in their listed order. */
  lemma SeededLists(userId: string)
    ensures IncomeCategories(DefaultCategories(userId)) == Seeded(userId, DefaultIncome, Income, IncomeColor)
    ensures ExpenseCategories(DefaultCategories(userId)) == Seeded(userId, DefaultExpense, Expense, ExpenseColor)
  {
    var inc := Seeded(userId, DefaultIncome, Income, IncomeColor);
    var exp := Seeded(userId, DefaultExpense, Expense, ExpenseColor);
    FilterAppend(inc, exp, RowKindIs(Income));
    FilterAppend(inc, exp, RowKindIs(Expense));
    FilterKeepsAll(inc, Income);
    FilterKeepsAll(exp, Expense);
    FilterNone(exp, RowKindIs(Income));
    FilterNone(inc, RowKindIs(Expense));
  }

  /** After seeding, the next category added by hand gets order 4 (income) or 7 (expense). */
  lemma AddingAfterSeeding(userId: string)
    ensures NextOrder(DefaultCategories(userId), Income) == 4
    ensures NextOrder(DefaultCategories(userId), Expense) == 7
  {
    var cats := DefaultCategories(userId);
    assert cats[3] in cats && cats[10] in cats;
    forall c | c in cats
      ensures c.kind == Income ==> c.order <= 3
      ensures c.kind == Expense ==> c.order <= 6
    {
      var i :| 0 <= i < 11 && cats[i] == c;
    }
  }
}

=== FILE: charts.dfy ===
/**
 * The chart data of app/components/Charts.tsx: the pie of expenses by
 * category, built by a `reduce` that updates an accumulator record in
 * place, and the bar rows of income and expenses per listed category.
 */
module Charts {
  import opened Records
  import opened Seqs
  import opened SummaryCards

  // ------------------------------------------------------------ colours

  const Colors: seq<string> := ["#3457D5", "#ef4444", "#10b981", "#f59e0b", "#8b5cf6", "#06b6d4", "#f97316", "#84cc16"]

  /** `COLORS[index % COLORS.length]`, the fill of pie slice `index`. */
  function SliceColor(index: nat): (r: string)
    ensures r in Colors
  {
    Colors[index % |Colors|]
  }

  /** Slices share a colour exactly when their positions are eight apart, a multiple of it. */
  lemma SliceColorCycle(i: nat, j: nat)
    ensures SliceColor(i) == SliceColor(j) <==> i % 8 == j % 8
  {
    var a, b := i % 8, j % 8;
    if a != b {
      assert Colors[a][1] != Colors[b][1] || Colors[a][2] != Colors[b][2];
    }
  }

  // ------------------------------------------------------------ per-category sums

  /** The `filter` callback `t => t.type === kind && t.category === name`. */
  function KindAndCategory(kind: TxType, name: string): Transaction -> bool
  {
    (t: Transaction) => t.kind == kind && t.category == name
  }

  /** The callback `t => t.category === name`. */
  function CategoryIs(name: string): Transaction -> bool
  {
    (t: Transaction) => t.category == name
  }

  /** The total of the transactions of one type and one category name. */
  function CategorySum(txs: seq<Transaction>, kind: TxType, name: string): real
  {
    Sum(Filter(txs, KindAndCategory(kind, name)))
  }

  /** A transaction adds to the sum of its own type and category name only. */
  lemma CategorySumAppend(txs: seq<Transaction>, t: Transaction, kind: TxType, name: string)
    ensures CategorySum(txs + [t], kind, name) ==
              CategorySum(txs, kind, name) + (if t.kind == kind && t.category == name then t.amount else 0.0)
  {
    FilterAppend(txs, [t], KindAndCategory(kind, name));
    SumAppend(Filter(txs, KindAndCategory(kind, name)), Filter([t], KindAndCategory(kind, name)));
  }

  // ------------------------------------------------------------ the pie

  /** The accumulator record of the `reduce`: its keys in insertion order and their running totals. */
  datatype Acc = Acc(keys: seq<string>, totals: map<string, real>)

  /** The `reduce` callback: `acc[category] = (acc[category] || 0) + amount`. */
  function AddExpense(acc: Acc, t: Transaction): Acc
  {
    var c := t.category;
    if c in acc.totals then Acc(acc.keys, acc.totals[c := acc.totals[c] + t.amount])
    else Acc(acc.keys + [c], acc.totals[c := t.amount])
  }

  /** The accumulator after the callback has run over `es`, starting from `{}`. */
  function Accumulate(es: seq<Transaction>): Acc
  {
    if es == [] then Acc([], map[]) else AddExpense(Accumulate(es[..|es| - 1]), es[|es| - 1])
  }

  /** `expensesByCategory`: the expense transactions folded into the accumulator in place. */
  method ExpensesByCategory(txs: seq<Transaction>) returns (acc: Acc)
    ensures acc == Accumulate(Filter(txs, KindIs(Expense)))
  {
    var expenses := Filter(txs, KindIs(Expense));
    var keys: seq<string> := [];
    var totals: map<string, real> := map[];
    var i := 0;
    while i < |expenses|
      invariant 0 <= i <= |expenses|
      invariant Acc(keys, totals) == Accumulate(expenses[..i])
    {
      var t := expenses[i];
      if t.category in totals {
        totals := totals[t.category := totals[t.category] + t.amount];
      } else {
        keys := keys + [t.category];
        totals := totals[t.category := t.amount];
      }
      assert expenses[..i + 1][..i] == expenses[..i];
      i := i + 1;
    }
    assert expenses[..|expenses|] == expenses;
    acc := Acc(keys, totals);
  }

  predicate Distinct(keys: seq<string>)
  {
    forall i, j :: 0 <= i < j < |keys| ==> keys[i] != keys[j]
  }

  /** The category names that occur in `es`. */
  function CategoriesOf(es: seq<Transaction>): set<string>
  {
    set t | t in es :: t.category
  }

  /** A key is created for every category met, and for no other. */
  lemma {:induction false} AccumulateMet(es: seq<Transaction>)
    ensures Accumulate(es).totals.Keys == CategoriesOf(es)
  {
    if es != [] {
      var init := es[..|es| - 1];
      var t := es[|es| - 1];
      assert es == init + [t];
      AccumulateMet(init);
      assert CategoriesOf(es) == CategoriesOf(init) + {t.category};
    }
  }

  lemma CategoryStep(init: seq<Transaction>, t: Transaction, c: string)
    ensures Sum(Filter(init + [t], CategoryIs(c))) ==
              Sum(Filter(init, CategoryIs(c))) + (if t.category == c then t.amount else 0.0)
  {
    FilterAppend(init, [t], CategoryIs(c));
    SumAppend(Filter(init, CategoryIs(c)), Filter([t], CategoryIs(c)));
  }

  lemma AbsentCategory(es: seq<Transaction>, c: string)
    requires c !in CategoriesOf(es)
    ensures Filter(es, CategoryIs(c)) == []
  {
    forall x | x in es
      ensures !CategoryIs(c)(x)
    {
      assert x.category in CategoriesOf(es);
    }
    FilterNone(es, CategoryIs(c));
  }

  /** Each key's total is the sum of the amounts with that category. */
  lemma {:induction false} AccumulateTotals(es: seq<Transaction>, c: string)
    ensures c in Accumulate(es).totals ==> Accumulate(es).totals[c] == Sum(Filter(es, CategoryIs(c)))
  {
    if es != [] {
      var init := es[..|es| - 1];
      var t := es[|es| - 1];
      var prev := Accumulate(init).totals;
      var now := Accumulate(es).totals;
      var step := if t.category == c then t.amount else 0.0;
      assert es == init + [t];
      CategoryStep(init, t, c);
      if c in prev {
        AccumulateTotals(init, c);
        assert now[c] == prev[c] + step;
      } else if c in now {
        AccumulateMet(init);
        AbsentCategory(init, c);
        assert now[c] == step;
      }
    }
  }

  /** One slice per key, in key order: `Object.entries(acc).map(([name, value]) => …)`. */
  datatype Slice = Slice(name: string, value: real)

  function Entries(keys: seq<string>, totals: map<string, real>): (r: seq<Slice>)
    requires forall k :: k in keys ==> k in totals
    ensures |r| == |keys|
  {
    if keys == [] then []
    else Entries(keys[..|keys| - 1], totals) + [Slice(keys[|keys| - 1], totals[keys[|keys| - 1]])]
  }

  lemma {:induction false} EntriesAt(keys: seq<string>, totals: map<string, real>)
    requires forall k :: k in keys ==> k in totals
    ensures forall i :: 0 <= i < |keys| ==> Entries(keys, totals)[i] == Slice(keys[i], totals[keys[i]])
  {
    if keys != [] {
      EntriesAt(keys[..|keys| - 1], totals);
    }
  }

  /** The sum of the slice values. */
  function PieSum(slices: seq<Slice>): real
  {
    if slices == [] then 0.0 else PieSum(slices[..|slices| - 1]) + slices[|slices| - 1].value
  }

  lemma PieSumSnoc(slices: seq<Slice>, s: Slice)
    ensures PieSum(slices + [s]) == PieSum(slices) + s.value
  {
    assert (slices + [s])[..|slices|] == slices;
  }

  lemma EntriesSnoc(keys: seq<string>, totals: map<string, real>, k: string)
    requires forall x :: x in keys + [k] ==> x in totals
    ensures Entries(keys + [k], totals) == Entries(keys, totals) + [Slice(k, totals[k])]
  {
    assert (keys + [k])[..|keys|] == keys;
  }

  /** Changing the total of a key that is not listed changes no slice. */
  lemma EntriesFrame(keys: seq<string>, totals: map<string, real>, c: string, v: real)
    requires forall k :: k in keys ==> k in totals
    requires c !in keys
    ensures Entries(keys, totals[c := v]) == Entries(keys, totals)
  {
    EntriesAt(keys, totals);
    EntriesAt(keys, totals[c := v]);
  }

  /** Adding `d` to the total of one listed key adds `d` to the slice sum. */
  lemma {:induction false} EntriesBump(keys: seq<string>, totals: map<string, real>, c: string, d: real)
    requires forall k :: k in keys ==> k in totals
    requires Distinct(keys) && c in keys
    ensures PieSum(Entries(keys, totals[c := totals[c] + d])) == PieSum(Entries(keys, totals)) + d
  {
    var init := keys[..|keys| - 1];
    var last := keys[|keys| - 1];
    var bumped := totals[c := totals[c] + d];
    assert keys == init + [last];
    EntriesSnoc(init, totals, last);
    EntriesSnoc(init, bumped, last);
    PieSumSnoc(Entries(init, totals), Slice(last, totals[last]));
    PieSumSnoc(Entries(init, bumped), Slice(last, bumped[last]));
    if last == c {
      assert c !in init;
      EntriesFrame(init, totals, c, totals[c] + d);
    } else {
      EntriesBump(init, totals, c, d);
    }
  }

  /** The keys are listed once each, and they are exactly the keys of the totals. */
  ghost predicate WellKeyed(acc: Acc)
  {
    Distinct(acc.keys) && forall c :: c in acc.totals <==> c in acc.keys
  }

  /** One step of the `reduce` keeps the keys distinct and in step with the totals. */
  lemma AddExpenseKeyed(acc: Acc, t: Transaction)
    requires WellKeyed(acc)
    ensures WellKeyed(AddExpense(acc, t))
  {
  }

  /** A new key adds a slice carrying its amount. */
  lemma NewKeySum(keys: seq<string>, totals: map<string, real>, c: string, v: real)
    requires forall k :: k in keys ==> k in totals
    requires c !in keys
    ensures PieSum(Entries(keys + [c], totals[c := v])) == PieSum(Entries(keys, totals)) + v
  {
    EntriesSnoc(keys, totals[c := v], c);
    EntriesFrame(keys, totals, c, v);
    PieSumSnoc(Entries(keys, totals), Slice(c, v));
  }

  /** One step of the `reduce` adds its amount to the slice sum. */
  lemma AddExpenseSum(acc: Acc, t: Transaction)
    requires WellKeyed(acc)
    ensures PieSum(Entries(AddExpense(acc, t).keys, AddExpense(acc, t).totals)) ==
              PieSum(Entries(acc.keys, acc.totals)) + t.amount
  {
    if t.category in acc.totals {
      KnownStep(acc, t);
    } else {
      NewStep(acc, t);
    }
  }

  /** Adding to the total of a key already present adds to the slice sum. */
  lemma KnownStep(acc: Acc, t: Transaction)
    requires WellKeyed(acc) && t.category in acc.totals
    ensures PieSum(Entries(AddExpense(acc, t).keys, AddExpense(acc, t).totals)) ==
              PieSum(Entries(acc.keys, acc.totals)) + t.amount
  {
    var keys, totals, c, d := acc.keys, acc.totals, t.category, t.amount;
    assert c in keys;
    assert AddExpense(acc, t) == Acc(keys, totals[c := totals[c] + d]);
    EntriesBump(keys, totals, c, d);
  }

  lemma NewStep(acc: Acc, t: Transaction)
    requires WellKeyed(acc) && t.category !in acc.totals
    ensures PieSum(Entries(AddExpense(acc, t).keys, AddExpense(acc, t).totals)) ==
              PieSum(Entries(acc.keys, acc.totals)) + t.amount
  {
    NewKeySum(acc.keys, acc.totals, t.category, t.amount);
  }

  /** All slices together add up to all the amounts folded in. */
  lemma {:induction false} AccumulateSum(es: seq<Transaction>)
    ensures WellKeyed(Accumulate(es))
    ensures PieSum(Entries(Accumulate(es).keys, Accumulate(es).totals)) == Sum(es)
  {
    if es != [] {
      var init := es[..|es| - 1];
      var t := es[|es| - 1];
      AccumulateSum(init);
      AddExpenseKeyed(Accumulate(init), t);
      AddExpenseSum(Accumulate(init), t);
    }
  }

  /** The slice names are the keys, so they are distinct and they are the expense categories. */
  lemma PieNames(txs: seq<Transaction>)
    ensures var acc := Accumulate(Filter(txs, KindIs(Expense)));
            && Distinct(acc.keys)
            && (set k | k in acc.keys) == (set t | t in txs && t.kind == Expense :: t.category)
  {
    var es := Filter(txs, KindIs(Expense));
    var acc := Accumulate(es);
    AccumulateSum(es);
    AccumulateMet(es);
    FilterMembers(txs, KindIs(Expense));
    assert (set k | k in acc.keys) == acc.totals.Keys;
    forall c | c in CategoriesOf(es)
      ensures c in (set t | t in txs && t.kind == Expense :: t.category)
    {
      var t :| t in es && t.category == c;
      assert t in txs && t.kind == Expense;
    }
    forall c | c in (set t | t in txs && t.kind == Expense :: t.category)
      ensures c in CategoriesOf(es)
    {
      var t :| t in txs && t.kind == Expense && t.category == c;
      assert KindIs(Expense)(t);
    }
  }

  /** The value of a slice is the expense total of its category. */
  lemma PieValue(txs: seq<Transaction>, c: string)
    requires c in Accumulate(Filter(txs, KindIs(Expense))).totals
    ensures Accumulate(Filter(txs, KindIs(Expense))).totals[c] == CategorySum(txs, Expense, c)
  {
    AccumulateTotals(Filter(txs, KindIs(Expense)), c);
    FilterFilter(txs, KindIs(Expense), CategoryIs(c), KindAndCategory(Expense, c));
  }

  /** The slice names are the keys: the same set, and distinct when the keys are. */
  lemma EntryNames(keys: seq<string>, totals: map<string, real>)
    requires forall k :: k in keys ==> k in totals
    ensures var r := Entries(keys, totals);
            && (set i | 0 <= i < |r| :: r[i].name) == (set k | k in keys)
            && (Distinct(keys) ==> forall i, j :: 0 <= i < j < |r| ==> r[i].name != r[j].name)
  {
    var r := Entries(keys, totals);
    EntriesAt(keys, totals);
    forall k | k in keys
      ensures k in (set i | 0 <= i < |r| :: r[i].name)
    {
      var i :| 0 <= i < |keys| && keys[i] == k;
      assert r[i].name == k;
    }
  }

  /** Each slice of the pie carries the expense total of its category. */
  lemma PieValues(txs: seq<Transaction>)
    ensures var acc := Accumulate(Filter(txs, KindIs(Expense)));
            && WellKeyed(acc)
            && forall i :: 0 <= i < |acc.keys| ==>
                 Entries(acc.keys, acc.totals)[i].value == CategorySum(txs, Expense, Entries(acc.keys, acc.totals)[i].name)
  {
    var acc := Accumulate(Filter(txs, KindIs(Expense)));
    AccumulateSum(Filter(txs, KindIs(Expense)));
    EntriesAt(acc.keys, acc.totals);
    forall i | 0 <= i < |acc.keys|
      ensures Entries(acc.keys, acc.totals)[i].value == CategorySum(txs, Expense, Entries(acc.keys, acc.totals)[i].name)
    {
      PieValue(txs, acc.keys[i]);
    }
  }

  /**
   * `pieData`: one slice per distinct expense category, in the order the
   * categories first occur; each slice's value is that category's expense
   * total, and the slices add up to the total expenses.
   */
  function PieData(txs: seq<Transaction>): (r: seq<Slice>)
    ensures forall i, j :: 0 <= i < j < |r| ==> r[i].name != r[j].name
    ensures (set i | 0 <= i < |r| :: r[i].name) == (set t | t in txs && t.kind == Expense :: t.category)
    ensures forall i :: 0 <= i < |r| ==> r[i].value == CategorySum(txs, Expense, r[i].name)
    ensures PieSum(r) == TotalExpenses(txs)
  {
    var acc := Accumulate(Filter(txs, KindIs(Expense)));
    AccumulateSum(Filter(txs, KindIs(Expense)));
    PieNames(txs);
    PieValues(txs);
    EntryNames(acc.keys, acc.totals);
    Entries(acc.keys, acc.totals)
  }

  // ------------------------------------------------------------ the bars

  datatype Bar = Bar(category: string, income: real, expenses: real)

  /** The `categories.map` callback: both sums for one category name. */
  function BarOf(txs: seq<Transaction>, name: string): Bar
  {
    Bar(name, CategorySum(txs, Income, name), CategorySum(txs, Expense, name))
  }

  /** The `filter(item => item.income > 0 || item.expenses > 0)` callback. */
  predicate Active(b: Bar)
  {
    b.income > 0.0 || b.expenses > 0.0
  }

  function Bars(cats: seq<CategoryRow>, txs: seq<Transaction>): (r: seq<Bar>)
    ensures |r| == |cats|
    ensures forall i :: 0 <= i < |cats| ==> r[i] == BarOf(txs, cats[i].name)
  {
    seq(|cats|, i requires 0 <= i < |cats| => BarOf(txs, cats[i].name))
  }

  /** `categoryTotals`: the bars of the listed categories that have any income or expense. */
  function CategoryTotals(cats: seq<CategoryRow>, txs: seq<Transaction>): (r: seq<Bar>)
    ensures |r| <= |cats|
    ensures forall b :: b in r <==> Active(b) && exists i :: 0 <= i < |cats| && b == BarOf(txs, cats[i].name)
  {
    FilterMembers(Bars(cats, txs), Active);
    Filter(Bars(cats, txs), Active)
  }

  /** Bars follow the order of the category list: a category appended last yields the last bar, if any. */
  lemma BarsFollowCategories(cats: seq<CategoryRow>, c: CategoryRow, txs: seq<Transaction>)
    ensures CategoryTotals(cats + [c], txs) ==
              CategoryTotals(cats, txs) + (if Active(BarOf(txs, c.name)) then [BarOf(txs, c.name)] else [])
  {
    assert Bars(cats + [c], txs) == Bars(cats, txs) + [BarOf(txs, c.name)];
    FilterAppend(Bars(cats, txs), [BarOf(txs, c.name)], Active);
  }

  /** A transaction whose category name is not listed changes no bar. */
  lemma UnlistedCategoryIgnored(cats: seq<CategoryRow>, txs: seq<Transaction>, t: Transaction)
    requires forall i :: 0 <= i < |cats| ==> cats[i].name != t.category
    ensures CategoryTotals(cats, txs + [t]) == CategoryTotals(cats, txs)
  {
    forall i | 0 <= i < |cats|
      ensures BarOf(txs + [t], cats[i].name) == BarOf(txs, cats[i].name)
    {
      CategorySumAppend(txs, t, Income, cats[i].name);
      CategorySumAppend(txs, t, Expense, cats[i].name);
    }
    assert Bars(cats, txs + [t]) == Bars(cats, txs);
  }

  /** Every pie slice agrees with the expense bar of the same category name. */
  lemma PieAgreesWithBars(txs: seq<Transaction>, i: nat)
    requires i < |PieData(txs)|
    ensures PieData(txs)[i].value == BarOf(txs, PieData(txs)[i].name).expenses
    ensures PieData(txs)[i].value > 0.0 ==> Active(BarOf(txs, PieData(txs)[i].name))
  {
  }
}

=== FILE: extraction.dfy ===
/**
 * The extraction result of lib/ocr-service.ts: the defensive validator
 * `validateTransactionData`, the fixed fallback record, the brace-span
 * recovery of `safeParseJSON`, the composition in `extractWithGemini` and
 * `extractTransactionData`, and `createManualTransaction`.
 *
 * `JSON.parse` is the parameter `parse` (None when it throws); the Gemini
 * call is the value `GeminiOutcome`; "today" (`new Date().toISOString()
 * .split('T')[0]`) is the parameter `today`.
 */
module Extraction {
  import opened Records
  import opened Text
  import opened Categorize
  import opened BhutanDate

  /**
   * A parsed JSON value, as far as the validator looks at it. `amount` is
   * what `parseFloat(data.amount)` gives (None for NaN); `merchant` is None
   * when absent or null, and otherwise its `toString()`. `category`, `date`
   * and `description` are used as they are, so only string values (or
   * absent and null ones, None) are modelled.
   */
  datatype RawJson =
    | NotObject
    | Obj(amount: Option<real>, merchant: Option<string>, category: Option<string>,
          date: Option<string>, description: Option<string>)

  /** What the Gemini call produced: it threw, it gave no text, or it gave text. */
  datatype GeminiOutcome = EngineError | NoText | Output(text: string)

  /** `createFallbackTransaction()` */
  function FallbackTransaction(today: string): (r: TransactionData)
    ensures r.amount == 0.0 && r.category == "Other" && r.kind == Expense && r.date == today
  {
    TransactionData(0.0, "Transaction (OCR Failed)", "Other", today, Expense, "Transaction - OCR extraction failed")
  }

  /** `x || fallback` for an optional string. */
  function OrElse(x: Option<string>, fallback: string): (r: string)
    ensures Truthy(x) ==> r == x.value
    ensures !Truthy(x) ==> r == fallback
  {
    if Truthy(x) then x.value else fallback
  }

  /** `data.merchant?.toString().trim() || 'Bank Transfer'` */
  function MerchantOf(merchant: Option<string>): (r: string)
    ensures r != "" && Trim(r) == r
    ensures r == (if merchant.Some? && Trim(merchant.value) != "" then Trim(merchant.value) else "Bank Transfer")
  {
    var m := if merchant.Some? then Trim(merchant.value) else "";
    if m != "" then
      TrimIdempotent(merchant.value);
      m
    else
      var dflt := "Bank Transfer";
      assert !IsSpace(dflt[0]) && !IsSpace(dflt[|dflt| - 1]);
      TrimOfTrimmed(dflt);
      dflt
  }

  /** `validateTransactionData(data)` */
  function ValidateTransactionData(data: RawJson, jsDate: string -> Option<string>, today: string): (r: Option<TransactionData>)
    ensures r.Some? <==> data.Obj? && data.amount.Some? && data.amount.value > 0.0
    ensures r.Some? ==> r.value.amount == data.amount.value > 0.0
    ensures r.Some? ==> r.value.merchant == MerchantOf(data.merchant)
    ensures r.Some? ==> r.value.merchant != "" && Trim(r.value.merchant) == r.value.merchant
    ensures r.Some? ==> r.value.date == OrElse(if data.date.Some? then ParsedDate(data.date.value, jsDate) else None, today)
    ensures r.Some? ==> r.value.category == Categorized(r.value.merchant, data.category)
    ensures r.Some? ==> r.value.kind == DetermineTransactionType(r.value.merchant, r.value.category)
    ensures r.Some? && !Truthy(data.description) ==> r.value.description == "Fund transfer - " + r.value.merchant
    ensures r.Some? && Truthy(data.description) ==> r.value.description == data.description.value
  {
    if data.NotObject? || data.amount.None? || data.amount.value <= 0.0 then None
    else
      var merchant := MerchantOf(data.merchant);
      var category := Categorized(merchant, data.category);
      var date := if data.date.Some? then ParsedDate(data.date.value, jsDate) else None;
      Some(TransactionData(
        data.amount.value,
        merchant,
        category,
        OrElse(date, today),
        DetermineTransactionType(merchant, category),
        OrElse(data.description, "Fund transfer - " + merchant)))
  }

  /**
   * The match of /\{[\s\S]*\}/: from the first `{` to the last `}`, when
   * that `}` comes after the `{`.
   */
  function BraceSpan(text: string): (r: Option<string>)
  {
    var i := FirstIndexOf(text, '{', 0);
    var j := LastIndexOf(text, '}', |text|);
    if i.Some? && j.Some? && i.value < j.value then Some(text[i.value..j.value + 1]) else None
  }

  /** The first index at or after `from` holding `c`. */
  function FirstIndexOf(s: string, c: char, from: nat): (r: Option<nat>)
    requires from <= |s|
    ensures r.Some? ==> from <= r.value < |s| && s[r.value] == c
    ensures forall k :: from <= k < (if r.Some? then r.value else |s|) ==> s[k] != c
    decreases |s| - from
  {
    if from == |s| then None
    else if s[from] == c then Some(from)
    else FirstIndexOf(s, c, from + 1)
  }

  /** The last index below `upto` holding `c`. */
  function LastIndexOf(s: string, c: char, upto: nat): (r: Option<nat>)
    requires upto <= |s|
    ensures r.Some? ==> r.value < upto && s[r.value] == c
    ensures forall k :: (if r.Some? then r.value + 1 else 0) <= k < upto ==> s[k] != c
  {
    if upto == 0 then None
    else if s[upto - 1] == c then Some(upto - 1)
    else LastIndexOf(s, c, upto - 1)
  }

  /**
   * The span is the greedy one: it starts at the first `{` of the text,
   * ends at the last `}`, and exists exactly when some `}` follows some `{`.
   */
  lemma BraceSpanIsGreedy(text: string)
    ensures BraceSpan(text).Some? <==> exists i, j :: 0 <= i < j < |text| && BracePair(text, i, j)
    ensures BraceSpan(text).Some? ==>
              exists i, j :: 0 <= i < j < |text| && OutermostBraces(text, i, j) && BraceSpan(text).value == text[i..j + 1]
  {
    var i := FirstIndexOf(text, '{', 0);
    var j := LastIndexOf(text, '}', |text|);
    if exists a, b :: 0 <= a < b < |text| && BracePair(text, a, b) {
      var a, b :| 0 <= a < b < |text| && BracePair(text, a, b);
      assert i.Some? && i.value <= a;
      assert j.Some? && b <= j.value;
    }
    if BraceSpan(text).Some? {
      assert BracePair(text, i.value, j.value);
      assert OutermostBraces(text, i.value, j.value);
    }
  }

  /** An opening brace at `i` and a closing brace at `j`. */
  predicate BracePair(text: string, i: int, j: int)
  {
    0 <= i < |text| && 0 <= j < |text| && text[i] == '{' && text[j] == '}'
  }

  /** `i` holds the first opening brace of the text and `j` the last closing one. */
  predicate OutermostBraces(text: string, i: int, j: int)
  {
    BracePair(text, i, j)
    && (forall k :: 0 <= k < i ==> text[k] != '{')
    && (forall k :: j < k < |text| ==> text[k] != '}')
  }

  /**
   * `safeParseJSON(text)`: the whole text, else the brace span, else null.
   * The recovery only ever parses those two.
   */
  function SafeParseJson(text: string, parse: string -> Option<RawJson>): (r: Option<RawJson>)
    ensures parse(text).Some? ==> r == parse(text)
    ensures r.Some? ==> r == parse(text) || (BraceSpan(text).Some? && r == parse(BraceSpan(text).value))
    ensures parse(text).None? && BraceSpan(text).None? ==> r.None?
  {
    if parse(text).Some? then parse(text)
    else match BraceSpan(text)
      case Some(span) => parse(span)
      case None => None
  }

  /** `extractWithGemini`: parse the model's trimmed text, validate it, or fall back. */
  function ExtractWithGemini(outcome: GeminiOutcome, parse: string -> Option<RawJson>,
                             jsDate: string -> Option<string>, today: string): (r: TransactionData)
    ensures (r.amount > 0.0 && r.merchant != "") || r == FallbackTransaction(today)
    ensures r.amount > 0.0 <==> r != FallbackTransaction(today)
    ensures outcome.EngineError? ==> r == FallbackTransaction(today)
    ensures outcome.NoText? ==> r == FromModelText("", parse, jsDate, today)
    ensures outcome.Output? ==> r == FromModelText(Trim(outcome.text), parse, jsDate, today)
  {
    if outcome.EngineError? then FallbackTransaction(today)
    else FromModelText(if outcome.NoText? then "" else Trim(outcome.text), parse, jsDate, today)
  }

  /**
   * `validateTransactionData(safeParseJSON(text)) || createFallbackTransaction()`:
   * the validated record when the text parses to a record that validates,
   * and the fallback record in every other case.
   */
  function FromModelText(text: string, parse: string -> Option<RawJson>,
                         jsDate: string -> Option<string>, today: string): (r: TransactionData)
    ensures SafeParseJson(text, parse).Some? && ValidateTransactionData(SafeParseJson(text, parse).value, jsDate, today).Some?
            ==> r == ValidateTransactionData(SafeParseJson(text, parse).value, jsDate, today).value
    ensures SafeParseJson(text, parse).None? ==> r == FallbackTransaction(today)
    ensures SafeParseJson(text, parse).Some? && ValidateTransactionData(SafeParseJson(text, parse).value, jsDate, today).None?
            ==> r == FallbackTransaction(today)
    ensures r.amount > 0.0 <==> r != FallbackTransaction(today)
  {
    var data := SafeParseJson(text, parse);
    var validated := if data.Some? then ValidateTransactionData(data.value, jsDate, today) else None;
    if validated.Some? then validated.value else FallbackTransaction(today)
  }

  /**
   * `extractTransactionData`: both the browser and the server branch call
   * Gemini. Extraction never yields null: the result is a validated record
   * with a positive amount, or exactly the fallback record, and the amount
   * tells which.
   */
  function ExtractTransactionData(outcome: GeminiOutcome, parse: string -> Option<RawJson>,
                                  jsDate: string -> Option<string>, today: string): (r: TransactionData)
    ensures (r.amount > 0.0 && r.merchant != "") || r == FallbackTransaction(today)
    ensures r.amount > 0.0 <==> r != FallbackTransaction(today)
    ensures outcome.EngineError? ==> r == FallbackTransaction(today)
    ensures outcome.NoText? ==> r == FromModelText("", parse, jsDate, today)
    ensures outcome.Output? ==> r == FromModelText(Trim(outcome.text), parse, jsDate, today)
  {
    ExtractWithGemini(outcome, parse, jsDate, today)
  }

  /** `createManualTransaction(amount, merchant, purpose)` */
  function CreateManualTransaction(amount: real, merchant: string, purpose: Option<string>, today: string): (r: TransactionData)
    ensures r.amount == amount && r.merchant == merchant && r.date == today
    ensures r.category == Categorized(merchant, Some("Other"))
    ensures r.kind == DetermineTransactionType(merchant, r.category)
    ensures r.description == OrElse(purpose, "Manual entry - " + merchant)
  {
    var category := Categorized(merchant, Some("Other"));
    TransactionData(amount, merchant, category, today, DetermineTransactionType(merchant, category),
                    OrElse(purpose, "Manual entry - " + merchant))
  }

  /**
   * A manual entry with no merchant keyword is categorised 'Other' unless a
   * banking purpose applies, and a manual entry without a merchant is an
   * expense in category 'Other'.
   */
  lemma ManualWithoutMerchant(amount: real, purpose: Option<string>, today: string)
    ensures CreateManualTransaction(amount, "", purpose, today).category == "Other"
    ensures CreateManualTransaction(amount, "", purpose, today).kind == Expense
  {
  }
}

=== FILE: phone.dfy ===
/**
 * Phone-number registration of app/components/WhatsAppIntegration.tsx:
 * `formatPhoneNumber`, `validatePhoneNumber` and the validate-then-format
 * order of `handleSavePhoneNumber`, with the profile table as a sequence
 * of rows.
 */
module Phone {
  import opened Records
  import opened Text

  /** Bhutan mobile numbers start with 17 or 77. */
  predicate MobilePrefix(d: string)
  {
    StartsWith(d, "17") || StartsWith(d, "77")
  }

  /** `formatPhoneNumber(phone)`: the branches are tried in order on the digits. */
  function FormatPhoneNumber(phone: string): (r: string)
    ensures r == phone || r == "+" + Digits(phone) || r == "+975" + Digits(phone)
    ensures |Digits(phone)| == 8 ==> r == (if StartsWith(Digits(phone), "975") then "+" else "+975") + Digits(phone)
    ensures |Digits(phone)| < 8 && !StartsWith(Digits(phone), "975") && !MobilePrefix(Digits(phone)) ==> r == phone
  {
    var d := Digits(phone);
    if StartsWith(d, "975") then "+" + d
    else if MobilePrefix(d) then "+975" + d
    else if |d| == 8 then "+975" + d
    else if |d| >= 10 then "+" + d
    else phone
  }

  /** The result of `validatePhoneNumber`: valid, or the first error that applies. */
  datatype Validation = Valid | Invalid(error: string)

  const RequiredError := "Phone number is required"
  const TooShortError := "Phone number too short"
  const BhutanLengthError := "Bhutan phone numbers should be 8 digits after +975"
  const MobilePrefixError := "Bhutan mobile numbers should start with 17 or 77"
  const InternationalLengthError := "International phone numbers should be 10-15 digits"

  /**
   * The digit strings the registration accepts: 975 with 8 more digits, an
   * 8-digit local mobile number, or an international number of 10 to 15
   * digits that does not start with 975.
   */
  predicate AcceptedDigits(d: string)
  {
    || (StartsWith(d, "975") && |d| == 11)
    || (!StartsWith(d, "975") && |d| == 8 && MobilePrefix(d))
    || (!StartsWith(d, "975") && 10 <= |d| <= 15)
  }

  /** `validatePhoneNumber(phone)` */
  function ValidatePhoneNumber(phone: string): (r: Validation)
    ensures r.Valid? <==> AcceptedDigits(Digits(phone))
    ensures Digits(phone) == "" ==> r == Invalid(RequiredError)
    ensures 0 < |Digits(phone)| < 8 ==> r == Invalid(TooShortError)
    ensures |Digits(phone)| >= 8 && StartsWith(Digits(phone), "975") && |Digits(phone)| != 11 ==> r == Invalid(BhutanLengthError)
    ensures !StartsWith(Digits(phone), "975") && |Digits(phone)| == 8 && !MobilePrefix(Digits(phone)) ==> r == Invalid(MobilePrefixError)
    ensures !StartsWith(Digits(phone), "975") && (|Digits(phone)| == 9 || |Digits(phone)| > 15) ==> r == Invalid(InternationalLengthError)
  {
    var d := Digits(phone);
    if d == "" then Invalid(RequiredError)
    else if |d| < 8 then Invalid(TooShortError)
    else if StartsWith(d, "975") then
      if |d| != 11 then Invalid(BhutanLengthError) else Valid
    else if |d| == 8 then
      if !MobilePrefix(d) then Invalid(MobilePrefixError) else Valid
    else if |d| < 10 || |d| > 15 then Invalid(InternationalLengthError)
    else Valid
  }

  lemma DigitsOfPlus(d: string)
    requires AllDigits(d)
    ensures Digits("+" + d) == d
  {
    DigitsAppend("+", d);
    DigitsOfDigits(d);
  }

  lemma DigitsOfPlusCode(d: string)
    requires AllDigits(d)
    ensures Digits("+975" + d) == "975" + d
  {
    assert "+975" + d == "+" + ("975" + d);
    assert AllDigits("975" + d);
    DigitsOfPlus("975" + d);
  }

  /**
   * Formatting only ever prepends "+" or "+975" to the digits, or leaves the
   * input alone when the digits fit none of the recognised shapes.
   */
  lemma FormatShapes(phone: string)
    ensures var d := Digits(phone);
            var r := FormatPhoneNumber(phone);
            if StartsWith(d, "975") || (10 <= |d| && !MobilePrefix(d)) then r == "+" + d
            else if MobilePrefix(d) || |d| == 8 then r == "+975" + d
            else r == phone
  {
  }

  /** Formatting an already formatted number returns it unchanged. */
  lemma FormatIdempotent(phone: string)
    ensures FormatPhoneNumber(FormatPhoneNumber(phone)) == FormatPhoneNumber(phone)
  {
    var d := Digits(phone);
    assert AllDigits(d);
    var r := FormatPhoneNumber(phone);
    if StartsWith(d, "975") || (!MobilePrefix(d) && |d| != 8 && |d| >= 10) {
      DigitsOfPlus(d);
    } else if MobilePrefix(d) || |d| == 8 {
      DigitsOfPlusCode(d);
      assert StartsWith("975" + d, "975");
    }
  }

  /** Every accepted number formats to "+" followed by at least nine digits and nothing else. */
  lemma ValidFormatsToPlusDigits(phone: string)
    requires ValidatePhoneNumber(phone).Valid?
    ensures var r := FormatPhoneNumber(phone);
            |r| >= 10 && r[0] == '+' && AllDigits(r[1..]) && r[1..] == Digits(FormatPhoneNumber(phone))
  {
    var d := Digits(phone);
    assert AllDigits(d);
    var r := FormatPhoneNumber(phone);
    if StartsWith(d, "975") || (!MobilePrefix(d) && |d| != 8) {
      assert r == "+" + d && r[1..] == d;
      DigitsOfPlus(d);
    } else {
      assert r == "+975" + d && r[1..] == "975" + d;
      DigitsOfPlusCode(d);
    }
  }

  /**
   * An accepted international number that happens to start with 17 or 77
   * still gets the Bhutan code prepended, because that branch comes first.
   */
  lemma LongMobilePrefixGetsBhutanCode(phone: string)
    requires ValidatePhoneNumber(phone).Valid?
    requires !StartsWith(Digits(phone), "975") && MobilePrefix(Digits(phone)) && |Digits(phone)| >= 10
    ensures FormatPhoneNumber(phone) == "+975" + Digits(phone)
    ensures |Digits(FormatPhoneNumber(phone))| >= 13
  {
    DigitsOfPlusCode(Digits(phone));
  }

  /** An accepted local number is stored as +975 followed by its eight digits. */
  lemma LocalNumberFormat(phone: string)
    requires ValidatePhoneNumber(phone).Valid? && |Digits(phone)| == 8
    ensures FormatPhoneNumber(phone) == "+975" + Digits(phone)
    ensures AllDigits(Digits(phone)) && MobilePrefix(Digits(phone))
  {
  }

  /** What `handleSavePhoneNumber` ends with. */
  datatype SaveOutcome =
    | Skipped                 // no signed-in user, or a blank input: nothing happens
    | Failed(message: string) // the message shown to the user
    | Saved(phone: string)    // the stored, formatted number

  const TakenError := "This phone number is already registered by another user"

  /** Another user's profile already holds `phone`. */
  predicate TakenByOther(profiles: seq<Profile>, userId: string, phone: string)
  {
    exists i :: 0 <= i < |profiles| && profiles[i].userId != userId && profiles[i].phone == Some(phone)
  }

  /** The profile table after the update of the user's row(s). */
  function Registered(profiles: seq<Profile>, userId: string, phone: string): (r: seq<Profile>)
    ensures |r| == |profiles|
    ensures forall i :: 0 <= i < |r| && profiles[i].userId == userId ==>
              r[i] == Profile(userId, Some(phone), true)
    ensures forall i :: 0 <= i < |r| && profiles[i].userId != userId ==> r[i] == profiles[i]
  {
    seq(|profiles|, i requires 0 <= i < |profiles| =>
      if profiles[i].userId == userId then Profile(userId, Some(phone), true) else profiles[i])
  }

  /**
   * `handleSavePhoneNumber()`: validate, then format, then refuse a number
   * another user holds, then store it with WhatsApp enabled.
   */
  function SavePhoneNumber(user: Option<string>, input: string, profiles: seq<Profile>): (r: (SaveOutcome, seq<Profile>))
    ensures user.None? || Trim(input) == "" ==> r == (Skipped, profiles)
    ensures user.Some? && Trim(input) != "" && ValidatePhoneNumber(input).Invalid? ==>
              r == (Failed(ValidatePhoneNumber(input).error), profiles)
    ensures r.0.Saved? <==>
              user.Some? && Trim(input) != "" && ValidatePhoneNumber(input).Valid?
              && !TakenByOther(profiles, user.value, FormatPhoneNumber(input))
    ensures r.0.Saved? ==> r.0.phone == FormatPhoneNumber(input) && r.1 == Registered(profiles, user.value, r.0.phone)
    ensures !r.0.Saved? ==> r.1 == profiles
  {
    if user.None? || Trim(input) == "" then (Skipped, profiles)
    else
      var v := ValidatePhoneNumber(input);
      if v.Invalid? then (Failed(v.error), profiles)
      else
        var formatted := FormatPhoneNumber(input);
        if TakenByOther(profiles, user.value, formatted) then (Failed(TakenError), profiles)
        else (Saved(formatted), Registered(profiles, user.value, formatted))
  }

  /** Invalid input never reaches formatting or the store: the table is unchanged and nothing is saved. */
  lemma InvalidNeverStored(user: Option<string>, input: string, profiles: seq<Profile>)
    requires ValidatePhoneNumber(input).Invalid?
    ensures SavePhoneNumber(user, input, profiles).1 == profiles
    ensures !SavePhoneNumber(user, input, profiles).0.Saved?
  {
  }

  /** No number is held by two different users. */
  predicate NumbersDistinct(profiles: seq<Profile>)
  {
    forall i, j :: 0 <= i < |profiles| && 0 <= j < |profiles| && profiles[i].phone.Some? && profiles[i].phone == profiles[j].phone
      ==> profiles[i].userId == profiles[j].userId
  }

  /**
   * Registration keeps numbers unique: when no two users shared a number
   * before, none do after a save.
   */
  lemma SaveKeepsNumbersDistinct(user: Option<string>, input: string, profiles: seq<Profile>)
    requires NumbersDistinct(profiles)
    ensures NumbersDistinct(SavePhoneNumber(user, input, profiles).1)
  {
    var r := SavePhoneNumber(user, input, profiles);
  }
}

=== FILE: pipeline.dfy ===
/**
 * The behaviour of the WhatsApp webhook of app/api/whatsapp/webhook/route.ts
 * as functions of the state it changes: the redelivery set
 * `processedMessages`, the transaction and category tables, and the
 * messages sent back (an outbox of notices). The class in module WebhookRoute
 * carries out these steps in place; the lemmas here state what the steps
 * promise.
 *
 * Everything the handlers get from outside is in `Env`: the clock, the
 * profile table, whether the store calls succeed, and the image download
 * and Gemini outcome for each image id.
 */
module Pipeline {
  import opened Records
  import opened Text
  import opened Extraction
  import opened Resolver
  import opened Rows

  // ------------------------------------------------------------ data

  /** The replies the bot sends; each stands for one fixed message text. */
  datatype Notice =
    | UsageHint                                   // any message that is neither image nor text
    | Help                                        // text containing "help"
    | RegisteredStatus(userIdPrefix: string, storedPhone: Option<string>)
    | NotRegistered(phone: string)
    | TestEcho(phone: string, body: string)
    | NotUnderstood
    | Welcome(phone: string)                      // image from an unregistered sender
    | Processing
    | NoImage
    | ExtractionFailed
    | DuplicateNotice(data: TransactionData)
    | Added(data: TransactionData)
    | SaveFailed
    | ProcessingError

  datatype Outgoing = Outgoing(to: string, notice: Notice)

  /**
   * One WhatsApp message. `from` is "" when absent; `imageId` is `image.id`,
   * `imageString` is `image` when it is a string, `mediaId` is `media.id`.
   */
  datatype Message = Message(
    id: Option<string>,
    from: string,
    msgType: string,
    textBody: Option<string>,
    imageId: Option<string>,
    imageString: Option<string>,
    mediaId: Option<string>)

  /**
   * A change of an entry: its field, the number of status updates, and its
   * messages, where `None` stands for a null element. `BrokenChange` is a
   * null change, or a messages change without a `value`: reading its fields
   * throws a `TypeError`.
   */
  datatype Change = Change(field: string, statuses: nat, messages: seq<Option<Message>>) | BrokenChange

  /** An entry; `BrokenEntry` is a null entry or one whose `changes` is not a list, which throws. */
  datatype Entry = Entry(changes: seq<Change>) | BrokenEntry

  /**
   * The POST body: unreadable JSON, or an envelope. An account envelope
   * whose `entry` is not a list throws before anything happens, so it is
   * `Malformed` too.
   */
  datatype Body = Malformed | Envelope(obj: string, entries: seq<Entry>)

  /** How far the loops of `POST` got: the state reached, and whether a `TypeError` cut them short. */
  datatype Run = Run(st: State, thrown: bool)

  datatype PostReply = Success | ServerError

  datatype GetReply = ChallengeEcho(challenge: Option<string>) | Forbidden

  datatype Env = Env(
    now: nat,                                // Date.now(), one value per request
    today: string,                           // today's ISO date
    profiles: seq<Profile>,
    storeUp: Message -> bool,                // the resolver's connection test and listing succeed for this message
    dupQueryOk: string -> bool,              // the duplicate query for the image with this id succeeds
    insertOk: string -> bool,                // the transaction insert for the image with this id succeeds
    downloadOk: string -> bool,              // downloading the image with this id succeeds
    gemini: string -> GeminiOutcome,         // what the model answers for this image
    parse: string -> Option<RawJson>,        // JSON.parse
    jsDate: string -> Option<string>)        // the `new Date(s)` fallback

  datatype State = State(
    processed: set<string>,
    transactions: seq<Transaction>,
    categories: seq<CategoryRow>,
    outbox: seq<Outgoing>)

  /** `sendWhatsAppMessage`: its failures are swallowed, so it only ever appends to the outbox. */
  function Send(st: State, to: string, n: Notice): State
  {
    st.(outbox := st.outbox + [Outgoing(to, n)])
  }

  // ------------------------------------------------------------ GET

  /** `GET`: the challenge is echoed exactly when the mode is subscribe and the token is the configured one. */
  function VerifyReply(mode: Option<string>, token: Option<string>, challenge: Option<string>, secret: Option<string>): (r: GetReply)
    ensures r.ChallengeEcho? <==> mode == Some("subscribe") && token.Some? && token == secret
    ensures r.ChallengeEcho? ==> r.challenge == challenge
  {
    if mode == Some("subscribe") && token.Some? && token == secret then ChallengeEcho(challenge) else Forbidden
  }

  // ------------------------------------------------------------ text commands

  /** `userId.substring(0, 8)` */
  function Prefix8(s: string): (r: string)
    ensures |r| <= 8 && |r| <= |s| && r == s[..|r|]
    ensures |s| >= 8 ==> |r| == 8
  {
    if |s| <= 8 then s else s[..8]
  }

  /** `handleTextMessage`: the reply to a text message, if any. */
  function TextReply(phone: string, body: Option<string>, profiles: seq<Profile>, storeUp: bool): Option<Notice>
  {
    if phone == "" || !Truthy(body) then None
    else
      var lower := ToLower(body.value);
      if Contains(lower, "help") then Some(Help)
      else if Contains(lower, "status") then
        match Resolve(phone, profiles, storeUp)
        case Some(u) => Some(RegisteredStatus(Prefix8(u.userId) + "...", u.phone))
        case None => Some(NotRegistered(phone))
      else if Contains(lower, "test") then Some(TestEcho(phone, lower))
      else Some(NotUnderstood)
  }

  /**
   * Text commands: no sender or no body means no reply; otherwise the
   * lowercased body is matched by substring, help before status before
   * test, with a fallback reply.
   */
  lemma TextCommandPriority(phone: string, body: Option<string>, profiles: seq<Profile>, storeUp: bool)
    ensures phone == "" || body.None? || body == Some("") ==> TextReply(phone, body, profiles, storeUp).None?
    ensures phone != "" && Truthy(body) ==>
              var lower := ToLower(body.value);
              var r := TextReply(phone, body, profiles, storeUp);
              && (Contains(lower, "help") ==> r == Some(Help))
              && (!Contains(lower, "help") && Contains(lower, "status") ==>
                    r.value.RegisteredStatus? || r == Some(NotRegistered(phone)))
              && (!Contains(lower, "help") && !Contains(lower, "status") && Contains(lower, "test") ==>
                    r == Some(TestEcho(phone, lower)))
              && (!Contains(lower, "help") && !Contains(lower, "status") && !Contains(lower, "test") ==>
                    r == Some(NotUnderstood))
  {
  }

  /** "status" reports the first eight characters of the user id and "...", or the sender's number when unregistered. */
  lemma StatusReply(phone: string, body: string, profiles: seq<Profile>, storeUp: bool)
    requires phone != "" && body != ""
    requires !Contains(ToLower(body), "help") && Contains(ToLower(body), "status")
    ensures var r := TextReply(phone, Some(body), profiles, storeUp);
            var u := Resolve(phone, profiles, storeUp);
            && (u.Some? ==> r == Some(RegisteredStatus(u.value.userId[..|Prefix8(u.value.userId)|] + "...", u.value.phone)))
            && (u.None? ==> r == Some(NotRegistered(phone)))
            && (u.Some? && |u.value.userId| >= 8 ==> |r.value.userIdPrefix| == 11)
  {
  }

  // ------------------------------------------------------------ images

  /** `toString().slice(0, -4)` */
  function DropLast4(s: string): (r: string)
    ensures |s| <= 4 ==> r == ""
    ensures |s| > 4 ==> r == s[..|s| - 4]
  {
    if |s| <= 4 then "" else s[..|s| - 4]
  }

  /** The per-sender key of an image in the 10-second bucket of `now`. */
  function ImageKey(phone: string, now: nat): string
  {
    phone + "-image-" + DropLast4(NatToString(now))
  }

  /** The image id: `image.id`, else `image` when it is a string, else `media.id`. */
  function ImageIdOf(m: Message): Option<string>
  {
    if Truthy(m.imageId) then m.imageId
    else if m.imageString.Some? then m.imageString
    else m.mediaId
  }

  /**
   * `createAutoTransaction`: the amount check, the category, then the insert;
   * failures send the save notice. `imageId` names the image whose insert
   * this is, so that each image has its own store outcome.
   */
  function AutoTransaction(st: State, userId: string, data: TransactionData, phone: string, imageId: string, env: Env): State
  {
    if data.amount <= 0.0 then Send(st, phone, SaveFailed)
    else
      var st1 := st.(categories := EnsureCategory(st.categories, userId, data.category, data.kind));
      if env.insertOk(imageId) then st1.(transactions := st1.transactions + [AutoRow(userId, data, env.now)])
      else Send(st1, phone, SaveFailed)
  }

  /** `createAutoTransaction` throws exactly when the amount is not positive or the insert fails. */
  predicate AutoTransactionOk(data: TransactionData, imageId: string, env: Env)
  {
    data.amount > 0.0 && env.insertOk(imageId)
  }

  /**
   * The extracted data is usable, the duplicate check, the insert and the
   * confirmation; the duplicate query and the insert are those made for the
   * image `imageId`.
   */
  function SaveExtracted(st: State, userId: string, data: TransactionData, phone: string, imageId: string, env: Env): State
  {
    if !(data.amount > 0.0) then Send(st, phone, ExtractionFailed)
    else if IsDuplicate(st.transactions, userId, data, env.now, env.dupQueryOk(imageId)) then Send(st, phone, DuplicateNotice(data))
    else
      var st1 := AutoTransaction(st, userId, data, phone, imageId, env);
      if AutoTransactionOk(data, imageId, env) then Send(st1, phone, Added(data)) else Send(st1, phone, ProcessingError)
  }

  /** The extraction of the image `id`. */
  function Extracted(id: string, env: Env): TransactionData
  {
    ExtractTransactionData(env.gemini(id), env.parse, env.jsDate, env.today)
  }

  /** After the user was found: the processing notice, the image id, the download and the extraction. */
  function ForUser(st: State, m: Message, user: Profile, phone: string, env: Env): State
  {
    var st1 := Send(st, phone, Processing);
    var id := ImageIdOf(m);
    if !Truthy(id) then Send(st1, phone, NoImage)
    else if !env.downloadOk(id.value) then Send(st1, phone, ProcessingError)
    else SaveExtracted(st1, user.userId, Extracted(id.value, env), phone, id.value, env)
  }

  /** `processTransactionImage` */
  function ImageStep(st: State, m: Message, env: Env): State
  {
    var phone := m.from;
    if phone == "" then st
    else
      var key := ImageKey(phone, env.now);
      if key in st.processed then st
      else
        var st1 := st.(processed := st.processed + {key});
        match Resolve(phone, env.profiles, env.storeUp(m))
        case None => Send(st1, phone, Welcome(phone))
        case Some(user) => ForUser(st1, m, user, phone, env)
  }

  // ------------------------------------------------------------ POST

  /** A text message: its reply, if any, is sent to the sender. */
  function TextStep(st: State, m: Message, env: Env): State
  {
    match TextReply(m.from, m.textBody, env.profiles, env.storeUp(m))
    case Some(n) => Send(st, m.from, n)
    case None => st
  }

  /** The dispatch on the message type. */
  function Dispatch(st: State, m: Message, env: Env): State
  {
    if m.msgType == "image" then ImageStep(st, m, env)
    else if m.msgType == "text" then TextStep(st, m, env)
    else if m.from != "" then Send(st, m.from, UsageHint)
    else st
  }

  /** One message of the innermost loop: redelivery suppression, then dispatch. */
  function MessageStep(st: State, m: Message, env: Env): State
  {
    if Truthy(m.id) && m.id.value in st.processed then st
    else Dispatch(if Truthy(m.id) then st.(processed := st.processed + {m.id.value}) else st, m, env)
  }

  /**
   * The innermost loop. A null element throws at its `id`, after the
   * messages before it have been handled; nothing after it runs.
   */
  function Messages(st: State, ms: seq<Option<Message>>, env: Env): Run
  {
    if ms == [] then Run(st, false)
    else
      var prev := Messages(st, ms[..|ms| - 1], env);
      if prev.thrown then prev
      else match ms[|ms| - 1]
        case None => Run(prev.st, true)
        case Some(m) => Run(MessageStep(prev.st, m, env), false)
  }

  /** A change is handled only when its field is messages and it carries no status updates. */
  function ChangeStep(st: State, c: Change, env: Env): Run
  {
    match c
    case BrokenChange => Run(st, true)
    case Change(field, statuses, ms) =>
      if field != "messages" || statuses > 0 then Run(st, false) else Messages(st, ms, env)
  }

  function Changes(st: State, cs: seq<Change>, env: Env): Run
  {
    if cs == [] then Run(st, false)
    else
      var prev := Changes(st, cs[..|cs| - 1], env);
      if prev.thrown then prev else ChangeStep(prev.st, cs[|cs| - 1], env)
  }

  function EntryStep(st: State, e: Entry, env: Env): Run
  {
    match e
    case BrokenEntry => Run(st, true)
    case Entry(cs) => Changes(st, cs, env)
  }

  function Entries(st: State, es: seq<Entry>, env: Env): Run
  {
    if es == [] then Run(st, false)
    else
      var prev := Entries(st, es[..|es| - 1], env);
      if prev.thrown then prev else EntryStep(prev.st, es[|es| - 1], env)
  }

  /** `POST`: a throw inside the loops keeps what was done so far and gets the 500 reply. */
  function Post(st: State, body: Body, env: Env): (State, PostReply)
  {
    match body
    case Malformed => (st, ServerError)
    case Envelope(obj, es) =>
      if obj == "whatsapp_business_account" then
        var r := Entries(st, es, env);
        (r.st, if r.thrown then ServerError else Success)
      else (st, Success)
  }

  /** The hourly timer: the set is cleared only when it holds more than 1000 keys. */
  function Tick(st: State): (r: State)
    ensures r.transactions == st.transactions && r.categories == st.categories && r.outbox == st.outbox
  {
    if |st.processed| > 1000 then st.(processed := {}) else st
  }

  // ------------------------------------------------------------ lemmas: envelope

  /**
   * The reply: 500 for an unreadable body, and for an account envelope whose
   * loops threw; then the state is the one reached before the throw. Other
   * objects do nothing and still get success.
   */
  lemma PostReplies(st: State, body: Body, env: Env)
    ensures Post(st, body, env).1 == ServerError <==>
              body.Malformed? || (body.obj == "whatsapp_business_account" && Entries(st, body.entries, env).thrown)
    ensures body.Malformed? ==> Post(st, body, env).0 == st
    ensures body.Envelope? && body.obj == "whatsapp_business_account" ==> Post(st, body, env).0 == Entries(st, body.entries, env).st
    ensures body.Envelope? && body.obj != "whatsapp_business_account" ==> Post(st, body, env) == (st, Success)
  {
  }

  /** A change with status updates is skipped even when it also carries messages; so is any other field. A broken change throws. */
  lemma SkippedChanges(st: State, c: Change, env: Env)
    ensures c.Change? && c.statuses > 0 ==> ChangeStep(st, c, env) == Run(st, false)
    ensures c.Change? && c.field != "messages" ==> ChangeStep(st, c, env) == Run(st, false)
    ensures c.BrokenChange? ==> ChangeStep(st, c, env) == Run(st, true)
  {
  }

  // ------------------------------------------------------------ lemmas: throws

  /** Once the innermost loop has thrown, the rest of the messages change nothing. */
  lemma {:induction false} MessagesStop(st: State, ms: seq<Option<Message>>, k: nat, env: Env)
    requires k <= |ms| && Messages(st, ms[..k], env).thrown
    ensures Messages(st, ms, env) == Messages(st, ms[..k], env)
  {
    if k < |ms| {
      assert ms[..|ms| - 1][..k] == ms[..k];
      MessagesStop(st, ms[..|ms| - 1], k, env);
    } else {
      assert ms[..k] == ms;
    }
  }

  /** Once the change loop has thrown, the rest of the changes change nothing. */
  lemma {:induction false} ChangesStop(st: State, cs: seq<Change>, k: nat, env: Env)
    requires k <= |cs| && Changes(st, cs[..k], env).thrown
    ensures Changes(st, cs, env) == Changes(st, cs[..k], env)
  {
    if k < |cs| {
      assert cs[..|cs| - 1][..k] == cs[..k];
      ChangesStop(st, cs[..|cs| - 1], k, env);
    } else {
      assert cs[..k] == cs;
    }
  }

  /** Once the entry loop has thrown, the rest of the entries change nothing. */
  lemma {:induction false} EntriesStop(st: State, es: seq<Entry>, k: nat, env: Env)
    requires k <= |es| && Entries(st, es[..k], env).thrown
    ensures Entries(st, es, env) == Entries(st, es[..k], env)
  {
    if k < |es| {
      assert es[..|es| - 1][..k] == es[..k];
      EntriesStop(st, es[..|es| - 1], k, env);
    } else {
      assert es[..k] == es;
    }
  }

  /** No null element among the messages. */
  predicate NoNullMessage(ms: seq<Option<Message>>)
  {
    forall i :: 0 <= i < |ms| ==> ms[i].Some?
  }

  /** Every entry and change readable, and no null message. */
  predicate WellShaped(es: seq<Entry>)
  {
    forall i :: 0 <= i < |es| ==>
      && es[i].Entry?
      && (forall j :: 0 <= j < |es[i].changes| ==> es[i].changes[j].Change? && NoNullMessage(es[i].changes[j].messages))
  }

  lemma {:induction false} MessagesNoThrow(st: State, ms: seq<Option<Message>>, env: Env)
    requires NoNullMessage(ms)
    ensures !Messages(st, ms, env).thrown
  {
    if ms != [] {
      MessagesNoThrow(st, ms[..|ms| - 1], env);
    }
  }

  lemma {:induction false} ChangesNoThrow(st: State, cs: seq<Change>, env: Env)
    requires forall j :: 0 <= j < |cs| ==> cs[j].Change? && NoNullMessage(cs[j].messages)
    ensures !Changes(st, cs, env).thrown
  {
    if cs != [] {
      ChangesNoThrow(st, cs[..|cs| - 1], env);
      var last := cs[|cs| - 1];
      MessagesNoThrow(Changes(st, cs[..|cs| - 1], env).st, last.messages, env);
    }
  }

  lemma {:induction false} EntriesNoThrow(st: State, es: seq<Entry>, env: Env)
    requires WellShaped(es)
    ensures !Entries(st, es, env).thrown
  {
    if es != [] {
      EntriesNoThrow(st, es[..|es| - 1], env);
      ChangesNoThrow(Entries(st, es[..|es| - 1], env).st, es[|es| - 1].changes, env);
    }
  }

  /** An account envelope of readable entries, changes and messages always gets the success reply. */
  lemma WellShapedSucceeds(st: State, body: Body, env: Env)
    requires body.Envelope? && WellShaped(body.entries)
    ensures Post(st, body, env).1 == Success
  {
    EntriesNoThrow(st, body.entries, env);
  }

  /**
   * A null message after `k` good ones: the good ones are handled (their
   * rows and notices stay), nothing after the null one is, and the request
   * gets the 500 reply.
   */
  lemma NullMessageKeepsEarlierWork(st: State, ms: seq<Option<Message>>, k: nat, env: Env)
    requires k < |ms| && ms[k].None? && NoNullMessage(ms[..k])
    ensures Messages(st, ms, env) == Run(Messages(st, ms[..k], env).st, true)
    ensures Post(st, Envelope("whatsapp_business_account", [Entry([Change("messages", 0, ms)])]), env) ==
              (Messages(st, ms[..k], env).st, ServerError)
  {
    MessagesNoThrow(st, ms[..k], env);
    assert ms[..k + 1][..k] == ms[..k];
    MessagesStop(st, ms, k + 1, env);
    var cs := [Change("messages", 0, ms)];
    assert cs[..0] == [];
    assert Changes(st, cs, env) == Messages(st, ms, env);
    var es := [Entry(cs)];
    assert es[..0] == [];
    assert Entries(st, es, env) == Messages(st, ms, env);
  }

  /** The timer clears the set exactly when it holds more than 1000 keys. */
  lemma TickClears(st: State)
    ensures Tick(st).processed == {} <==> |st.processed| > 1000 || st.processed == {}
    ensures |st.processed| <= 1000 ==> Tick(st) == st
  {
  }

  // ------------------------------------------------------------ lemmas: redelivery

  /** A message whose id was seen is skipped: no notice, no write, no new key. */
  lemma RedeliveryIgnored(st: State, m: Message, env: Env)
    requires Truthy(m.id) && m.id.value in st.processed
    ensures MessageStep(st, m, env) == st
  {
  }

  /** A message without an id is never suppressed. */
  lemma NoIdNeverSuppressed(st: State, m: Message, env: Env)
    requires !Truthy(m.id)
    ensures MessageStep(st, m, env) == Dispatch(st, m, env)
  {
  }

  /** Handling only adds keys to the set: the message's id, and for images the bucket key. */
  lemma MessageStepKeys(st: State, m: Message, env: Env)
    ensures st.processed <= MessageStep(st, m, env).processed
    ensures Truthy(m.id) ==> m.id.value in MessageStep(st, m, env).processed
    ensures MessageStep(st, m, env).processed <= st.processed + (if Truthy(m.id) then {m.id.value} else {}) + {ImageKey(m.from, env.now)}
  {
    var st0 := if Truthy(m.id) then st.(processed := st.processed + {m.id.value}) else st;
    DispatchFacts(st0, m, env);
  }

  /**
   * A second image from the same sender in the same 10-second bucket is
   * dropped silently before any lookup: only its id is recorded.
   */
  lemma SameBucketImageDropped(st: State, m: Message, env: Env)
    requires m.msgType == "image" && m.from != "" && ImageKey(m.from, env.now) in st.processed
    requires !(Truthy(m.id) && m.id.value in st.processed)
    ensures MessageStep(st, m, env) == (if Truthy(m.id) then st.(processed := st.processed + {m.id.value}) else st)
  {
  }

  lemma AppendLeftCancel(a: string, x: string, y: string)
    requires a + x == a + y
    ensures x == y
  {
    assert x == (a + x)[|a|..];
    assert y == (a + y)[|a|..];
  }

  /** Two times (after the first 10 seconds of the epoch) share the sender's image key exactly when they fall in the same aligned 10-second bucket. */
  lemma ImageKeyBuckets(phone: string, t1: nat, t2: nat)
    requires t1 >= 10000 && t2 >= 10000
    ensures ImageKey(phone, t1) == ImageKey(phone, t2) <==> t1 / 10000 == t2 / 10000
  {
    DropFourDigits(t1);
    DropFourDigits(t2);
    var a := phone + "-image-";
    if ImageKey(phone, t1) == ImageKey(phone, t2) {
      AppendLeftCancel(a, NatToString(t1 / 10000), NatToString(t2 / 10000));
      NatToStringInjective(t1 / 10000, t2 / 10000);
    }
  }

  // ------------------------------------------------------------ lemmas: image pipeline

  /** A new image from an unregistered sender gets exactly the welcome notice naming the number, and nothing is written. */
  lemma UnregisteredGetsWelcome(st: State, m: Message, env: Env)
    requires m.from != "" && ImageKey(m.from, env.now) !in st.processed
    requires Resolve(m.from, env.profiles, env.storeUp(m)).None?
    ensures var r := ImageStep(st, m, env);
            && r.outbox == st.outbox + [Outgoing(m.from, Welcome(m.from))]
            && r.transactions == st.transactions && r.categories == st.categories
  {
  }

  /** Without an image id the sender is told so after the processing notice, and nothing is written. */
  lemma MissingImageId(st: State, m: Message, env: Env)
    requires m.from != "" && ImageKey(m.from, env.now) !in st.processed
    requires Resolve(m.from, env.profiles, env.storeUp(m)).Some? && !Truthy(ImageIdOf(m))
    ensures var r := ImageStep(st, m, env);
            && r.outbox == st.outbox + [Outgoing(m.from, Processing), Outgoing(m.from, NoImage)]
            && r.transactions == st.transactions && r.categories == st.categories
  {
  }

  /** The stages after extraction: which notices are sent and which rows are written. */
  lemma SaveExtractedOutcomes(st: State, userId: string, data: TransactionData, phone: string, imageId: string, env: Env)
    ensures var r := SaveExtracted(st, userId, data, phone, imageId, env);
            var dup := IsDuplicate(st.transactions, userId, data, env.now, env.dupQueryOk(imageId));
            && (!(data.amount > 0.0) ==>
                  r.outbox == st.outbox + [Outgoing(phone, ExtractionFailed)] && r.transactions == st.transactions && r.categories == st.categories)
            && (data.amount > 0.0 && dup ==>
                  r.outbox == st.outbox + [Outgoing(phone, DuplicateNotice(data))] && r.transactions == st.transactions && r.categories == st.categories)
            && (data.amount > 0.0 && !dup && !env.insertOk(imageId) ==>
                  r.outbox == st.outbox + [Outgoing(phone, SaveFailed), Outgoing(phone, ProcessingError)]
                  && r.transactions == st.transactions
                  && r.categories == EnsureCategory(st.categories, userId, data.category, data.kind))
            && (data.amount > 0.0 && !dup && env.insertOk(imageId) ==>
                  r.outbox == st.outbox + [Outgoing(phone, Added(data))]
                  && r.transactions == st.transactions + [AutoRow(userId, data, env.now)]
                  && r.categories == EnsureCategory(st.categories, userId, data.category, data.kind))
  {
  }

  /**
   * `createAutoTransaction` called on its own with a non-positive amount
   * writes nothing and sends the save-failed notice (then throws).
   */
  lemma AutoTransactionRejectsAmount(st: State, userId: string, data: TransactionData, phone: string, imageId: string, env: Env)
    requires data.amount <= 0.0
    ensures AutoTransaction(st, userId, data, phone, imageId, env) == Send(st, phone, SaveFailed)
    ensures !AutoTransactionOk(data, imageId, env)
  {
  }

  // ------------------------------------------------------------ lemmas: what POST writes

  /** `after` extends `before` by rows that all carry the pipeline's provenance. */
  predicate AppendsFlagged(before: seq<Transaction>, after: seq<Transaction>)
  {
    |before| <= |after| && after[..|before|] == before
    && forall i :: |before| <= i < |after| ==> Provenance(after[i])
  }

  lemma AppendsFlaggedTrans(a: seq<Transaction>, b: seq<Transaction>, c: seq<Transaction>)
    requires AppendsFlagged(a, b) && AppendsFlagged(b, c)
    ensures AppendsFlagged(a, c)
  {
    assert c[..|a|] == c[..|b|][..|a|];
    forall i | |a| <= i < |c|
      ensures Provenance(c[i])
    {
      if i < |b| {
        assert c[i] == c[..|b|][i];
      }
    }
  }

  /** What a stage leaves alone: the redelivery set, and the rows it does not append. */
  predicate Extends(before: State, after: State)
  {
    before.processed == after.processed && AppendsFlagged(before.transactions, after.transactions)
  }

  lemma AutoTransactionExtends(st: State, userId: string, data: TransactionData, phone: string, imageId: string, env: Env)
    ensures Extends(st, AutoTransaction(st, userId, data, phone, imageId, env))
  {
    AutoRowHasProvenance(userId, data, env.now);
    var r := AutoTransaction(st, userId, data, phone, imageId, env);
    assert r.transactions[..|st.transactions|] == st.transactions;
  }

  lemma SaveExtractedExtends(st: State, userId: string, data: TransactionData, phone: string, imageId: string, env: Env)
    ensures Extends(st, SaveExtracted(st, userId, data, phone, imageId, env))
  {
    AutoTransactionExtends(st, userId, data, phone, imageId, env);
    assert st.transactions[..|st.transactions|] == st.transactions;
  }

  lemma ForUserExtends(st: State, m: Message, user: Profile, phone: string, env: Env)
    ensures Extends(st, ForUser(st, m, user, phone, env))
  {
    var st1 := Send(st, phone, Processing);
    var id := ImageIdOf(m);
    assert st.transactions[..|st.transactions|] == st.transactions;
    if Truthy(id) && env.downloadOk(id.value) {
      SaveExtractedExtends(st1, user.userId, Extracted(id.value, env), phone, id.value, env);
    }
  }

  lemma DispatchFacts(st: State, m: Message, env: Env)
    ensures st.processed <= Dispatch(st, m, env).processed <= st.processed + {ImageKey(m.from, env.now)}
    ensures AppendsFlagged(st.transactions, Dispatch(st, m, env).transactions)
  {
    assert st.transactions[..|st.transactions|] == st.transactions;
    if m.msgType == "image" && m.from != "" && ImageKey(m.from, env.now) !in st.processed {
      var st1 := st.(processed := st.processed + {ImageKey(m.from, env.now)});
      var u := Resolve(m.from, env.profiles, env.storeUp(m));
      if u.Some? {
        ForUserExtends(st1, m, u.value, m.from, env);
      }
    }
  }

  lemma MessageStepAppendsFlagged(st: State, m: Message, env: Env)
    ensures AppendsFlagged(st.transactions, MessageStep(st, m, env).transactions)
  {
    var st0 := if Truthy(m.id) then st.(processed := st.processed + {m.id.value}) else st;
    assert st.transactions[..|st.transactions|] == st.transactions;
    DispatchFacts(st0, m, env);
  }

  lemma {:induction false} MessagesAppendFlagged(st: State, ms: seq<Option<Message>>, env: Env)
    ensures AppendsFlagged(st.transactions, Messages(st, ms, env).st.transactions)
  {
    assert st.transactions[..|st.transactions|] == st.transactions;
    if ms != [] {
      var mid := Messages(st, ms[..|ms| - 1], env);
      MessagesAppendFlagged(st, ms[..|ms| - 1], env);
      if !mid.thrown && ms[|ms| - 1].Some? {
        MessageStepAppendsFlagged(mid.st, ms[|ms| - 1].value, env);
        AppendsFlaggedTrans(st.transactions, mid.st.transactions, Messages(st, ms, env).st.transactions);
      }
    }
  }

  lemma ChangeStepAppendsFlagged(st: State, c: Change, env: Env)
    ensures AppendsFlagged(st.transactions, ChangeStep(st, c, env).st.transactions)
  {
    assert st.transactions[..|st.transactions|] == st.transactions;
    if c.Change? {
      MessagesAppendFlagged(st, c.messages, env);
    }
  }

  lemma {:induction false} ChangesAppendFlagged(st: State, cs: seq<Change>, env: Env)
    ensures AppendsFlagged(st.transactions, Changes(st, cs, env).st.transactions)
  {
    assert st.transactions[..|st.transactions|] == st.transactions;
    if cs != [] {
      var mid := Changes(st, cs[..|cs| - 1], env);
      ChangesAppendFlagged(st, cs[..|cs| - 1], env);
      if !mid.thrown {
        ChangeStepAppendsFlagged(mid.st, cs[|cs| - 1], env);
        AppendsFlaggedTrans(st.transactions, mid.st.transactions, Changes(st, cs, env).st.transactions);
      }
    }
  }

  lemma {:induction false} EntriesAppendFlagged(st: State, es: seq<Entry>, env: Env)
    ensures AppendsFlagged(st.transactions, Entries(st, es, env).st.transactions)
  {
    assert st.transactions[..|st.transactions|] == st.transactions;
    if es != [] {
      var mid := Entries(st, es[..|es| - 1], env);
      EntriesAppendFlagged(st, es[..|es| - 1], env);
      if !mid.thrown && es[|es| - 1].Entry? {
        ChangesAppendFlagged(mid.st, es[|es| - 1].changes, env);
        AppendsFlaggedTrans(st.transactions, mid.st.transactions, Entries(st, es, env).st.transactions);
      }
    }
  }

  /**
   * A POST never changes or removes a transaction row, whether or not it
   * throws: it only appends rows, and every row it appends carries the
   * pipeline's provenance, so the duplicate check recognises it later.
   */
  lemma PostOnlyAppendsFlaggedRows(st: State, body: Body, env: Env)
    ensures AppendsFlagged(st.transactions, Post(st, body, env).0.transactions)
  {
    if body.Envelope? && body.obj == "whatsapp_business_account" {
      EntriesAppendFlagged(st, body.entries, env);
    }
  }
}

=== FILE: records.dfy ===
/**
 * The rows the budget tracker keeps in its hosted store, as values.
 * Field names follow lib/supabase.ts; fields the webhook writes beyond
 * that type (source, merchant) are included because the duplicate
 * detector reads them back.
 */
module Records {

  datatype Option<+T> = None | Some(value: T)

  /** 'income' | 'expense' */
  datatype TxType = Income | Expense

  /** A ledger row (lib/supabase.ts `Transaction`, plus the provenance columns). */
  datatype Transaction = Transaction(
    userId: string,
    amount: real,
    category: string,
    kind: TxType,
    date: string,
    notes: Option<string>,
    source: Option<string>,
    merchant: Option<string>,
    createdAt: int  // milliseconds since the epoch
  )

  /** A category row (lib/supabase.ts `Category`). */
  datatype CategoryRow = CategoryRow(
    userId: string,
    name: string,
    kind: TxType,
    color: string,
    order: int
  )

  /** The columns of `user_profiles` that the webhook reads. */
  datatype Profile = Profile(
    userId: string,
    phone: Option<string>,
    whatsappEnabled: bool
  )

  /** The record the extraction pipeline produces (lib/ocr-service.ts `TransactionData`). */
  datatype TransactionData = TransactionData(
    amount: real,
    merchant: string,
    category: string,
    date: string,
    kind: TxType,
    description: string
  )

  /** JavaScript truthiness of an optional string: present and non-empty. */
  predicate Truthy(s: Option<string>)
  {
    s.Some? && s.value != ""
  }
}

=== FILE: resolver.dfy ===
/**
 * `findUserByPhone` of app/api/whatsapp/webhook/route.ts: the sender's
 * number is expanded into an insertion-ordered set of candidate formats,
 * each is looked up exactly among the WhatsApp-enabled profiles, and when
 * none matches a digits-only comparison is tried.
 *
 * The profile table is a sequence of rows; `storeUp` is false when the
 * connection test or the listing of enabled profiles fails.
 */
module Resolver {
  import opened Records
  import opened Text
  import opened Phone

  // ------------------------------------------------------------ formats

  /** `Set.add`: append unless already present. */
  function Add(s: seq<string>, x: string): (r: seq<string>)
    ensures x in r && forall y :: y in r <==> y in s || y == x
    ensures |s| <= |r| && r[..|s|] == s
  {
    if x in s then s else s + [x]
  }

  /** Successive `add`s of `xs`, left to right. */
  function AddAll(s: seq<string>, xs: seq<string>): (r: seq<string>)
    ensures forall y :: y in r <==> y in s || y in xs
    ensures |s| <= |r| && r[..|s|] == s
  {
    if xs == [] then s
    else
      var r := Add(AddAll(s, xs[..|xs| - 1]), xs[|xs| - 1]);
      assert xs == xs[..|xs| - 1] + [xs[|xs| - 1]];
      r
  }

  /** `.filter(f => f && f.length > 0)` */
  function NonEmptyOnly(s: seq<string>): (r: seq<string>)
    ensures forall y :: y in r <==> y in s && y != ""
  {
    if s == [] then []
    else (if s[0] == "" then [] else [s[0]]) + NonEmptyOnly(s[1..])
  }

  lemma {:induction false} NonEmptyOnlyAppend(a: seq<string>, b: seq<string>)
    ensures NonEmptyOnly(a + b) == NonEmptyOnly(a) + NonEmptyOnly(b)
  {
    if a == [] {
      assert a + b == b;
    } else {
      assert (a + b)[1..] == a[1..] + b;
      NonEmptyOnlyAppend(a[1..], b);
    }
  }

  /** The formats added for every sender: trimmed, with "+", and without a leading "+". */
  function BaseFormats(phone: string): seq<string>
  {
    var t := Trim(phone);
    var base := Add([t], "+" + t);
    if StartsWith(phone, "+") then Add(base, Trim(phone[1..])) else base
  }

  /** The formats added for the sender's digit string, by its shape. */
  function ShapeFormats(clean: string): seq<string>
  {
    if |clean| == 11 && StartsWith(clean, "975") then
      var local := clean[3..];
      [clean, "+" + clean, local, "+975" + local, "975" + local]
    else if |clean| == 8 && MobilePrefix(clean) then
      [clean, "+" + clean, "975" + clean, "+975" + clean]
    else if |clean| >= 10 then
      [clean, "+" + clean] + (if |clean| == 10 then ["+1" + clean] else [])
    else []
  }

  /** `formatArray`: the candidate formats, in insertion order, without duplicates or empty strings. */
  function Candidates(phone: string): seq<string>
  {
    NonEmptyOnly(AddAll(BaseFormats(phone), ShapeFormats(Digits(phone))))
  }

  // ------------------------------------------------------------ lookups

  /** The `.eq('whatsapp_enabled', true)` listing. */
  function Enabled(profiles: seq<Profile>): (r: seq<Profile>)
    ensures forall p :: p in r <==> p in profiles && p.whatsappEnabled
  {
    if profiles == [] then []
    else (if profiles[0].whatsappEnabled then [profiles[0]] else []) + Enabled(profiles[1..])
  }

  /** The exact query for one format: an enabled profile holding exactly that number. */
  function Lookup(profiles: seq<Profile>, format: string): (r: Option<Profile>)
    ensures r.Some? ==> r.value in profiles && r.value.whatsappEnabled && r.value.phone == Some(format)
    ensures r.None? <==> forall p :: p in profiles ==> !(p.whatsappEnabled && p.phone == Some(format))
  {
    if profiles == [] then None
    else if profiles[0].whatsappEnabled && profiles[0].phone == Some(format) then Some(profiles[0])
    else Lookup(profiles[1..], format)
  }

  /** The exact phase from candidate `from` on: the first candidate that finds a profile. */
  function ExactFrom(formats: seq<string>, profiles: seq<Profile>, from: nat): (r: Option<Profile>)
    requires from <= |formats|
    ensures r.Some? ==> exists k :: from <= k < |formats| && Lookup(profiles, formats[k]) == r
    ensures r.None? <==> forall k :: from <= k < |formats| ==> Lookup(profiles, formats[k]).None?
    decreases |formats| - from
  {
    if from == |formats| then None
    else if Lookup(profiles, formats[from]).Some? then Lookup(profiles, formats[from])
    else ExactFrom(formats, profiles, from + 1)
  }

  /**
   * The fuzzy test of one stored number's digits `stored` against the
   * sender's digits `clean`: equal, or (given containment either way) the
   * 11-versus-8-digit case where the shorter is a suffix of the longer.
   */
  predicate FuzzyMatch(clean: string, stored: string)
  {
    || stored == clean
    || ((Contains(clean, stored) || Contains(stored, clean))
        && ((|clean| == 11 && |stored| == 8 && EndsWith(clean, stored))
            || (|clean| == 8 && |stored| == 11 && EndsWith(stored, clean))))
  }

  /**
   * The fuzzy phase over the enabled listing from position `from` on. A row
   * without a number makes `replace` throw, which the outer `catch` turns
   * into null.
   */
  function FuzzyFrom(clean: string, enabled: seq<Profile>, from: nat): (r: Option<Profile>)
    requires from <= |enabled|
    decreases |enabled| - from
  {
    if from == |enabled| then None
    else
      var p := enabled[from];
      if p.phone.None? then None
      else if FuzzyMatch(clean, Digits(p.phone.value)) then Some(p)
      else FuzzyFrom(clean, enabled, from + 1)
  }

  /** `findUserByPhone(phone)` as a value. */
  function Resolve(phone: string, profiles: seq<Profile>, storeUp: bool): Option<Profile>
  {
    if !storeUp || Enabled(profiles) == [] then None
    else match ExactFrom(Candidates(phone), profiles, 0)
      case Some(p) => Some(p)
      case None => FuzzyFrom(Digits(phone), Enabled(profiles), 0)
  }

  // ------------------------------------------------------------ the method

  /** The `phoneFormats` set built by successive adds, then filtered into `formatArray`. */
  method BuildFormats(phone: string) returns (formatArray: seq<string>)
    ensures formatArray == Candidates(phone)
  {
    var formats := BaseFormats(phone);
    var extra := ShapeFormats(Digits(phone));
    for i := 0 to |extra|
      invariant formats == AddAll(BaseFormats(phone), extra[..i])
    {
      assert extra[..i + 1][..i] == extra[..i];
      formats := Add(formats, extra[i]);
    }
    assert extra[..|extra|] == extra;
    formatArray := NonEmptyOnly(formats);
  }

  /** `findUserByPhone`: build the formats by successive adds, then the two lookup loops. */
  method FindUserByPhone(phone: string, profiles: seq<Profile>, storeUp: bool) returns (r: Option<Profile>)
    ensures r == Resolve(phone, profiles, storeUp)
  {
    if !storeUp {
      return None;
    }
    var existing := Enabled(profiles);
    if existing == [] {
      return None;
    }
    var clean := Digits(phone);
    var formatArray := BuildFormats(phone);
    for i := 0 to |formatArray|
      invariant ExactFrom(formatArray, profiles, 0) == ExactFrom(formatArray, profiles, i)
    {
      var data := Lookup(profiles, formatArray[i]);
      if data.Some? {
        return data;
      }
    }
    for i := 0 to |existing|
      invariant FuzzyFrom(clean, existing, 0) == FuzzyFrom(clean, existing, i)
    {
      var p := existing[i];
      if p.phone.None? {
        return None;
      }
      if FuzzyMatch(clean, Digits(p.phone.value)) {
        return Some(p);
      }
    }
    return None;
  }

  // ------------------------------------------------------------ lemmas

  /** Only an enabled profile from the table is ever returned. */
  lemma {:induction false} FuzzyFromEnabled(clean: string, enabled: seq<Profile>, from: nat)
    requires from <= |enabled|
    ensures FuzzyFrom(clean, enabled, from).Some? ==> FuzzyFrom(clean, enabled, from).value in enabled[from..]
    decreases |enabled| - from
  {
    if from < |enabled| && enabled[from].phone.Some? && !FuzzyMatch(clean, Digits(enabled[from].phone.value)) {
      FuzzyFromEnabled(clean, enabled, from + 1);
    }
  }

  /** A user with WhatsApp disabled is never returned, and nothing outside the table is. */
  lemma NeverDisabled(phone: string, profiles: seq<Profile>, storeUp: bool)
    ensures Resolve(phone, profiles, storeUp).Some? ==>
              Resolve(phone, profiles, storeUp).value in profiles && Resolve(phone, profiles, storeUp).value.whatsappEnabled
  {
    FuzzyFromEnabled(Digits(phone), Enabled(profiles), 0);
  }

  /** No enabled users, or a failing store, gives null before any candidate is tried. */
  lemma NoEnabledUsers(phone: string, profiles: seq<Profile>, storeUp: bool)
    requires !storeUp || forall p :: p in profiles ==> !p.whatsappEnabled
    ensures Resolve(phone, profiles, storeUp).None?
  {
    if storeUp {
      NoneEnabled(profiles);
    }
  }

  lemma {:induction false} NoneEnabled(profiles: seq<Profile>)
    requires forall p :: p in profiles ==> !p.whatsappEnabled
    ensures Enabled(profiles) == []
  {
    if profiles != [] {
      assert forall p :: p in profiles[1..] ==> p in profiles;
      NoneEnabled(profiles[1..]);
    }
  }

  /** The trimmed input and "+" followed by it are always candidates (the former when non-empty). */
  lemma CandidatesAlwaysInclude(phone: string)
    ensures "+" + Trim(phone) in Candidates(phone)
    ensures Trim(phone) != "" ==> Trim(phone) in Candidates(phone)
  {
  }

  /** An 11-digit sender starting with 975 also yields its 8-digit local part. */
  lemma FullBhutanYieldsLocal(phone: string)
    requires |Digits(phone)| == 11 && StartsWith(Digits(phone), "975")
    ensures Digits(phone)[3..] in Candidates(phone) && |Digits(phone)[3..]| == 8
  {
    assert Digits(phone)[3..] in ShapeFormats(Digits(phone));
  }

  /** An 8-digit sender starting with 17 or 77 yields the number with 975 and with +975 in front. */
  lemma LocalYieldsCountryCode(phone: string)
    requires |Digits(phone)| == 8 && MobilePrefix(Digits(phone))
    ensures "975" + Digits(phone) in Candidates(phone) && "+975" + Digits(phone) in Candidates(phone)
  {
    assert "975" + Digits(phone) in ShapeFormats(Digits(phone));
    assert "+975" + Digits(phone) in ShapeFormats(Digits(phone));
  }

  /** A 10-digit sender yields the US form "+1" followed by the digits. */
  lemma TenDigitsYieldsUsForm(phone: string)
    requires |Digits(phone)| == 10
    ensures "+1" + Digits(phone) in Candidates(phone)
  {
    assert "+1" + Digits(phone) in ShapeFormats(Digits(phone));
  }

  /**
   * Exact phase: the first candidate, in insertion order, that some enabled
   * user holds decides the result.
   */
  lemma ExactFirstMatchWins(phone: string, profiles: seq<Profile>, k: nat)
    requires Enabled(profiles) != []
    requires k < |Candidates(phone)| && Lookup(profiles, Candidates(phone)[k]).Some?
    requires forall j :: 0 <= j < k ==> Lookup(profiles, Candidates(phone)[j]).None?
    ensures Resolve(phone, profiles, true) == Lookup(profiles, Candidates(phone)[k])
  {
    ExactFromFirst(Candidates(phone), profiles, 0, k);
  }

  lemma {:induction false} ExactFromFirst(formats: seq<string>, profiles: seq<Profile>, from: nat, k: nat)
    requires from <= k < |formats| && Lookup(profiles, formats[k]).Some?
    requires forall j :: from <= j < k ==> Lookup(profiles, formats[j]).None?
    ensures ExactFrom(formats, profiles, from) == Lookup(profiles, formats[k])
    decreases k - from
  {
    if from < k {
      ExactFromFirst(formats, profiles, from + 1, k);
    }
  }

  /**
   * Row `i` of the enabled listing is the fuzzy phase's first hit from
   * `from` on: it has a number that matches, and every row before it has a
   * number that does not.
   */
  predicate FirstFuzzyHit(clean: string, enabled: seq<Profile>, from: nat, i: nat)
  {
    && from <= i < |enabled|
    && enabled[i].phone.Some? && FuzzyMatch(clean, Digits(enabled[i].phone.value))
    && forall j :: from <= j < i ==> enabled[j].phone.Some? && !FuzzyMatch(clean, Digits(enabled[j].phone.value))
  }

  /** The first matching row, reached without passing a row lacking a number, is the one returned. */
  lemma {:induction false} FuzzyFindsFirst(clean: string, enabled: seq<Profile>, from: nat, i: nat)
    requires FirstFuzzyHit(clean, enabled, from, i)
    ensures FuzzyFrom(clean, enabled, from) == Some(enabled[i])
    decreases i - from
  {
    if from < i {
      FuzzyFindsFirst(clean, enabled, from + 1, i);
    }
  }

  /** Conversely, whatever the fuzzy phase returns is such a first hit. */
  lemma {:induction false} FuzzyResultIsFirst(clean: string, enabled: seq<Profile>, from: nat)
    requires from <= |enabled|
    ensures FuzzyFrom(clean, enabled, from).Some? ==>
              exists i: nat :: FirstFuzzyHit(clean, enabled, from, i) && FuzzyFrom(clean, enabled, from) == Some(enabled[i])
    decreases |enabled| - from
  {
    if from < |enabled| && enabled[from].phone.Some? && !FuzzyMatch(clean, Digits(enabled[from].phone.value)) {
      FuzzyResultIsFirst(clean, enabled, from + 1);
      if FuzzyFrom(clean, enabled, from).Some? {
        var i: nat :| FirstFuzzyHit(clean, enabled, from + 1, i) && FuzzyFrom(clean, enabled, from + 1) == Some(enabled[i]);
        assert FirstFuzzyHit(clean, enabled, from, i);
      }
    } else if from < |enabled| && enabled[from].phone.Some? {
      assert FirstFuzzyHit(clean, enabled, from, from);
    }
  }

  /**
   * A row without a number, reached before any match, ends the fuzzy phase
   * with null: `replace` throws there and the outer `catch` answers null.
   */
  lemma {:induction false} NullPhoneEndsFuzzy(clean: string, enabled: seq<Profile>, from: nat, i: nat)
    requires from <= i < |enabled| && enabled[i].phone.None?
    requires forall j :: from <= j < i ==> enabled[j].phone.Some? && !FuzzyMatch(clean, Digits(enabled[j].phone.value))
    ensures FuzzyFrom(clean, enabled, from).None?
    decreases i - from
  {
    if from < i {
      NullPhoneEndsFuzzy(clean, enabled, from + 1, i);
    }
  }

  /**
   * When no candidate format finds a profile exactly, the user found is the
   * first enabled one whose number fuzzily matches the sender's digits.
   */
  lemma FuzzyPhaseDecides(phone: string, profiles: seq<Profile>, i: nat)
    requires forall k :: 0 <= k < |Candidates(phone)| ==> Lookup(profiles, Candidates(phone)[k]).None?
    requires FirstFuzzyHit(Digits(phone), Enabled(profiles), 0, i)
    ensures Resolve(phone, profiles, true) == Some(Enabled(profiles)[i])
  {
    FuzzyFindsFirst(Digits(phone), Enabled(profiles), 0, i);
  }

  lemma SuffixIsContained(s: string, suffix: string)
    requires EndsWith(s, suffix)
    ensures Contains(s, suffix)
  {
    assert OccursAt(s, suffix, |s| - |suffix|);
    ContainsAt(s, suffix, |s| - |suffix|);
  }

  /**
   * The fuzzy rule without its containment pre-test: digits equal, or the
   * 11-versus-8-digit suffix case, with no check that the longer starts
   * with 975.
   */
  lemma FuzzyMatchRule(clean: string, stored: string)
    ensures FuzzyMatch(clean, stored) <==>
              || stored == clean
              || (|clean| == 11 && |stored| == 8 && EndsWith(clean, stored))
              || (|clean| == 8 && |stored| == 11 && EndsWith(stored, clean))
  {
    if |clean| == 11 && |stored| == 8 && EndsWith(clean, stored) {
      SuffixIsContained(clean, stored);
    }
    if |clean| == 8 && |stored| == 11 && EndsWith(stored, clean) {
      SuffixIsContained(stored, clean);
    }
  }

  /** Outside the 11-versus-8-digit case, containment alone never matches: the digits must be equal. */
  lemma ContainmentAloneDoesNotMatch(clean: string, stored: string)
    requires !(|clean| == 11 && |stored| == 8) && !(|clean| == 8 && |stored| == 11)
    ensures FuzzyMatch(clean, stored) <==> stored == clean
  {
  }

  /** Every stored number begins with "+", as every number saved by registration does. */
  predicate PlusPrefixed(profiles: seq<Profile>)
  {
    forall p :: p in profiles && p.phone.Some? ==> StartsWith(p.phone.value, "+")
  }

  /** Adding more formats and dropping empty ones keeps two non-empty leading formats in front. */
  lemma KeepsLeadingPair(base: seq<string>, extra: seq<string>)
    requires |base| >= 2 && base[0] != "" && base[1] != ""
    ensures var c := NonEmptyOnly(AddAll(base, extra));
            |c| >= 2 && c[0] == base[0] && c[1] == base[1]
  {
    var all := AddAll(base, extra);
    assert all == [base[0], base[1]] + all[2..];
    NonEmptyOnlyAppend([base[0], base[1]], all[2..]);
    assert NonEmptyOnly([base[0], base[1]]) == [base[0], base[1]] by {
      assert [base[0], base[1]][1..] == [base[1]];
      assert [base[1]][1..] == [];
    }
  }

  /** The first two candidates are the trimmed input and "+" followed by it, when the input is not blank. */
  lemma CandidatesStart(phone: string)
    requires Trim(phone) != ""
    ensures |Candidates(phone)| >= 2 && Candidates(phone)[0] == Trim(phone) && Candidates(phone)[1] == "+" + Trim(phone)
  {
    var t := Trim(phone);
    var base := BaseFormats(phone);
    assert base[..2] == [t, "+" + t];
    KeepsLeadingPair(base, ShapeFormats(Digits(phone)));
  }

  /** When every stored number begins with "+", a format without it finds nobody. */
  lemma UnprefixedNotStored(format: string, profiles: seq<Profile>)
    requires PlusPrefixed(profiles) && !StartsWith(format, "+")
    ensures Lookup(profiles, format).None?
  {
    forall p | p in profiles
      ensures !(p.whatsappEnabled && p.phone == Some(format))
    {
      assert p.phone.Some? ==> StartsWith(p.phone.value, "+");
    }
  }

  /** With distinct numbers, the exact query for an enabled owner's number finds that owner's row. */
  lemma LookupFindsOwner(profiles: seq<Profile>, format: string, owner: Profile)
    requires owner in profiles && owner.whatsappEnabled && owner.phone == Some(format)
    requires NumbersDistinct(profiles)
    ensures Lookup(profiles, format).Some?
    ensures Lookup(profiles, format).value.userId == owner.userId && Lookup(profiles, format).value.phone == owner.phone
  {
    var u := Lookup(profiles, format).value;
    var i :| 0 <= i < |profiles| && profiles[i] == u;
    var j :| 0 <= j < |profiles| && profiles[j] == owner;
  }

  /**
   * A sender reported as a plain digit string is found through its
   * "+"-prefixed candidate when every stored number begins with "+".
   */
  lemma PlusCandidateResolves(sender: string, profiles: seq<Profile>)
    requires sender != "" && AllDigits(sender)
    requires PlusPrefixed(profiles) && Lookup(profiles, "+" + sender).Some?
    ensures Resolve(sender, profiles, true) == Lookup(profiles, "+" + sender)
  {
    PlainSender(sender);
    CandidatesStart(sender);
    var owner := Lookup(profiles, "+" + sender).value;
    assert Enabled(profiles) != [] by {
      assert owner in Enabled(profiles);
    }
    UnprefixedNotStored(sender, profiles);
    assert Lookup(profiles, Candidates(sender)[0]).None?;
    ExactFirstMatchWins(sender, profiles, 1);
  }

  /** A non-empty digit string is its own trim and does not start with "+". */
  lemma PlainSender(sender: string)
    requires sender != "" && AllDigits(sender)
    ensures Trim(sender) == sender && !StartsWith(sender, "+")
  {
    assert !IsSpace(sender[0]) && !IsSpace(sender[|sender| - 1]);
    TrimOfTrimmed(sender);
    assert sender[..1] == [sender[0]];
  }

  lemma CodeAfterPlus(d: string)
    requires AllDigits(d)
    ensures "+975" + d == "+" + ("975" + d)
    ensures "975" + d != "" && AllDigits("975" + d)
  {
    assert "+975" == "+" + "975";
  }

  /**
   * Registration and resolution agree: an accepted 8-digit local number is
   * saved as +975 and its digits, and when WhatsApp reports the sender as
   * 975 and those digits, the "+"-prefixed candidate finds the user who
   * registered it.
   */
  lemma RegisteredLocalNumberResolves(input: string, owner: Profile, profiles: seq<Profile>)
    requires ValidatePhoneNumber(input).Valid? && |Digits(input)| == 8
    requires owner in profiles && owner.whatsappEnabled && owner.phone == Some(FormatPhoneNumber(input))
    requires PlusPrefixed(profiles) && NumbersDistinct(profiles)
    ensures var r := Resolve("975" + Digits(input), profiles, true);
            r.Some? && r.value.userId == owner.userId && r.value.phone == owner.phone
  {
    LocalNumberFormat(input);
    var sender := "975" + Digits(input);
    CodeAfterPlus(Digits(input));
    LookupFindsOwner(profiles, "+" + sender, owner);
    PlusCandidateResolves(sender, profiles);
  }

  /**
   * Saving a number keeps every stored number "+"-prefixed: a number is
   * stored only once it validates, and a valid number formats to "+" and
   * its digits.
   */
  lemma SaveKeepsPlusPrefixed(user: Option<string>, input: string, profiles: seq<Profile>)
    requires PlusPrefixed(profiles)
    ensures PlusPrefixed(SavePhoneNumber(user, input, profiles).1)
  {
    var r := SavePhoneNumber(user, input, profiles);
    if r.0.Saved? {
      ValidFormatsToPlusDigits(input);
      forall p | p in r.1 && p.phone.Some?
        ensures StartsWith(p.phone.value, "+")
      {
        var i :| 0 <= i < |r.1| && r.1[i] == p;
        if profiles[i].userId != user.value {
          assert profiles[i] == p;
        }
      }
    }
  }

  /**
   * The round trip from registration to resolution: once a signed-in user
   * with a profile row saves an 8-digit local number, a message whose
   * sender WhatsApp reports as 975 and those digits resolves to that user.
   */
  lemma SavedLocalNumberResolves(userId: string, input: string, profiles: seq<Profile>, i: nat)
    requires PlusPrefixed(profiles) && NumbersDistinct(profiles)
    requires i < |profiles| && profiles[i].userId == userId
    requires |Digits(input)| == 8 && SavePhoneNumber(Some(userId), input, profiles).0.Saved?
    ensures var r := Resolve("975" + Digits(input), SavePhoneNumber(Some(userId), input, profiles).1, true);
            r.Some? && r.value.userId == userId
  {
    var after := SavePhoneNumber(Some(userId), input, profiles).1;
    SaveKeepsPlusPrefixed(Some(userId), input, profiles);
    SaveKeepsNumbersDistinct(Some(userId), input, profiles);
    assert after[i] == Profile(userId, Some(FormatPhoneNumber(input)), true);
    RegisteredLocalNumberResolves(input, after[i], after);
  }
}

=== FILE: rows.dfy ===
/**
 * What the webhook of app/api/whatsapp/webhook/route.ts reads from and
 * writes to the store: the duplicate check `checkForDuplicateTransaction`,
 * the row `createAutoTransaction` inserts, and the lazy category creation
 * of `ensureCategoryExists`. Tables are sequences of rows in store order;
 * a query returns the matching rows in that order.
 */
module Rows {
  import opened Records
  import opened Text
  import Seqs

  // ------------------------------------------------------------ the row written

  const ProvenanceMarker := "Auto-added via WhatsApp"

  /** The `notes` column: the marker, then ": " and the merchant when there is one. */
  function AutoNotes(merchant: string): string
  {
    ProvenanceMarker + " for" + (if merchant != "" then ": " + merchant else "")
  }

  /** The row `createAutoTransaction` inserts for `data`, created at `now`. */
  function AutoRow(userId: string, data: TransactionData, now: int): (r: Transaction)
    ensures r.userId == userId && r.amount == data.amount && r.date == data.date
    ensures r.category == data.category && r.kind == data.kind && r.createdAt == now
    ensures r.merchant == Some(if data.merchant != "" then data.merchant else "Unknown")
  {
    Transaction(userId, data.amount, data.category, data.kind, data.date,
                Some(AutoNotes(data.merchant)), Some("whatsapp"),
                Some(if data.merchant != "" then data.merchant else "Unknown"), now)
  }

  // ------------------------------------------------------------ duplicate check

  /** The row carries the pipeline's own provenance: the notes marker or source 'whatsapp'. */
  predicate Provenance(row: Transaction)
  {
    (row.notes.Some? && Contains(row.notes.value, ProvenanceMarker)) || row.source == Some("whatsapp")
  }

  /** Both merchants are non-empty and one contains the other, ignoring case. */
  predicate MerchantMatch(merchant: string, existing: Option<string>)
  {
    merchant != "" && Truthy(existing)
    && (Contains(ToLower(existing.value), ToLower(merchant)) || Contains(ToLower(merchant), ToLower(existing.value)))
  }

  /** A candidate row counts as the same transaction. */
  predicate Flagged(row: Transaction, merchant: string)
  {
    MerchantMatch(merchant, row.merchant) || Provenance(row)
  }

  const DayMillis := 24 * 60 * 60 * 1000

  /** The query filter: same user, amount and date, created within the last day. */
  predicate SameTransaction(row: Transaction, userId: string, data: TransactionData, now: int)
  {
    row.userId == userId && row.amount == data.amount && row.date == data.date && row.createdAt >= now - DayMillis
  }

  /** The rows the query selects, in store order, before the limit. */
  function Matching(rows: seq<Transaction>, userId: string, data: TransactionData, now: int): (r: seq<Transaction>)
    ensures |r| <= |rows|
    ensures forall x :: x in r ==> x in rows && SameTransaction(x, userId, data, now)
    ensures forall x :: x in rows && SameTransaction(x, userId, data, now) ==> x in r
    ensures r == Seqs.Filter(rows, x => SameTransaction(x, userId, data, now))
  {
    if rows == [] then []
    else
      var init := Matching(rows[..|rows| - 1], userId, data, now);
      var last := rows[|rows| - 1];
      if SameTransaction(last, userId, data, now) then init + [last] else init
  }

  /** `.limit(10)` */
  function Limit(rows: seq<Transaction>): (r: seq<Transaction>)
    ensures |r| <= 10 && |r| <= |rows| && r == rows[..|r|]
    ensures |rows| <= 10 ==> r == rows
  {
    if |rows| <= 10 then rows else rows[..10]
  }

  /** The loop over the candidates with early return. */
  function AnyFlagged(rows: seq<Transaction>, merchant: string): bool
  {
    if rows == [] then false
    else Flagged(rows[0], merchant) || AnyFlagged(rows[1..], merchant)
  }

  /**
   * `checkForDuplicateTransaction`; `queryOk` is false when the query fails
   * or throws. A duplicate: the query succeeded and one of at most ten
   * recent rows with the same user, amount and date shares the merchant
   * (either way round, ignoring case) or carries the pipeline's provenance.
   */
  function IsDuplicate(rows: seq<Transaction>, userId: string, data: TransactionData, now: int, queryOk: bool): (r: bool)
    ensures r <==> queryOk && SomeFlagged(Limit(Matching(rows, userId, data, now)), data.merchant)
    ensures !queryOk ==> !r
  {
    AnyFlaggedIff(Limit(Matching(rows, userId, data, now)), data.merchant);
    queryOk && AnyFlagged(Limit(Matching(rows, userId, data, now)), data.merchant)
  }

  /** One of the candidates passes the merchant-or-provenance test. */
  predicate SomeFlagged(rows: seq<Transaction>, merchant: string)
  {
    exists i :: 0 <= i < |rows| && Flagged(rows[i], merchant)
  }

  lemma {:induction false} AnyFlaggedIff(rows: seq<Transaction>, merchant: string)
    ensures AnyFlagged(rows, merchant) <==> SomeFlagged(rows, merchant)
  {
    if rows != [] {
      AnyFlaggedIff(rows[1..], merchant);
      if exists i :: 0 <= i < |rows| && Flagged(rows[i], merchant) {
        var i :| 0 <= i < |rows| && Flagged(rows[i], merchant);
        if i > 0 {
          assert rows[1..][i - 1] == rows[i];
        }
      }
    }
  }

  /** Every row the pipeline writes passes the provenance test, through both its notes and its source. */
  lemma AutoRowHasProvenance(userId: string, data: TransactionData, now: int)
    ensures Provenance(AutoRow(userId, data, now))
    ensures Contains(AutoRow(userId, data, now).notes.value, ProvenanceMarker)
  {
    var notes := AutoNotes(data.merchant);
    assert notes[..|ProvenanceMarker|] == ProvenanceMarker;
    assert OccursAt(notes, ProvenanceMarker, 0);
    ContainsAt(notes, ProvenanceMarker, 0);
  }

  lemma MatchingAppend(rows: seq<Transaction>, x: Transaction, userId: string, data: TransactionData, now: int)
    ensures Matching(rows + [x], userId, data, now) ==
              Matching(rows, userId, data, now) + (if SameTransaction(x, userId, data, now) then [x] else [])
  {
    assert (rows + [x])[..|rows|] == rows;
  }

  /**
   * Sending the same screenshot again within the day is caught: once the
   * pipeline has written its row, a second check with the same data finds
   * it, unless ten earlier matching rows fill the query's limit.
   */
  lemma ResubmissionIsDuplicate(rows: seq<Transaction>, userId: string, data: TransactionData, created: int, now: int)
    requires |Matching(rows, userId, data, now)| < 10
    requires now - DayMillis <= created
    ensures IsDuplicate(rows + [AutoRow(userId, data, created)], userId, data, now, true)
  {
    var x := AutoRow(userId, data, created);
    MatchingAppend(rows, x, userId, data, now);
    var c := Limit(Matching(rows + [x], userId, data, now));
    var k := |Matching(rows, userId, data, now)|;
    assert c[k] == x;
    AutoRowHasProvenance(userId, data, created);
    AnyFlaggedIff(c, data.merchant);
  }

  // ------------------------------------------------------------ categories

  /** The colour of a lazily created category: green for income, red for expense. */
  function CategoryColor(kind: TxType): string
  {
    if kind == Income then "#10b981" else "#ef4444"
  }

  /** The user already has a category with this name and type. */
  predicate HasCategory(cats: seq<CategoryRow>, userId: string, name: string, kind: TxType)
  {
    exists i :: 0 <= i < |cats| && cats[i].userId == userId && cats[i].name == name && cats[i].kind == kind
  }

  /** `categories?.[0]?.order || 0` over the user's categories of that type, highest order first. */
  function MaxOrder(cats: seq<CategoryRow>, userId: string, kind: TxType): (r: int)
    ensures forall i :: 0 <= i < |cats| && cats[i].userId == userId && cats[i].kind == kind ==> cats[i].order <= r
    ensures (forall i :: 0 <= i < |cats| ==> !(cats[i].userId == userId && cats[i].kind == kind)) ==> r == 0
    ensures (exists i :: 0 <= i < |cats| && cats[i].userId == userId && cats[i].kind == kind) ==>
              exists i :: 0 <= i < |cats| && cats[i].userId == userId && cats[i].kind == kind && cats[i].order == r
  {
    if cats == [] then 0
    else
      var init := cats[..|cats| - 1];
      var last := cats[|cats| - 1];
      var m := MaxOrder(init, userId, kind);
      var hasInit := exists i :: 0 <= i < |init| && init[i].userId == userId && init[i].kind == kind;
      if last.userId == userId && last.kind == kind && (!hasInit || last.order > m) then last.order
      else if !hasInit then 0
      else m
  }

  /** `ensureCategoryExists`: the table after the call (store errors are swallowed and not modelled). */
  function EnsureCategory(cats: seq<CategoryRow>, userId: string, name: string, kind: TxType): (r: seq<CategoryRow>)
    ensures HasCategory(r, userId, name, kind)
    ensures HasCategory(cats, userId, name, kind) ==> r == cats
    ensures !HasCategory(cats, userId, name, kind) ==>
              r == cats + [CategoryRow(userId, name, kind, CategoryColor(kind), MaxOrder(cats, userId, kind) + 1)]
  {
    if HasCategory(cats, userId, name, kind) then cats
    else
      var r := cats + [CategoryRow(userId, name, kind, CategoryColor(kind), MaxOrder(cats, userId, kind) + 1)];
      assert r[|cats|].name == name;
      r
  }

  /**
   * A created category comes after every category the user has of that
   * type: its order is one more than the highest, or 1 when there is none.
   */
  lemma NewCategoryOrderIsHighest(cats: seq<CategoryRow>, userId: string, name: string, kind: TxType)
    requires !HasCategory(cats, userId, name, kind)
    ensures var r := EnsureCategory(cats, userId, name, kind);
            var created := r[|r| - 1];
            && |r| == |cats| + 1
            && (forall i :: 0 <= i < |cats| && cats[i].userId == userId && cats[i].kind == kind ==> cats[i].order < created.order)
            && ((forall i :: 0 <= i < |cats| ==> !(cats[i].userId == userId && cats[i].kind == kind)) ==> created.order == 1)
  {
  }

  /** A second call with the same triple adds nothing. */
  lemma EnsureCategoryIdempotent(cats: seq<CategoryRow>, userId: string, name: string, kind: TxType)
    ensures EnsureCategory(EnsureCategory(cats, userId, name, kind), userId, name, kind) == EnsureCategory(cats, userId, name, kind)
  {
  }
}

=== FILE: savings_goal.dfy ===
/**
 * The savings-goal arithmetic of app/components/SavingsGoalCard.tsx: the
 * savings are income minus expenses, the progress bar is the share of the
 * monthly goal reached (capped at 100), and the card says how much is left
 * to save and what share of the income balance that is.
 */
module SavingsGoal {
  import opened Records
  import opened SummaryCards

  /** What the card shows; `monthlyGoal` is `savingsGoal?.monthly_goal`, None when there is no goal row. */
  datatype GoalView = GoalView(
    savings: real,
    goal: real,
    progress: real,
    remaining: real,
    balance: real,
    percentNeeded: real,
    achieved: bool
  )

  /** `goal > 0 ? Math.min((currentSavings / goal) * 100, 100) : 0` */
  function Progress(savings: real, goal: real): (r: real)
    ensures r <= 100.0
    ensures goal <= 0.0 ==> r == 0.0
    ensures goal > 0.0 ==> (r == 100.0 <==> savings >= goal)
    ensures goal > 0.0 && savings < goal ==> r == savings / goal * 100.0
    ensures goal > 0.0 ==> (r < 0.0 <==> savings < 0.0)
  {
    if goal > 0.0 then
      var share := savings / goal * 100.0;
      ShareAtLeastHundred(savings, goal);
      ShareSign(savings, goal);
      if share < 100.0 then share else 100.0
    else 0.0
  }

  lemma ShareAtLeastHundred(savings: real, goal: real)
    requires goal > 0.0
    ensures savings / goal * 100.0 >= 100.0 <==> savings >= goal
  {
    assert savings / goal * goal == savings;
  }

  lemma ShareSign(savings: real, goal: real)
    requires goal > 0.0
    ensures savings / goal * 100.0 < 0.0 <==> savings < 0.0
  {
    assert savings / goal * goal == savings;
  }

  /** `Math.max(goal - currentSavings, 0)` */
  function Remaining(savings: real, goal: real): (r: real)
    ensures r >= 0.0
    ensures r == 0.0 <==> savings >= goal
    ensures r >= goal - savings && (r == goal - savings || r == 0.0)
  {
    if goal - savings > 0.0 then goal - savings else 0.0
  }

  /** `currentBalance > 0 ? (remainingToSave / currentBalance) * 100 : 0` */
  function PercentNeeded(remaining: real, balance: real): (r: real)
    ensures remaining >= 0.0 ==> r >= 0.0
    ensures balance <= 0.0 ==> r == 0.0
    ensures balance > 0.0 ==> r * balance == remaining * 100.0
  {
    if balance > 0.0 then
      assert remaining / balance * balance == remaining;
      remaining / balance * 100.0
    else 0.0
  }

  /** The whole card for a transaction list and an optional monthly goal (`|| 0` when absent). */
  function GoalCard(txs: seq<Transaction>, monthlyGoal: Option<real>): (r: GoalView)
    ensures r.savings == TotalIncome(txs) - TotalExpenses(txs)
    ensures r.balance == TotalIncome(txs)
    ensures r.goal == (if monthlyGoal.Some? then monthlyGoal.value else 0.0)
    ensures r.progress <= 100.0 && r.remaining >= 0.0 && r.percentNeeded >= 0.0
    ensures r.achieved <==> r.remaining == 0.0
    ensures r.goal > 0.0 ==> (r.achieved <==> r.progress == 100.0)
    ensures r.goal <= 0.0 ==> r.progress == 0.0
  {
    var savings := TotalIncome(txs) - TotalExpenses(txs);
    var goal := if monthlyGoal.Some? then monthlyGoal.value else 0.0;
    var remaining := Remaining(savings, goal);
    var balance := TotalIncome(txs);
    GoalView(savings, goal, Progress(savings, goal), remaining, balance,
             PercentNeeded(remaining, balance), savings >= goal)
  }

  /** The progress bar goes below zero exactly when expenses exceed income (with a positive goal). */
  lemma OverspendingShowsNegativeProgress(txs: seq<Transaction>, monthlyGoal: Option<real>)
    requires monthlyGoal.Some? && monthlyGoal.value > 0.0
    ensures GoalCard(txs, monthlyGoal).progress < 0.0 <==> TotalExpenses(txs) > TotalIncome(txs)
  {
  }

  /**
   * Without a goal row the goal is 0: progress stays at 0, and the card
   * shows "Goal achieved!" with nothing left to save exactly when savings
   * are not negative.
   */
  lemma NoGoalRow(txs: seq<Transaction>)
    ensures var r := GoalCard(txs, None);
            r.goal == 0.0 && r.progress == 0.0
            && (r.achieved <==> TotalIncome(txs) >= TotalExpenses(txs))
            && (r.achieved ==> r.remaining == 0.0 && r.percentNeeded == 0.0)
  {
  }

  /**
   * A new income moves the card towards the goal: the amount left to save
   * never grows, and it shrinks by the whole amount while the goal is still
   * that far away.
   */
  lemma IncomeReducesRemaining(txs: seq<Transaction>, t: Transaction, monthlyGoal: Option<real>)
    requires t.kind == Income && t.amount >= 0.0
    ensures GoalCard(txs + [t], monthlyGoal).remaining <= GoalCard(txs, monthlyGoal).remaining
    ensures GoalCard(txs, monthlyGoal).remaining >= t.amount ==>
              GoalCard(txs + [t], monthlyGoal).remaining == GoalCard(txs, monthlyGoal).remaining - t.amount
  {
    TotalsAppend(txs, t);
  }
}

=== FILE: seqs.dfy ===
/**
 * `Array.prototype.filter` over sequences, with the facts the dashboard
 * components rely on: it keeps exactly the elements that pass, in order,
 * and the multiplicity of each.
 */
module Seqs {

  /** `s.filter(p)` */
  function Filter<T(!new)>(s: seq<T>, p: T -> bool): (r: seq<T>)
    ensures |r| <= |s|
  {
    if s == [] then []
    else
      var init := Filter(s[..|s| - 1], p);
      var last := s[|s| - 1];
      assert s == s[..|s| - 1] + [last];
      if p(last) then init + [last] else init
  }

  /** The result holds exactly the elements of the input that pass. */
  lemma {:induction false} FilterMembers<T(!new)>(s: seq<T>, p: T -> bool)
    ensures forall x :: x in Filter(s, p) <==> x in s && p(x)
  {
    if s != [] {
      var init := s[..|s| - 1];
      assert s == init + [s[|s| - 1]];
      FilterMembers(init, p);
    }
  }

  /** Nothing passes, so nothing is kept. */
  lemma {:induction false} FilterNone<T(!new)>(s: seq<T>, p: T -> bool)
    requires forall x :: x in s ==> !p(x)
    ensures Filter(s, p) == []
  {
    if s != [] {
      assert s[|s| - 1] in s;
      FilterNone(s[..|s| - 1], p);
    }
  }

  /** Filtering distributes over concatenation, so order is kept. */
  lemma {:induction false} FilterAppend<T(!new)>(s: seq<T>, t: seq<T>, p: T -> bool)
    ensures Filter(s + t, p) == Filter(s, p) + Filter(t, p)
    decreases |t|
  {
    if t != [] {
      var init := t[..|t| - 1];
      assert (s + t)[..|s + t| - 1] == s + init;
      var last := t[|t| - 1];
      assert (s + t)[|s + t| - 1] == last;
      FilterAppend(s, init, p);
      assert Filter(s + t, p) == Filter(s + init, p) + (if p(last) then [last] else []);
      assert Filter(t, p) == Filter(init, p) + (if p(last) then [last] else []);
    } else {
      assert s + t == s;
    }
  }

  /** Every element that passes is kept as often as it occurs; the others are dropped. */
  lemma {:induction false} FilterMultiset<T(!new)>(s: seq<T>, p: T -> bool, x: T)
    ensures multiset(Filter(s, p))[x] == if p(x) then multiset(s)[x] else 0
  {
    if s != [] {
      var init := s[..|s| - 1];
      assert s == init + [s[|s| - 1]];
      FilterMultiset(init, p, x);
    }
  }

  /** Reordering the input reorders the output and nothing more. */
  lemma FilterPermutation<T(!new)>(a: seq<T>, b: seq<T>, p: T -> bool)
    requires multiset(a) == multiset(b)
    ensures multiset(Filter(a, p)) == multiset(Filter(b, p))
  {
    forall x
      ensures multiset(Filter(a, p))[x] == multiset(Filter(b, p))[x]
    {
      FilterMultiset(a, p, x);
      FilterMultiset(b, p, x);
    }
  }

  /** Filtering twice is filtering once by the conjunction. */
  lemma {:induction false} FilterFilter<T(!new)>(s: seq<T>, p: T -> bool, q: T -> bool, pq: T -> bool)
    requires forall x :: pq(x) == (p(x) && q(x))
    ensures Filter(Filter(s, p), q) == Filter(s, pq)
  {
    if s != [] {
      var init := s[..|s| - 1];
      var last := s[|s| - 1];
      FilterFilter(init, p, q, pq);
      if p(last) {
        FilterAppend(Filter(init, p), [last], q);
      }
    }
  }

  /** A predicate and its negation split the input between them. */
  lemma {:induction false} FilterSplit<T(!new)>(s: seq<T>, p: T -> bool, q: T -> bool)
    requires forall x :: q(x) == !p(x)
    ensures multiset(Filter(s, p)) + multiset(Filter(s, q)) == multiset(s)
    ensures |Filter(s, p)| + |Filter(s, q)| == |s|
  {
    if s != [] {
      var init := s[..|s| - 1];
      assert s == init + [s[|s| - 1]];
      FilterSplit(init, p, q);
    }
  }
}

=== FILE: summary_cards.dfy ===
/**
 * The dashboard totals of app/components/SummaryCards.tsx: the income and
 * expense totals are sums of `amount` over the transactions of that type,
 * and the net figure is their difference.
 */
module SummaryCards {
  import opened Records
  import opened Seqs

  /** `reduce((sum, t) => sum + t.amount, 0)` */
  function Sum(txs: seq<Transaction>): real
  {
    if txs == [] then 0.0 else Sum(txs[..|txs| - 1]) + txs[|txs| - 1].amount
  }

  /** The `filter` callback `t => t.type === kind`. */
  function KindIs(kind: TxType): Transaction -> bool
  {
    (t: Transaction) => t.kind == kind
  }

  function TotalIncome(txs: seq<Transaction>): real
  {
    Sum(Filter(txs, KindIs(Income)))
  }

  function TotalExpenses(txs: seq<Transaction>): real
  {
    Sum(Filter(txs, KindIs(Expense)))
  }

  /** The three cards: the totals, the net figure, and whether the net card is styled green. */
  datatype Cards = Cards(income: real, expenses: real, net: real, netPositive: bool)

  function SummaryCardsOf(txs: seq<Transaction>): (r: Cards)
    ensures r.income == TotalIncome(txs) && r.expenses == TotalExpenses(txs)
    ensures r.net + r.expenses == r.income
    ensures r.netPositive <==> r.income >= r.expenses
  {
    var income := TotalIncome(txs);
    var expenses := TotalExpenses(txs);
    var net := income - expenses;
    Cards(income, expenses, net, net >= 0.0)
  }

  lemma {:induction false} SumAppend(a: seq<Transaction>, b: seq<Transaction>)
    ensures Sum(a + b) == Sum(a) + Sum(b)
    decreases |b|
  {
    if b == [] {
      assert a + b == a;
    } else {
      var init := b[..|b| - 1];
      assert (a + b)[..|a + b| - 1] == a + init;
      assert (a + b)[|a + b| - 1] == b[|b| - 1];
      SumAppend(a, init);
    }
  }

  /** The sum does not depend on the order of the transactions. */
  lemma {:induction false} SumPermutation(a: seq<Transaction>, b: seq<Transaction>)
    requires multiset(a) == multiset(b)
    ensures Sum(a) == Sum(b)
    decreases |a|
  {
    if a == [] {
      assert |b| == |multiset(b)| == 0;
    } else {
      var init := a[..|a| - 1];
      var x := a[|a| - 1];
      assert a == init + [x];
      assert x in multiset(b);
      var j :| 0 <= j < |b| && b[j] == x;
      var rest := b[..j] + b[j + 1..];
      assert b == b[..j] + [x] + b[j + 1..];
      assert multiset(b) == multiset(b[..j]) + multiset{x} + multiset(b[j + 1..]);
      assert multiset(rest) == multiset(b[..j]) + multiset(b[j + 1..]);
      assert multiset(a) == multiset(init) + multiset{x};
      assert multiset(init) == multiset(a) - multiset{x};
      assert multiset(rest) == multiset(b) - multiset{x};
      SumPermutation(init, rest);
      SumAppend(b[..j] + [x], b[j + 1..]);
      SumAppend(b[..j], [x]);
      SumAppend(b[..j], b[j + 1..]);
    }
  }

  /**
   * A new transaction moves only the total of its own type, by its amount;
   * the other total stays as it was.
   */
  lemma TotalsAppend(txs: seq<Transaction>, t: Transaction)
    ensures TotalIncome(txs + [t]) == TotalIncome(txs) + (if t.kind == Income then t.amount else 0.0)
    ensures TotalExpenses(txs + [t]) == TotalExpenses(txs) + (if t.kind == Expense then t.amount else 0.0)
  {
    FilterAppend(txs, [t], KindIs(Income));
    FilterAppend(txs, [t], KindIs(Expense));
    SumAppend(Filter(txs, KindIs(Income)), Filter([t], KindIs(Income)));
    SumAppend(Filter(txs, KindIs(Expense)), Filter([t], KindIs(Expense)));
  }

  /** The totals are the same whatever order the transactions arrive in. */
  lemma TotalsReorder(a: seq<Transaction>, b: seq<Transaction>)
    requires multiset(a) == multiset(b)
    ensures TotalIncome(a) == TotalIncome(b) && TotalExpenses(a) == TotalExpenses(b)
    ensures SummaryCardsOf(a) == SummaryCardsOf(b)
  {
    FilterPermutation(a, b, KindIs(Income));
    FilterPermutation(a, b, KindIs(Expense));
    SumPermutation(Filter(a, KindIs(Income)), Filter(b, KindIs(Income)));
    SumPermutation(Filter(a, KindIs(Expense)), Filter(b, KindIs(Expense)));
  }

  /** Every transaction is counted in exactly one of the two totals. */
  lemma {:induction false} TotalsPartition(txs: seq<Transaction>)
    ensures TotalIncome(txs) + TotalExpenses(txs) == Sum(txs)
    decreases |txs|
  {
    if txs != [] {
      var init := txs[..|txs| - 1];
      assert txs == init + [txs[|txs| - 1]];
      TotalsPartition(init);
      TotalsAppend(init, txs[|txs| - 1]);
    }
  }
}

=== FILE: text.dfy ===
/**
 * The JavaScript string primitives the source relies on, over `seq<char>`:
 * character classes of regular expressions (`\d`, `\s`, `\w`), ASCII case
 * mapping, `replace(/\D/g, '')`, `includes`, `startsWith`, `endsWith`,
 * `trim`, `split` and the decimal rendering of a non-negative integer.
 */
module Text {

  /** `\d` */
  predicate IsDigit(c: char)
  {
    '0' <= c <= '9'
  }

  /** ECMAScript LineTerminator: what `.` in a regular expression refuses. */
  predicate IsLineTerminator(c: char)
  {
    c == '\n' || c == '\r' || c == '\U{2028}' || c == '\U{2029}'
  }

  /** `\s`, and what `String.prototype.trim` removes: WhiteSpace plus LineTerminator. */
  predicate IsSpace(c: char)
  {
    || c == '\t' || c == '\U{000B}' || c == '\U{000C}' || c == ' '
    || c == '\U{00A0}' || c == '\U{FEFF}' || c == '\U{1680}'
    || ('\U{2000}' <= c <= '\U{200A}') || c == '\U{202F}' || c == '\U{205F}'
    || c == '\U{3000}' || IsLineTerminator(c)
  }

  /** `\w` */
  predicate IsWordChar(c: char)
  {
    ('a' <= c <= 'z') || ('A' <= c <= 'Z') || IsDigit(c) || c == '_'
  }

  function LowerChar(c: char): char
  {
    if 'A' <= c <= 'Z' then (c as int + 32) as char else c
  }

  function UpperChar(c: char): char
  {
    if 'a' <= c <= 'z' then (c as int - 32) as char else c
  }

  /** `toLowerCase()` on the ASCII letters. */
  function ToLower(s: string): (r: string)
    ensures |r| == |s|
  {
    seq(|s|, i requires 0 <= i < |s| => LowerChar(s[i]))
  }

  /** `toUpperCase()` on the ASCII letters. */
  function ToUpper(s: string): (r: string)
    ensures |r| == |s|
  {
    seq(|s|, i requires 0 <= i < |s| => UpperChar(s[i]))
  }

  lemma ToLowerIdempotent(s: string)
    ensures ToLower(ToLower(s)) == ToLower(s)
  {
  }

  lemma ToLowerAppend(a: string, b: string)
    ensures ToLower(a + b) == ToLower(a) + ToLower(b)
  {
  }

  /** `replace(/\D/g, '')`: the digits of `s`, in order. */
  function Digits(s: string): (r: string)
    ensures |r| <= |s|
    ensures forall i :: 0 <= i < |r| ==> IsDigit(r[i])
  {
    if s == [] then []
    else if IsDigit(s[0]) then [s[0]] + Digits(s[1..])
    else Digits(s[1..])
  }

  predicate AllDigits(s: string)
  {
    forall i :: 0 <= i < |s| ==> IsDigit(s[i])
  }

  lemma {:induction false} DigitsOfDigits(s: string)
    requires AllDigits(s)
    ensures Digits(s) == s
  {
    if s != [] {
      DigitsOfDigits(s[1..]);
    }
  }

  lemma {:induction false} DigitsAppend(a: string, b: string)
    ensures Digits(a + b) == Digits(a) + Digits(b)
  {
    if a == [] {
      assert a + b == b;
    } else {
      assert (a + b)[1..] == a[1..] + b;
      DigitsAppend(a[1..], b);
    }
  }

  /** Removing the non-digits twice is removing them once. */
  lemma DigitsIdempotent(s: string)
    ensures Digits(Digits(s)) == Digits(s)
  {
    DigitsOfDigits(Digits(s));
  }

  predicate StartsWith(s: string, prefix: string)
  {
    |prefix| <= |s| && s[..|prefix|] == prefix
  }

  predicate EndsWith(s: string, suffix: string)
  {
    |suffix| <= |s| && s[|s| - |suffix|..] == suffix
  }

  /** `sub` occurs in `s` starting at position `i`. */
  predicate OccursAt(s: string, sub: string, i: int)
  {
    0 <= i && i + |sub| <= |s| && s[i..i + |sub|] == sub
  }

  /** `s.includes(sub)`, scanning start positions from the left. */
  predicate Contains(s: string, sub: string)
    decreases |s|
  {
    StartsWith(s, sub) || (s != [] && Contains(s[1..], sub))
  }

  /** `includes` holds exactly when `sub` occurs at some position of `s`. */
  lemma {:induction false} ContainsIff(s: string, sub: string)
    ensures Contains(s, sub) <==> exists i :: OccursAt(s, sub, i)
  {
    if StartsWith(s, sub) {
      assert OccursAt(s, sub, 0);
    }
    if s != [] {
      ContainsIff(s[1..], sub);
      if Contains(s[1..], sub) {
        var i :| OccursAt(s[1..], sub, i);
        assert OccursAt(s, sub, i + 1);
      }
      if exists i :: OccursAt(s, sub, i) {
        var i :| OccursAt(s, sub, i);
        if i > 0 {
          assert OccursAt(s[1..], sub, i - 1);
        }
      }
    }
  }

  /** An occurrence at a known position is an occurrence. */
  lemma ContainsAt(s: string, sub: string, i: nat)
    requires OccursAt(s, sub, i)
    ensures Contains(s, sub)
  {
    ContainsIff(s, sub);
  }

  /** A string never contains a word that has a character it lacks. */
  lemma NotContainsChar(s: string, sub: string, c: char)
    requires c in sub && c !in s
    ensures !Contains(s, sub)
  {
    ContainsIff(s, sub);
    var k :| 0 <= k < |sub| && sub[k] == c;
    forall i | 0 <= i && i + |sub| <= |s|
      ensures !OccursAt(s, sub, i)
    {
      assert s[i..i + |sub|][k] == s[i + k] != c;
    }
  }

  lemma ContainsSelf(s: string)
    ensures Contains(s, s)
  {
    ContainsAt(s, s, 0);
  }

  lemma ContainsInLonger(s: string, sub: string, pre: string, post: string)
    requires Contains(s, sub)
    ensures Contains(pre + s + post, sub)
  {
    ContainsIff(s, sub);
    var i :| OccursAt(s, sub, i);
    assert (pre + s + post)[|pre| + i..|pre| + i + |sub|] == sub;
    ContainsAt(pre + s + post, sub, |pre| + i);
  }

  /** The first position at or after `i` that is not `\s`. */
  function SpacesEnd(s: string, i: nat): (r: nat)
    requires i <= |s|
    ensures i <= r <= |s|
    ensures forall k :: i <= k < r ==> IsSpace(s[k])
    ensures r == |s| || !IsSpace(s[r])
    decreases |s| - i
  {
    if i < |s| && IsSpace(s[i]) then SpacesEnd(s, i + 1) else i
  }

  /** `trimStart()` */
  function TrimStart(s: string): (r: string)
    ensures |r| <= |s|
  {
    if s != [] && IsSpace(s[0]) then TrimStart(s[1..]) else s
  }

  /** `trimStart()` drops a white-space prefix and stops at the first other character. */
  lemma {:induction false} TrimStartShape(s: string)
    ensures TrimStart(s) == s[|s| - |TrimStart(s)|..]
    ensures forall k :: 0 <= k < |s| - |TrimStart(s)| ==> IsSpace(s[k])
    ensures TrimStart(s) == [] || !IsSpace(TrimStart(s)[0])
  {
    if s != [] && IsSpace(s[0]) {
      TrimStartShape(s[1..]);
      forall k | 1 <= k < |s| - |TrimStart(s)|
        ensures IsSpace(s[k])
      {
        assert s[k] == s[1..][k - 1];
      }
    }
  }

  /** `trimEnd()` */
  function TrimEnd(s: string): (r: string)
    ensures |r| <= |s|
  {
    if s != [] && IsSpace(s[|s| - 1]) then TrimEnd(s[..|s| - 1]) else s
  }

  /** `trimEnd()` drops a white-space suffix and stops at the last other character. */
  lemma {:induction false} TrimEndShape(s: string)
    ensures TrimEnd(s) == s[..|TrimEnd(s)|]
    ensures forall k :: |TrimEnd(s)| <= k < |s| ==> IsSpace(s[k])
    ensures TrimEnd(s) == [] || !IsSpace(TrimEnd(s)[|TrimEnd(s)| - 1])
  {
    if s != [] && IsSpace(s[|s| - 1]) {
      TrimEndShape(s[..|s| - 1]);
      forall k | |TrimEnd(s)| <= k < |s| - 1
        ensures IsSpace(s[k])
      {
        assert s[k] == s[..|s| - 1][k];
      }
    }
  }

  /** `trim()`: the longest infix that neither starts nor ends with white space. */
  function Trim(s: string): (r: string)
  {
    TrimEnd(TrimStart(s))
  }

  /**
   * `trim()` removes exactly a white-space prefix and a white-space suffix:
   * what remains is the infix `s[i..j]`, and it does not start or end with
   * white space.
   */
  lemma TrimIsInfix(s: string) returns (i: nat, j: nat)
    ensures i <= j <= |s| && Trim(s) == s[i..j]
    ensures forall k :: 0 <= k < i ==> IsSpace(s[k])
    ensures forall k :: j <= k < |s| ==> IsSpace(s[k])
    ensures Trim(s) == [] || (!IsSpace(Trim(s)[0]) && !IsSpace(Trim(s)[|Trim(s)| - 1]))
  {
    var t := TrimStart(s);
    var u := TrimEnd(t);
    i := |s| - |t|;
    j := i + |u|;
    TrimStartShape(s);
    TrimEndShape(t);
    InfixOfSuffix(s, t, u, i);
  }

  /** A prefix `u` of the suffix `t == s[i..]` is the infix `s[i..i + |u|]`. */
  lemma InfixOfSuffix(s: string, t: string, u: string, i: nat)
    requires i <= |s| && t == s[i..] && |u| <= |t| && u == t[..|u|]
    requires forall k :: |u| <= k < |t| ==> IsSpace(t[k])
    ensures u == s[i..i + |u|]
    ensures forall k :: i + |u| <= k < |s| ==> IsSpace(s[k])
    ensures u == [] || u[0] == t[0]
  {
    forall k | i + |u| <= k < |s|
      ensures IsSpace(s[k])
    {
      assert s[k] == t[k - i];
    }
  }

  lemma TrimOfTrimmed(s: string)
    requires s == [] || (!IsSpace(s[0]) && !IsSpace(s[|s| - 1]))
    ensures Trim(s) == s
  {
  }

  lemma TrimIdempotent(s: string)
    ensures Trim(Trim(s)) == Trim(s)
  {
    var _, _ := TrimIsInfix(s);
    TrimOfTrimmed(Trim(s));
  }

  /** A string of only white space trims to the empty string, and only such a string does. */
  lemma TrimEmptyIff(s: string)
    ensures Trim(s) == [] <==> forall k :: 0 <= k < |s| ==> IsSpace(s[k])
  {
    var i, j := TrimIsInfix(s);
    assert Trim(s) == [] || Trim(s)[0] == s[i];
  }

  /** `words.join(sep)` */
  function Join(words: seq<string>, sep: char): string
  {
    if words == [] then []
    else if |words| == 1 then words[0]
    else words[0] + [sep] + Join(words[1..], sep)
  }

  /** `s.split(sep)` for a one-character separator. */
  function Split(s: string, sep: char): (r: seq<string>)
    ensures |r| >= 1
    ensures Join(r, sep) == s
    ensures forall k :: 0 <= k < |r| ==> sep !in r[k]
    decreases |s|
  {
    if s == [] then [[]]
    else if s[0] == sep then
      var rest := Split(s[1..], sep);
      assert s == [sep] + s[1..];
      [[]] + rest
    else
      var rest := Split(s[1..], sep);
      var r := [[s[0]] + rest[0]] + rest[1..];
      assert r[1..] == rest[1..];
      assert s == [s[0]] + s[1..];
      r
  }

  /** A string without the separator splits into itself alone. */
  lemma {:induction false} SplitWord(a: string, sep: char)
    requires sep !in a
    ensures Split(a, sep) == [a]
    decreases |a|
  {
    if a != [] {
      assert a[1..] == a[1..] && sep !in a[1..];
      SplitWord(a[1..], sep);
      assert [a[0]] + a[1..] == a;
    }
  }

  /** A word followed by the separator splits off as the first piece. */
  lemma {:induction false} SplitAfterWord(a: string, rest: string, sep: char)
    requires sep !in a
    ensures Split(a + [sep] + rest, sep) == [a] + Split(rest, sep)
    decreases |a|
  {
    var s := a + [sep] + rest;
    if a == [] {
      assert s == [sep] + rest && s[1..] == rest;
    } else {
      assert s[0] == a[0] && s[1..] == a[1..] + [sep] + rest;
      assert sep !in a[1..];
      SplitAfterWord(a[1..], rest, sep);
      assert [a[0]] + a[1..] == a;
    }
  }

  /** Decimal digit of a value below ten. */
  function DigitChar(d: nat): char
    requires d < 10
  {
    ('0' as int + d) as char
  }

  /** `n.toString()` for a non-negative integer. */
  function NatToString(n: nat): (r: string)
    ensures |r| >= 1 && AllDigits(r)
    ensures n < 10 <==> |r| == 1
  {
    if n < 10 then [DigitChar(n)] else NatToString(n / 10) + [DigitChar(n % 10)]
  }

  /** Decimal rendering is injective: different values print differently. */
  lemma {:induction false} NatToStringInjective(a: nat, b: nat)
    requires NatToString(a) == NatToString(b)
    ensures a == b
  {
    var sa, sb := NatToString(a), NatToString(b);
    if a < 10 || b < 10 {
      assert |sa| == 1 && |sb| == 1;
    } else {
      assert sa[..|sa| - 1] == NatToString(a / 10);
      assert sb[..|sb| - 1] == NatToString(b / 10);
      NatToStringInjective(a / 10, b / 10);
      assert sa[|sa| - 1] == sb[|sb| - 1];
    }
  }

  /** Dropping the last decimal digit is dividing by ten. */
  lemma DropLastDigit(n: nat)
    requires n >= 10
    ensures NatToString(n)[..|NatToString(n)| - 1] == NatToString(n / 10)
  {
  }

  /** `slice(0, -4)` of a rendering of at least five digits is the rendering of `n / 10000`. */
  lemma DropFourDigits(n: nat)
    requires n >= 10000
    ensures |NatToString(n)| >= 5
    ensures NatToString(n)[..|NatToString(n)| - 4] == NatToString(n / 10000)
  {
    var s := NatToString(n);
    DropLastDigit(n);
    DropLastDigit(n / 10);
    DropLastDigit(n / 10 / 10);
    DropLastDigit(n / 10 / 10 / 10);
    assert n / 10 / 10 / 10 / 10 == n / 10000;
    assert s[..|s| - 4] == s[..|s| - 1][..|s| - 2][..|s| - 3][..|s| - 4];
  }

  /** A rendering of at most four digits means a value below 10000. */
  lemma ShortRendering(n: nat)
    requires |NatToString(n)| <= 4
    ensures n < 10000
  {
    if n >= 10000 {
      DropFourDigits(n);
    }
  }
}

=== FILE: text_parser.dfy ===
/**
 * `parseTransactionText` (lib/ocr-service.ts): the line scanner that turns
 * OCR text of a bank receipt into a transaction record. Each line may set
 * the amount (an "Amount ... Nu." line, or a standalone "Nu." amount while
 * none is known), the merchant (a "purpose" line, or a food-keyword line
 * while none is known) and the date text (a "date" line, or a line holding
 * a "D Mon YYYY" date while none is known).
 *
 * The regular expressions are modelled as leftmost searches with the
 * backtracking they need. `parseFloat` of the matched digits is the exact
 * decimal value. "today" is the parameter `today`; the `new Date` fallback
 * of `parseBhutanDate` is the parameter `jsDate`.
 */
module TextParser {
  import opened Records
  import opened Text
  import opened Categorize
  import opened BhutanDate
  import opened Extraction

  // ---------------------------------------------------------------- lines

  /** `.map(line => line.trim()).filter(line => line.length > 0)` */
  function TrimmedNonEmpty(parts: seq<string>): seq<string>
  {
    if parts == [] then []
    else if Trim(parts[0]) == "" then TrimmedNonEmpty(parts[1..])
    else [Trim(parts[0])] + TrimmedNonEmpty(parts[1..])
  }

  /** Every line the scan sees is non-empty and already trimmed. */
  lemma {:induction false} TrimmedNonEmptyLines(parts: seq<string>)
    ensures forall k :: 0 <= k < |TrimmedNonEmpty(parts)| ==>
              TrimmedNonEmpty(parts)[k] != "" && Trim(TrimmedNonEmpty(parts)[k]) == TrimmedNonEmpty(parts)[k]
  {
    if parts != [] {
      var rest := TrimmedNonEmpty(parts[1..]);
      TrimmedNonEmptyLines(parts[1..]);
      if Trim(parts[0]) != "" {
        var line := Trim(parts[0]);
        TrimIdempotent(parts[0]);
        assert TrimmedNonEmpty(parts) == [line] + rest;
        forall k | 0 <= k < |[line] + rest|
          ensures ([line] + rest)[k] != "" && Trim(([line] + rest)[k]) == ([line] + rest)[k]
        {
          if k > 0 {
            assert ([line] + rest)[k] == rest[k - 1];
          }
        }
      }
    }
  }

  /** `text.split('\n').map(trim).filter(nonEmpty)` */
  function Lines(text: string): seq<string>
  {
    TrimmedNonEmpty(Split(text, '\n'))
  }

  // ------------------------------------------------------ number matching

  /** The end of the run of `\d` characters starting at `i`. */
  function DigitRunEnd(s: string, i: nat): (r: nat)
    requires i <= |s|
    ensures i <= r <= |s|
    ensures forall k :: i <= k < r ==> IsDigit(s[k])
    ensures r == |s| || !IsDigit(s[r])
    decreases |s| - i
  {
    if i < |s| && IsDigit(s[i]) then DigitRunEnd(s, i + 1) else i
  }

  /** The value of a string of decimal digits. */
  function DigitsValue(ds: string): nat
    requires AllDigits(ds)
  {
    if ds == [] then 0 else DigitsValue(ds[..|ds| - 1]) * 10 + (ds[|ds| - 1] as int - '0' as int)
  }

  /**
   * A match of /nu\.?\s*(\d+(?:[.,]\d{2})?)/i at `p`, as the number
   * `parseFloat(group.replace(',', '.'))`. Neither `\.?` nor `\s*` can give
   * characters back usefully, since `\d` matches neither a dot nor white
   * space; `\d+` is maximal and the fraction is taken whenever present.
   */
  function NuAt(s: string, p: nat): (r: Option<real>)
    requires p <= |s|
    ensures r.Some? ==> r.value >= 0.0
  {
    if !OccursAt(ToLower(s), "nu", p) then None
    else
      var a := if p + 2 < |s| && s[p + 2] == '.' then p + 3 else p + 2;
      var b := SpacesEnd(s, a);
      var e := DigitRunEnd(s, b);
      if e == b then None
      else if e + 2 < |s| && (s[e] == '.' || s[e] == ',') && IsDigit(s[e + 1]) && IsDigit(s[e + 2]) then
        Some(DigitsValue(s[b..e]) as real + DigitsValue(s[e + 1..e + 3]) as real / 100.0)
      else Some(DigitsValue(s[b..e]) as real)
  }

  /** The position of the leftmost match of /nu\.?\s*(\d+(?:[.,]\d{2})?)/i at or after `p`. */
  function NuPosition(s: string, p: nat): (r: Option<nat>)
    requires p <= |s|
    ensures r.Some? ==> p <= r.value <= |s| && NuAt(s, r.value).Some?
    ensures forall q :: p <= q < (if r.Some? then r.value else |s| + 1) ==> NuAt(s, q).None?
    decreases |s| - p
  {
    if NuAt(s, p).Some? then Some(p)
    else if p == |s| then None
    else NuPosition(s, p + 1)
  }

  /**
   * `s.match(/nu\.?\s*(\d+(?:[.,]\d{2})?)/i)`, leftmost from `p`, as a
   * number: the value of the match at the leftmost matching position, and
   * nothing when no position matches.
   */
  function NuAmount(s: string, p: nat): (r: Option<real>)
    requires p <= |s|
    ensures r.Some? ==> r.value >= 0.0
    ensures r.None? <==> NuPosition(s, p).None?
    ensures NuPosition(s, p).Some? ==> r == NuAt(s, NuPosition(s, p).value)
    decreases |s| - p
  {
    match NuAt(s, p)
    case Some(v) => Some(v)
    case None => if p == |s| then None else NuAmount(s, p + 1)
  }

  /** A run of `n` digits at `b`, followed by a non-digit, ends at `b + n`. */
  lemma DigitRunOver(s: string, b: nat, n: nat)
    requires b + n < |s| && !IsDigit(s[b + n])
    requires forall k :: b <= k < b + n ==> IsDigit(s[k])
    ensures DigitRunEnd(s, b) == b + n
  {
  }

  lemma LowerNu(s: string)
    requires 2 <= |s| && s[0] == 'N' && s[1] == 'u'
    ensures OccursAt(ToLower(s), "nu", 0)
  {
    assert ToLower(s)[..2] == "nu";
  }

  /**
   * A text starting "Nu. ", then `n` digits, a dot or a comma, and two more
   * digits: the amount is the value of the `n` digits plus the two as
   * hundredths, whatever follows.
   */
  lemma NuWithCents(s: string, n: nat)
    requires 0 < n && n + 7 <= |s|
    requires s[0] == 'N' && s[1] == 'u' && s[2] == '.' && s[3] == ' '
    requires forall k :: 4 <= k < 4 + n ==> IsDigit(s[k])
    requires (s[4 + n] == '.' || s[4 + n] == ',') && IsDigit(s[5 + n]) && IsDigit(s[6 + n])
    ensures NuAt(s, 0) == Some(DigitsValue(s[4..4 + n]) as real + DigitsValue(s[5 + n..7 + n]) as real / 100.0)
  {
    LowerNu(s);
    assert SpacesEnd(s, 3) == 4 by {
      assert IsSpace(s[3]) && !IsSpace(s[4]);
    }
    DigitRunOver(s, 4, n);
  }

  /** A comma is read as the decimal separator: "Nu. 1,250.00" is 1.25. */
  lemma CommaIsDecimal(s: string)
    requires s == "Nu. 1,250.00"
    ensures NuAt(s, 0) == Some(1.25)
  {
    assert s[0] == 'N' && s[1] == 'u' && s[2] == '.' && s[3] == ' ' && s[4] == '1' && s[5] == ',' && s[6] == '2' && s[7] == '5';
    assert s[4..5] == "1" && s[6..8] == "25";
    NuWithCents(s, 1);
    SmallDigitsValues();
  }

  lemma SmallDigitsValues()
    ensures DigitsValue("1") == 1 && DigitsValue("25") == 25
  {
    assert "25"[..1] == "2";
  }

  // ------------------------------------------------- keyword: value lines

  /** The end of the run of characters that `.` matches, from `i`. */
  function LineEnd(s: string, i: nat): (r: nat)
    requires i <= |s|
    ensures i <= r <= |s|
    ensures forall k :: i <= k < r ==> !IsLineTerminator(s[k])
    ensures r == |s| || IsLineTerminator(s[r])
    decreases |s| - i
  {
    if i < |s| && !IsLineTerminator(s[i]) then LineEnd(s, i + 1) else i
  }

  /** The last position in [lo, hi) whose character `.` matches. */
  function LastNonTerminator(s: string, lo: nat, hi: nat): (r: Option<nat>)
    requires lo <= hi <= |s|
    ensures r.Some? ==> lo <= r.value < hi && !IsLineTerminator(s[r.value])
    ensures forall k :: (if r.Some? then r.value + 1 else lo) <= k < hi ==> IsLineTerminator(s[k])
    decreases hi - lo
  {
    if hi == lo then None
    else if !IsLineTerminator(s[hi - 1]) then Some(hi - 1)
    else LastNonTerminator(s, lo, hi - 1)
  }

  /**
   * The group of /<kw>\s*:?\s*(.+)/i matched at `p`, where `kw` is a
   * lower-case word. The greedy attempt takes everything after the
   * white space; when nothing is left, the regular expression backtracks:
   * first into the second `\s*`, then by giving up the colon, then into the
   * first `\s*`.
   */
  function CaptureAt(s: string, kw: string, p: nat): Option<string>
    requires p <= |s|
  {
    if !OccursAt(ToLower(s), kw, p) then None
    else
      var q := p + |kw|;
      var a := SpacesEnd(s, q);
      var b := if a < |s| && s[a] == ':' then a + 1 else a;
      var c := SpacesEnd(s, b);
      if c < |s| then Some(s[c..LineEnd(s, c)])
      else match LastNonTerminator(s, b, |s|)
        case Some(k) => Some([s[k]])
        case None =>
          if b == a + 1 then Some(s[a..LineEnd(s, a)])
          else match LastNonTerminator(s, q, a)
            case Some(k) => Some([s[k]])
            case None => None
  }

  /** `s.match(/<kw>\s*:?\s*(.+)/i)`, leftmost from `p`, as its group. */
  function Capture(s: string, kw: string, p: nat): Option<string>
    requires p <= |s|
    decreases |s| - p
  {
    match CaptureAt(s, kw, p)
    case Some(v) => Some(v)
    case None => if p == |s| then None else Capture(s, kw, p + 1)
  }

  /** The captured value of a "purpose:" or "date:" line, already trimmed. */
  function LabelValue(line: string, kw: string): Option<string>
  {
    if Contains(ToLower(line), kw) then
      match Capture(line, kw, 0)
      case Some(v) => Some(Trim(v))
      case None => None
    else None
  }

  // ------------------------------------------------------- date patterns

  const MonthNames: set<string> := {"jan", "feb", "mar", "apr", "may", "jun", "jul", "aug", "sep", "oct", "nov", "dec"}

  /** /(\d{1,2})\s+(jan|feb|...|dec)\s+(\d{4})/i matches at `p`. */
  predicate MonthDateAt(s: string, p: nat)
    requires p <= |s|
  {
    var m := MatchDmyAt(s, p);
    m.Some? && ToLower(m.value.month) in MonthNames
  }

  /** The date pattern matches somewhere at or after `p`. */
  predicate HasMonthDate(s: string, p: nat)
    requires p <= |s|
    decreases |s| - p
  {
    MonthDateAt(s, p) || (p < |s| && HasMonthDate(s, p + 1))
  }

  // ----------------------------------------------------------- the scan

  /** The three variables the scan updates. */
  datatype ScanState = ScanState(amount: real, merchant: string, dateStr: string)

  const Start := ScanState(0.0, "", "")

  const ScanFoodKeywords: seq<string> := ["momo", "jhol momo", "food", "restaurant", "cafe"]

  /** An "Amount" line with a case-sensitive "nu." takes its amount. */
  function AmountLine(amount: real, line: string): real
  {
    if Contains(ToLower(line), "amount") && Contains(line, "nu.") then
      match NuAmount(line, 0)
      case Some(v) => v
      case None => amount
    else amount
  }

  /** A standalone amount, taken only while none is known. */
  function StandaloneAmount(amount: real, line: string): real
  {
    if amount == 0.0 then
      match NuAmount(line, 0)
      case Some(v) => if !Contains(ToLower(line), "a/c") && 0.0 < v < 100000.0 then v else amount
      case None => amount
    else amount
  }

  predicate HasFoodKeyword(lower: string)
  {
    exists k :: 0 <= k < |ScanFoodKeywords| && Contains(lower, ScanFoodKeywords[k])
  }

  /** A "purpose" line overwrites the merchant with its trimmed value. */
  function PurposeStage(merchant: string, line: string): string
  {
    match LabelValue(line, "purpose")
    case Some(v) => v
    case None => merchant
  }

  /** A "date" line overwrites the date text with its trimmed value. */
  function DateStage(dateStr: string, line: string): string
  {
    match LabelValue(line, "date")
    case Some(v) => v
    case None => dateStr
  }

  /** A food-keyword line becomes the merchant while none is known. */
  function FoodStage(merchant: string, line: string): string
  {
    if merchant == "" && HasFoodKeyword(ToLower(line)) then Trim(line) else merchant
  }

  /** A line holding a "D Mon YYYY" date becomes the date text while none is known. */
  function DatePatternStage(dateStr: string, line: string): string
  {
    if HasMonthDate(line, 0) && dateStr == "" then Trim(line) else dateStr
  }

  /** One iteration of the `for (const line of lines)` loop. */
  function Step(st: ScanState, line: string): ScanState
  {
    ScanState(
      StandaloneAmount(AmountLine(st.amount, line), line),
      FoodStage(PurposeStage(st.merchant, line), line),
      DatePatternStage(DateStage(st.dateStr, line), line))
  }

  /** The state after scanning `lines` in order. */
  function Scan(lines: seq<string>): ScanState
  {
    if lines == [] then Start else Step(Scan(lines[..|lines| - 1]), lines[|lines| - 1])
  }

  /** The record built after the scan. */
  function Finish(st: ScanState, jsDate: string -> Option<string>, today: string): TransactionData
  {
    if st.amount > 0.0 then
      var category := Categorized(st.merchant, Some("Other"));
      var date := ParsedDate(st.dateStr, jsDate);
      var merchant := if st.merchant != "" then st.merchant else "Bank Transfer";
      TransactionData(st.amount, merchant, category, OrElse(date, today),
                      DetermineTransactionType(st.merchant, category), "Fund transfer - " + merchant)
    else FallbackTransaction(today)
  }

  /** What `parseTransactionText(text)` returns. */
  function ParsedText(text: string, jsDate: string -> Option<string>, today: string): TransactionData
  {
    if Trim(text) == "" then FallbackTransaction(today)
    else Finish(Scan(Lines(text)), jsDate, today)
  }

  /** `parseTransactionText`: scan the lines, updating amount, merchant and date text. */
  method ParseTransactionText(text: string, jsDate: string -> Option<string>, today: string)
    returns (r: TransactionData)
    ensures r == ParsedText(text, jsDate, today)
  {
    if Trim(text) == "" {
      return FallbackTransaction(today);
    }
    var st := ScanLines(Lines(text));
    r := Finish(st, jsDate, today);
  }

  /** The `for (const line of lines)` loop. */
  method ScanLines(lines: seq<string>) returns (st: ScanState)
    ensures st == Scan(lines)
  {
    st := Start;
    for i := 0 to |lines|
      invariant st == Scan(lines[..i])
    {
      assert lines[..i + 1][..i] == lines[..i];
      st := ScanLine(st, lines[i]);
    }
    assert lines[..|lines|] == lines;
  }

  /** The body of the `for (const line of lines)` loop. */
  method ScanLine(st: ScanState, line: string) returns (next: ScanState)
    ensures next == Step(st, line)
  {
    var amount, merchant, dateStr := st.amount, st.merchant, st.dateStr;
    var lower := ToLower(line);
    if Contains(lower, "amount") && Contains(line, "nu.") {
      var m := NuAmount(line, 0);
      if m.Some? {
        amount := m.value;
      }
    }
    if Contains(lower, "purpose") {
      var m := Capture(line, "purpose", 0);
      if m.Some? {
        merchant := Trim(m.value);
      }
    }
    assert merchant == PurposeStage(st.merchant, line);
    if Contains(lower, "date") {
      var m := Capture(line, "date", 0);
      if m.Some? {
        dateStr := Trim(m.value);
      }
    }
    assert dateStr == DateStage(st.dateStr, line);
    assert amount == AmountLine(st.amount, line);
    if amount == 0.0 {
      var m := NuAmount(line, 0);
      if m.Some? && !Contains(lower, "a/c") {
        if 0.0 < m.value < 100000.0 {
          amount := m.value;
        }
      }
    }
    assert amount == StandaloneAmount(AmountLine(st.amount, line), line);
    merchant := FillFromFoodKeyword(merchant, line, lower);
    assert merchant == FoodStage(PurposeStage(st.merchant, line), line);
    if HasMonthDate(line, 0) && dateStr == "" {
      dateStr := Trim(line);
    }
    assert dateStr == DatePatternStage(DateStage(st.dateStr, line), line);
    next := ScanState(amount, merchant, dateStr);
  }

  /** The inner `for (const keyword of foodKeywords)` loop. */
  method FillFromFoodKeyword(merchant: string, line: string, lower: string) returns (r: string)
    ensures r == if merchant == "" && HasFoodKeyword(lower) then Trim(line) else merchant
  {
    r := merchant;
    for k := 0 to |ScanFoodKeywords|
      invariant r == merchant
      invariant merchant == "" ==> forall j :: 0 <= j < k ==> !Contains(lower, ScanFoodKeywords[j])
    {
      if Contains(lower, ScanFoodKeywords[k]) && r == "" {
        r := Trim(line);
        break;
      }
    }
  }

  // ------------------------------------------------------------ lemmas

  /**
   * A standalone "Nu." amount changes the amount exactly when none is known
   * yet, the line has no "a/c", and the value lies strictly between 0 and
   * 100000; it then becomes that value.
   */
  lemma StandaloneAmountGuard(amount: real, line: string)
    ensures StandaloneAmount(amount, line) != amount <==>
              amount == 0.0 && NuAmount(line, 0).Some? && !Contains(ToLower(line), "a/c")
              && 0.0 < NuAmount(line, 0).value < 100000.0
    ensures StandaloneAmount(amount, line) != amount ==> StandaloneAmount(amount, line) == NuAmount(line, 0).value
  {
  }

  /** A "purpose" line with a value overwrites whatever merchant was known. */
  lemma PurposeLineOverwrites(st: ScanState, line: string)
    requires LabelValue(line, "purpose").Some? && LabelValue(line, "purpose").value != ""
    ensures Step(st, line).merchant == LabelValue(line, "purpose").value
  {
  }

  /** A food-keyword line only fills an empty merchant: a known one survives any line without a purpose value. */
  lemma FoodLineOnlyFills(st: ScanState, line: string)
    requires st.merchant != "" && LabelValue(line, "purpose").None?
    ensures Step(st, line).merchant == st.merchant
  {
  }

  /** A "date" line with a value overwrites whatever date text was known. */
  lemma DateLineOverwrites(st: ScanState, line: string)
    requires LabelValue(line, "date").Some? && LabelValue(line, "date").value != ""
    ensures Step(st, line).dateStr == LabelValue(line, "date").value
  {
  }

  /** A date-pattern line only fills an empty date text. */
  lemma DatePatternOnlyFills(st: ScanState, line: string)
    requires st.dateStr != "" && LabelValue(line, "date").None?
    ensures Step(st, line).dateStr == st.dateStr
  {
  }

  /**
   * The merchant after the scan is the value of the last "purpose" line
   * that has one: later lines can neither overwrite it (no purpose value)
   * nor replace it by a food-keyword line (the merchant is no longer empty).
   */
  lemma {:induction false} LastPurposeWins(lines: seq<string>, k: nat)
    requires k < |lines|
    requires LabelValue(lines[k], "purpose").Some? && LabelValue(lines[k], "purpose").value != ""
    requires forall j :: k < j < |lines| ==> LabelValue(lines[j], "purpose").None?
    ensures Scan(lines).merchant == LabelValue(lines[k], "purpose").value
  {
    var last := |lines| - 1;
    var init := lines[..last];
    assert Scan(lines) == Step(Scan(init), lines[last]);
    if k == last {
      PurposeLineOverwrites(Scan(init), lines[last]);
    } else {
      assert init[k] == lines[k];
      assert forall j :: k < j < |init| ==> init[j] == lines[j];
      LastPurposeWins(init, k);
      FoodLineOnlyFills(Scan(init), lines[last]);
    }
  }

  /** Amounts are never negative: every matched number is a non-negative decimal. */
  lemma {:induction false} ScanAmountNonNegative(lines: seq<string>)
    ensures Scan(lines).amount >= 0.0
  {
    if lines != [] {
      ScanAmountNonNegative(lines[..|lines| - 1]);
    }
  }

  /**
   * The parse result is the fallback exactly when no positive amount was
   * found; otherwise the merchant defaults to 'Bank Transfer', the category
   * comes from the keyword table with 'Other' as the fallback, the type
   * is decided on the merchant as scanned, the date is the parsed date text
   * or today, and the description names the merchant as recorded.
   */
  lemma ParsedTextResult(text: string, jsDate: string -> Option<string>, today: string)
    ensures var r := ParsedText(text, jsDate, today);
            var st := Scan(Lines(text));
            if Trim(text) == "" || st.amount == 0.0 then r == FallbackTransaction(today)
            else
              && r.amount == st.amount > 0.0
              && r.merchant == (if st.merchant != "" then st.merchant else "Bank Transfer")
              && r.category == Categorized(st.merchant, Some("Other"))
              && r.kind == DetermineTransactionType(st.merchant, r.category)
              && r.date == OrElse(ParsedDate(st.dateStr, jsDate), today)
              && r.description == "Fund transfer - " + r.merchant
  {
    ScanAmountNonNegative(Lines(text));
  }

  /** "Purpose: <value>" gives the value, whatever the letter case of the tag. */
  lemma LabelLineValue(tag: string, kw: string, v: string)
    requires |tag| == |kw| && ToLower(tag) == kw
    requires v != "" && Trim(v) == v && forall k :: 0 <= k < |v| ==> !IsLineTerminator(v[k])
    ensures LabelValue(tag + ": " + v, kw) == Some(v)
  {
    var s := tag + ": " + v;
    var n := |kw|;
    assert ToLower(s)[..n] == kw;
    assert OccursAt(ToLower(s), kw, 0);
    ContainsAt(ToLower(s), kw, 0);
    assert s[n] == ':' && s[n + 1] == ' ';
    assert SpacesEnd(s, n) == n;
    var _, _ := TrimIsInfix(v);
    assert s[n + 2] == v[0] && !IsSpace(v[0]);
    assert SpacesEnd(s, n + 2) == n + 2;
    assert SpacesEnd(s, n + 1) == n + 2;
    var e := LineEnd(s, n + 2);
    assert e == |s|;
    assert s[n + 2..e] == v;
    CaptureOfLabel(s, kw, n + 2);
  }

  /** The capture of a line where the label, its colon and one space are followed by a value at `c`. */
  lemma CaptureOfLabel(s: string, kw: string, c: nat)
    requires OccursAt(ToLower(s), kw, 0) && c == |kw| + 2 < |s|
    requires s[|kw|] == ':' && s[|kw| + 1] == ' ' && !IsSpace(s[c])
    ensures CaptureAt(s, kw, 0) == Some(s[c..LineEnd(s, c)])
  {
    var q := |kw|;
    assert SpacesEnd(s, q) == q;
    assert SpacesEnd(s, q + 2) == q + 2;
    assert SpacesEnd(s, q + 1) == q + 2;
  }

  /** A tag with a colon and nothing after it captures the colon itself. */
  lemma LabelWithEmptyValue(tag: string, kw: string)
    requires |tag| == |kw| && ToLower(tag) == kw
    ensures LabelValue(tag + ":", kw) == Some(":")
  {
    var s := tag + ":";
    var n := |kw|;
    assert ToLower(s)[..n] == kw;
    assert OccursAt(ToLower(s), kw, 0);
    ContainsAt(ToLower(s), kw, 0);
    assert SpacesEnd(s, n) == n;
    assert s[n..n + 1] == ":";
    assert CaptureAt(s, kw, 0) == Some(":");
    assert Trim(":") == ":";
  }
}

=== FILE: user_profile.dfy ===
/**
 * The two naming helpers of app/components/UserProfile.tsx: the avatar
 * initials and the display-name fallback chain.
 */
module UserProfile {
  import opened Records
  import opened Text

  /** `word.charAt(0)`: the first character, or "" for an empty word. */
  function FirstChar(word: string): (r: string)
    ensures |r| <= 1 && (word != [] ==> r == [word[0]]) && (word == [] ==> r == [])
  {
    if word == [] then [] else [word[0]]
  }

  /** `.map(word => word.charAt(0)).join('')` */
  function Heads(words: seq<string>): (r: string)
    ensures |r| <= |words|
    ensures forall k :: 0 <= k < |r| ==> exists w :: w in words && w != [] && r[k] == w[0]
  {
    if words == [] then []
    else
      var rest := Heads(words[1..]);
      var r := FirstChar(words[0]) + rest;
      assert forall w :: w in words[1..] ==> w in words;
      r
  }

  /** The non-empty words, in order: the ones whose first character shows. */
  function NonEmptyWords(words: seq<string>): (r: seq<string>)
    ensures |r| <= |words|
    ensures forall w :: w in r <==> w in words && w != []
    ensures forall k :: 0 <= k < |r| ==> r[k] != []
  {
    if words == [] then []
    else (if words[0] != [] then [words[0]] else []) + NonEmptyWords(words[1..])
  }

  /**
   * An empty word adds nothing to the joined first characters, so they are
   * exactly the first characters of the non-empty words, in order.
   */
  lemma {:induction false} HeadsOfNonEmptyWords(words: seq<string>)
    ensures |Heads(words)| == |NonEmptyWords(words)|
    ensures forall k :: 0 <= k < |Heads(words)| ==> Heads(words)[k] == NonEmptyWords(words)[k][0]
  {
    if words != [] {
      var rest := words[1..];
      HeadsOfNonEmptyWords(rest);
      var h, n := Heads(rest), NonEmptyWords(rest);
      assert Heads(words) == FirstChar(words[0]) + h;
      assert NonEmptyWords(words) == (if words[0] != [] then [words[0]] else []) + n;
      if words[0] != [] {
        assert Heads(words) == [words[0][0]] + h;
        assert NonEmptyWords(words) == [words[0]] + n;
        forall k | 1 <= k < |Heads(words)|
          ensures Heads(words)[k] == NonEmptyWords(words)[k][0]
        {
          assert Heads(words)[k] == h[k - 1];
          assert NonEmptyWords(words)[k] == n[k - 1];
        }
      }
    }
  }

  /** `.slice(0, 2)` */
  function Take2(s: string): (r: string)
    ensures |r| <= 2 && |r| <= |s| && r == s[..|r|]
    ensures |s| >= 2 ==> |r| == 2
  {
    if |s| <= 2 then s else s[..2]
  }

  /**
   * `getInitials(name)`: the upper-cased first characters of the first two
   * non-empty space-separated words; empty words (from repeated, leading or
   * trailing spaces) contribute nothing.
   */
  function GetInitials(name: string): (r: string)
    ensures var words := NonEmptyWords(Split(name, ' '));
            && |r| == (if |words| < 2 then |words| else 2)
            && forall k :: 0 <= k < |r| ==> r[k] == UpperChar(words[k][0])
  {
    var heads := Heads(Split(name, ' '));
    HeadsOfNonEmptyWords(Split(name, ' '));
    var r := Take2(ToUpper(heads));
    assert forall k :: 0 <= k < |r| ==> r[k] == UpperChar(heads[k]);
    r
  }

  lemma HeadsCons(w: string, ws: seq<string>)
    ensures Heads([w] + ws) == FirstChar(w) + Heads(ws)
  {
    assert ([w] + ws)[1..] == ws;
  }

  /** A single word gives a single initial. */
  lemma OneWord(a: string)
    requires a != [] && ' ' !in a
    ensures GetInitials(a) == [UpperChar(a[0])]
  {
    SplitWord(a, ' ');
    HeadsCons(a, []);
  }

  /** Two words give the first letter of each, upper-cased. */
  lemma TwoWords(a: string, b: string)
    requires a != [] && ' ' !in a && b != [] && ' ' !in b
    ensures GetInitials(a + " " + b) == [UpperChar(a[0]), UpperChar(b[0])]
  {
    SplitAfterWord(a, b, ' ');
    SplitWord(b, ' ');
    HeadsCons(a, [b]);
    HeadsCons(b, []);
  }

  /** Words after the second one never show. */
  lemma LaterWordsIgnored(a: string, b: string, rest: string)
    requires a != [] && ' ' !in a && b != [] && ' ' !in b
    ensures GetInitials(a + " " + b + " " + rest) == GetInitials(a + " " + b)
  {
    TwoWords(a, b);
    assert a + " " + b + " " + rest == a + [' '] + (b + [' '] + rest);
    SplitAfterWord(a, b + [' '] + rest, ' ');
    SplitAfterWord(b, rest, ' ');
    HeadsCons(a, [b] + Split(rest, ' '));
    HeadsCons(b, Split(rest, ' '));
    assert Heads([a] + ([b] + Split(rest, ' '))) == [a[0], b[0]] + Heads(Split(rest, ' '));
  }

  /** A leading space adds an empty word, which contributes nothing. */
  lemma LeadingSpaceIgnored(s: string)
    ensures GetInitials(" " + s) == GetInitials(s)
  {
    assert [] + [' '] + s == " " + s;
    SplitAfterWord([], s, ' ');
    HeadsCons([], Split(s, ' '));
    assert Heads(Split(" " + s, ' ')) == Heads(Split(s, ' '));
  }

  /** `user?.email?.split('@')[0]`, or "" when there is no address. */
  function LocalPart(email: Option<string>): (r: string)
    ensures '@' !in r
  {
    if email.None? then "" else Split(email.value, '@')[0]
  }

  /**
   * `getDisplayName()`: the full name when non-empty, else the user name
   * when non-empty, else the local part of the e-mail address when
   * non-empty, else "User"; so it is never empty.
   */
  function DisplayName(fullName: Option<string>, username: Option<string>, email: Option<string>): (r: string)
    ensures r != ""
    ensures Truthy(fullName) ==> r == fullName.value
    ensures !Truthy(fullName) && Truthy(username) ==> r == username.value
    ensures !Truthy(fullName) && !Truthy(username) ==> r == (if LocalPart(email) != "" then LocalPart(email) else "User")
  {
    if Truthy(fullName) then fullName.value
    else if Truthy(username) then username.value
    else if LocalPart(email) != "" then LocalPart(email)
    else "User"
  }

  /** Without a name on the profile, an address `local@domain` is shown as `local`. */
  lemma AddressShowsLocalPart(local: string, domain: string)
    requires local != "" && '@' !in local
    ensures DisplayName(None, None, Some(local + "@" + domain)) == local
  {
    SplitAfterWord(local, domain, '@');
  }

  /** Without any name and with an address that starts with '@' (or none at all), the fallback is "User". */
  lemma FallbackName(domain: string)
    ensures DisplayName(None, None, Some("@" + domain)) == "User"
    ensures DisplayName(None, None, None) == "User"
  {
    SplitAfterWord([], domain, '@');
    assert [] + ['@'] + domain == "@" + domain;
  }
}

=== FILE: webhook.dfy ===
/**
 * The webhook of app/api/whatsapp/webhook/route.ts as an object whose
 * fields the handlers update in place: the module-level redelivery set
 * `processedMessages`, the transaction and category tables, and the
 * messages sent. Each method is proved to leave exactly the state the
 * matching function of module Pipeline describes.
 */
module WebhookRoute {
  import opened Records
  import opened Text
  import opened Extraction
  import opened Resolver
  import opened Rows
  import opened Pipeline

  class Webhook {
    var processed: set<string>
    var transactions: seq<Transaction>
    var categories: seq<CategoryRow>
    var outbox: seq<Outgoing>

    function Snapshot(): State
      reads this
    {
      State(processed, transactions, categories, outbox)
    }

    /** A freshly loaded module: an empty set over the given tables. */
    constructor(rows: seq<Transaction>, cats: seq<CategoryRow>)
      ensures Snapshot() == State({}, rows, cats, [])
    {
      processed := {};
      transactions := rows;
      categories := cats;
      outbox := [];
    }

    /** `sendWhatsAppMessage` */
    method SendMessage(to: string, n: Notice)
      modifies this
      ensures Snapshot() == Send(old(Snapshot()), to, n)
    {
      outbox := outbox + [Outgoing(to, n)];
    }

    /** The hourly `setInterval` callback. */
    method Tick()
      modifies this
      ensures Snapshot() == Pipeline.Tick(old(Snapshot()))
    {
      if |processed| > 1000 {
        processed := {};
      }
    }

    /** `ensureCategoryExists` */
    method EnsureCategoryExists(userId: string, name: string, kind: TxType)
      modifies this
      ensures Snapshot() == old(Snapshot()).(categories := EnsureCategory(old(categories), userId, name, kind))
    {
      if HasCategory(categories, userId, name, kind) {
        return;
      }
      var maxOrder := MaxOrder(categories, userId, kind);
      categories := categories + [CategoryRow(userId, name, kind, CategoryColor(kind), maxOrder + 1)];
    }

    /** `createAutoTransaction`; `ok` is false when it throws. */
    method CreateAutoTransaction(userId: string, data: TransactionData, phone: string, imageId: string, env: Env) returns (ok: bool)
      modifies this
      ensures Snapshot() == AutoTransaction(old(Snapshot()), userId, data, phone, imageId, env)
      ensures ok == AutoTransactionOk(data, imageId, env)
    {
      if data.amount <= 0.0 {
        SendMessage(phone, SaveFailed);
        return false;
      }
      EnsureCategoryExists(userId, data.category, data.kind);
      if !env.insertOk(imageId) {
        SendMessage(phone, SaveFailed);
        return false;
      }
      transactions := transactions + [AutoRow(userId, data, env.now)];
      return true;
    }

    /** The part of `processTransactionImage` after the extraction. */
    method SaveExtractedData(userId: string, data: TransactionData, phone: string, imageId: string, env: Env)
      modifies this
      ensures Snapshot() == SaveExtracted(old(Snapshot()), userId, data, phone, imageId, env)
    {
      if !(data.amount > 0.0) {
        SendMessage(phone, ExtractionFailed);
        return;
      }
      var isDuplicate := IsDuplicate(transactions, userId, data, env.now, env.dupQueryOk(imageId));
      if isDuplicate {
        SendMessage(phone, DuplicateNotice(data));
        return;
      }
      var ok := CreateAutoTransaction(userId, data, phone, imageId, env);
      if !ok {
        SendMessage(phone, ProcessingError);
        return;
      }
      SendMessage(phone, Added(data));
    }

    /** The part of `processTransactionImage` once the user is known. */
    method ProcessForUser(m: Message, user: Profile, phone: string, env: Env)
      modifies this
      ensures Snapshot() == ForUser(old(Snapshot()), m, user, phone, env)
    {
      SendMessage(phone, Processing);
      var imageId := ImageIdOf(m);
      if !Truthy(imageId) {
        SendMessage(phone, NoImage);
        return;
      }
      if !env.downloadOk(imageId.value) {
        SendMessage(phone, ProcessingError);
        return;
      }
      var data := ExtractTransactionData(env.gemini(imageId.value), env.parse, env.jsDate, env.today);
      SaveExtractedData(user.userId, data, phone, imageId.value, env);
    }

    /** `processTransactionImage` */
    method ProcessTransactionImage(m: Message, env: Env)
      modifies this
      ensures Snapshot() == ImageStep(old(Snapshot()), m, env)
    {
      var phone := m.from;
      if phone == "" {
        return;
      }
      var key := ImageKey(phone, env.now);
      if key in processed {
        return;
      }
      processed := processed + {key};
      var user := FindUserByPhone(phone, env.profiles, env.storeUp(m));
      if user.None? {
        SendMessage(phone, Welcome(phone));
        return;
      }
      ProcessForUser(m, user.value, phone, env);
    }

    /** `handleTextMessage` */
    method HandleTextMessage(m: Message, env: Env)
      modifies this
      ensures Snapshot() == TextStep(old(Snapshot()), m, env)
    {
      var phone := m.from;
      if phone == "" || !Truthy(m.textBody) {
        return;
      }
      var textMessage := ToLower(m.textBody.value);
      if Contains(textMessage, "help") {
        SendMessage(phone, Help);
      } else if Contains(textMessage, "status") {
        var userProfile := FindUserByPhone(phone, env.profiles, env.storeUp(m));
        if userProfile.Some? {
          SendMessage(phone, RegisteredStatus(Prefix8(userProfile.value.userId) + "...", userProfile.value.phone));
        } else {
          SendMessage(phone, NotRegistered(phone));
        }
      } else if Contains(textMessage, "test") {
        SendMessage(phone, TestEcho(phone, textMessage));
      } else {
        SendMessage(phone, NotUnderstood);
      }
    }

    /** The body of the innermost `POST` loop. */
    method HandleMessage(m: Message, env: Env)
      modifies this
      ensures Snapshot() == MessageStep(old(Snapshot()), m, env)
    {
      if Truthy(m.id) && m.id.value in processed {
        return;
      }
      if Truthy(m.id) {
        processed := processed + {m.id.value};
      }
      if m.msgType == "image" {
        ProcessTransactionImage(m, env);
      } else if m.msgType == "text" {
        HandleTextMessage(m, env);
      } else if m.from != "" {
        SendMessage(m.from, UsageHint);
      }
    }

    /** One change of an entry; `thrown` says whether reading it or one of its messages threw. */
    method ProcessChange(c: Change, env: Env) returns (thrown: bool)
      modifies this
      ensures Run(Snapshot(), thrown) == ChangeStep(old(Snapshot()), c, env)
    {
      if c.BrokenChange? {
        return true;
      }
      if c.field != "messages" || c.statuses > 0 {
        return false;
      }
      var ms := c.messages;
      for i := 0 to |ms|
        invariant Run(Snapshot(), false) == Messages(old(Snapshot()), ms[..i], env)
      {
        assert ms[..i + 1][..i] == ms[..i];
        if ms[i].None? {
          MessagesStop(old(Snapshot()), ms, i + 1, env);
          return true;
        }
        HandleMessage(ms[i].value, env);
      }
      assert ms[..|ms|] == ms;
      return false;
    }

    /** One entry of the body; `thrown` says whether it threw. */
    method ProcessEntry(e: Entry, env: Env) returns (thrown: bool)
      modifies this
      ensures Run(Snapshot(), thrown) == EntryStep(old(Snapshot()), e, env)
    {
      if e.BrokenEntry? {
        return true;
      }
      var cs := e.changes;
      for i := 0 to |cs|
        invariant Run(Snapshot(), false) == Changes(old(Snapshot()), cs[..i], env)
      {
        assert cs[..i + 1][..i] == cs[..i];
        var t := ProcessChange(cs[i], env);
        if t {
          ChangesStop(old(Snapshot()), cs, i + 1, env);
          return true;
        }
      }
      assert cs[..|cs|] == cs;
      return false;
    }

    /** `POST`: a throw ends the loops and turns into the 500 reply. */
    method Post(body: Body, env: Env) returns (reply: PostReply)
      modifies this
      ensures (Snapshot(), reply) == Pipeline.Post(old(Snapshot()), body, env)
    {
      if body.Malformed? {
        return ServerError;
      }
      if body.obj == "whatsapp_business_account" {
        var es := body.entries;
        for i := 0 to |es|
          invariant Run(Snapshot(), false) == Entries(old(Snapshot()), es[..i], env)
        {
          assert es[..i + 1][..i] == es[..i];
          var t := ProcessEntry(es[i], env);
          if t {
            EntriesStop(old(Snapshot()), es, i + 1, env);
            return ServerError;
          }
        }
        assert es[..|es|] == es;
      }
      return Success;
    }
  }
}
